=== FILE: README.md ===
# Configuration format converter — Dafny model

A model of the data-handling core of `scripts/convert.py`, a command-line
tool that converts configuration files between JSON, YAML, TOML, INI and
`.env`. The model covers:

- choosing the input format from a file name (`detect_format`);
- the `.env` reader (`parse_env`) and the `.env` writer;
- dot-notation flattening (`flatten`) and its inverse (`unflatten`);
- `_toml_value` and the hand-written TOML fallback writer;
- the INI writer's assignment of top-level entries to sections.

A configuration value is the datatype `Values.Value` (null, bool, int,
float, string, list, dict). A Python dict is an association list in insertion
order (`Dicts.Dict`). Assigning to a present key replaces its value in place,
and assigning to an absent key appends it, as CPython's dicts do.

## Modules

| module | contents |
|---|---|
| `Optional` | `Option` |
| `Text` | `str.strip`, `splitlines`, `join`, `split`, ASCII `lower`, decimal `str(int)` |
| `Dicts` | `Dict`, `Keys`, `Get`, `Put` (assignment), `PutAll` (`update`) |
| `Values` | `Value`, `str(v)`, the scalar and table parts of a top-level dict |
| `Detect` | `detect_format`, `os.path.splitext`, `os.path.basename` |
| `Flattening` | `flatten` and its reference definition over leaf paths |
| `Unflattening` | `unflatten`, with its failure on a scalar prefix, and the flatten/unflatten round trip |
| `EnvFile` | `parse_env`, the `.env` writer and their round trips |
| `TomlString` | the quoting `_toml_value` performs (`json.dumps`), a corrected quoting, and a TOML basic-string reader |
| `TomlWriter` | `_toml_value`, the fallback TOML writer, and a line reader for what it writes |
| `Ini` | the INI writer's section assignment |

A few Python functions are parameters because their text is not modelled:

- `dumps` is `json.dumps` of a list, which `flatten` writes.
- `repr` is `str` of a list or a dict.

A float is carried as the text `str(float)` gives for it.

## Model

| member | source | states |
|---|---|---|
| Detect.SplitExt | scripts/convert.py:41 | the root and the extension concatenate to the name; the extension is empty or begins with its only dot and contains no `/`; a non-empty extension leaves a base name that holds something other than dots, and an empty one means every dot of the base name has only dots before it |
| Detect.Basename | scripts/convert.py:45 | the base name holds no `/`, ends the path, and is the whole path or preceded by a `/` |
| Detect.ExtFormat | scripts/convert.py:31-39 | a lower-cased extension maps to a format exactly when it is one of that format's extensions |
| Detect.DetectFormat | scripts/convert.py:30-48 | no name gives no format; a known extension, in any letter case, decides; otherwise `env` exactly when the lower-cased base name starts with `.env`; otherwise no format |
| Detect.DetectByExtension | scripts/convert.py:40-44 | `root.ext` is read in the format whose table entry matches `.ext` lower-cased |
| Text.Strip | scripts/convert.py:53 | the result is the input with white space cut from both ends: an infix whose prefix and suffix are all white space, with no white space at either end of its own |
| Text.StripIdentityMeans | scripts/convert.py:53 | `strip` leaves a string alone exactly when neither end is white space |
| Text.SplitLines | scripts/convert.py:52 | no line holds a line break |
| Text.SplitLinesWeave | scripts/convert.py:52 | the lines, each followed by the break it was cut at, rebuild the text; every break is a `str.splitlines` boundary (`\r\n` is never cut in two), and only the last line may end without one, when it is not empty |
| Text.IntToDecimal | scripts/convert.py:75 | `str(i)` is a `-` exactly for a negative number, then decimal digits, with no leading zero, whose value is the magnitude of `i` |
| Text.SplitLinesOfJoined | scripts/convert.py:52 | lines without line breaks, joined with `\n`, are split back into the same lines |
| Text.SplitJoin | scripts/convert.py:81 | `key.split(".")` recovers the parts a key was joined from when no part holds a dot |
| Dicts.Put | scripts/convert.py:63 | assigning to a present key keeps the key order; assigning to an absent key appends the entry |
| Dicts.PutGet | scripts/convert.py:63 | after an assignment, the key maps to the new value and every other key is unchanged |
| Dicts.PutAllFresh | scripts/convert.py:71 | `update` with keys that are all new appends the entries in order |
| Values.Scalars | scripts/convert.py:131-135 | no value in the scalar part is a dict; it is the whole dict when no value is a dict |
| Values.ScalarsMembers | scripts/convert.py:131-135 | the scalar part holds exactly the non-dict top-level entries: each of its entries is in the dict, and each non-dict entry of the dict is in it |
| Values.ScalarsAppend | scripts/convert.py:131-135 | the scalar part of two dicts laid end to end is the scalar part of the first followed by that of the second, so the scalars keep their order |
| Values.Tables | scripts/convert.py:131-133 | the table part is empty exactly when no top-level value is a dict |
| Values.TablesMembers | scripts/convert.py:131-133 | the table part holds exactly the dict-valued top-level entries, each with its entries |
| Values.StrValues | scripts/convert.py:150 | each key keeps its place and maps to `str` of its value |
| Flattening.Flatten | scripts/convert.py:66-76 | the flattened dict never repeats a key, and it is what assigning every leaf in depth-first order to its dotted key gives: a key reached by two leaves keeps the first one's place and takes the last one's text, as repeated assignment and `update` do |
| Flattening.FlattenUpTo | scripts/convert.py:68-75 | after the loop has seen the first `n` entries, the flat dict is what assigning the leaves under those entries, in order, gives |
| Flattening.FlattenIsRender | scripts/convert.py:66-76 | when no two leaves get the same dotted key, flattening lists every leaf in depth-first order, keyed by the dotted path from the top, with `""` for `None`, `json.dumps` for a list and `str` for any other value |
| Flattening.FlattenWellKeyed | scripts/convert.py:66-76 | for a dict whose keys are non-empty and dot-free at every level, the i-th flattened entry is the i-th leaf: its path joined with `.` and its text |
| Unflattening.Insert | scripts/convert.py:81-85 | a one-part key is a plain assignment; a successful insertion into a dict without repeated keys leaves none |
| Unflattening.InsertTop | scripts/convert.py:82-85 | a successful insertion binds the key's first part and leaves every other top-level key as it was |
| Unflattening.Unflatten | scripts/convert.py:78-86 | an empty dict unflattens to an empty dict; a result never repeats a key and binds the first dotted part of every input key |
| Unflattening.InsertFound | scripts/convert.py:81-85 | after a successful insertion, looking up the key's path finds the value |
| Unflattening.InsertFails | scripts/convert.py:83-84 | inserting fails (Python raises) exactly when a proper prefix of the path already holds a non-dict |
| Unflattening.InsertFrame | scripts/convert.py:81-85 | an insertion leaves every path that diverges from it unchanged |
| Unflattening.InsertAllFrame | scripts/convert.py:80-85 | the loop leaves every path that diverges from all the keys' paths as it was |
| Unflattening.InsertAllFound | scripts/convert.py:80-85 | after a successful loop, the path of entry `i` holds entry `i`'s value whenever every later path diverges from it |
| Unflattening.InsertAllFails | scripts/convert.py:80-85 | the loop fails exactly when some entry, inserted after the entries before it succeeded, runs through a value that is not a dict |
| Unflattening.UnflattenFound | scripts/convert.py:78-86 | after a successful `unflatten`, looking up the dotted path of key `i` gives its value, unless a later key's path runs into it or below it |
| Unflattening.UnflattenFails | scripts/convert.py:78-86 | `unflatten` raises exactly when some key, once the keys before it are unflattened without error, has a proper prefix of its path bound to a non-dict |
| Unflattening.UnflattenDotFree | scripts/convert.py:78-86 | a dict with no dot in any key unflattens to itself |
| Unflattening.UnflattenFlatten | scripts/convert.py:66-86 | unflattening the flattened form of a well-keyed dict with no empty sub-dict rebuilds its shape with every leaf's text in place of the leaf |
| Unflattening.UnflattenFlattenStrings | scripts/convert.py:66-86 | when every leaf is a string, unflatten undoes flatten exactly |
| EnvFile.Unquote | scripts/convert.py:60-62 | a value wrapped in matching `"` or `'` loses exactly the outer pair; any other value is unchanged |
| EnvFile.ParseLine | scripts/convert.py:53-63 | a line that yields a binding yields a key matching `[A-Za-z_][A-Za-z0-9_.]*`; a blank line or one whose stripped text starts with `#` yields none |
| EnvFile.ParseLineShape | scripts/convert.py:53-63 | a line yields a binding only if it is white space, the key, white space, `=` and a rest, and the value is then the stripped, unquoted rest |
| EnvFile.ParseLineOf | scripts/convert.py:53-63 | a line of white space, a key, white space, `=` and a rest binds the key to the stripped, unquoted rest |
| EnvFile.ParseEnv | scripts/convert.py:50-64 | the result never repeats a key; its keys are those the lines bind, in the order of each key's first binding line; and each key maps to the value of the last line of the text (as `splitlines` cuts it) that binds it |
| EnvFile.ParseLinesKeys | scripts/convert.py:52-63 | a key keeps the place of the first line that binds it; a later binding changes only its value |
| EnvFile.ParseLines | scripts/convert.py:50-64 | the parsed dict never repeats a key, and every key matches the key pattern |
| EnvFile.ParseLinesGet | scripts/convert.py:52-63 | each key maps to the value of its last binding line; a later line overrides an earlier one |
| EnvFile.WriteEnv | scripts/convert.py:157-167 | the flattening warning is given exactly when a top-level value is a dict; whatever the keys, the text has one line per flat entry, in order, each as `EnvLine` writes it, whenever no key or value holds a line break; read back by `parse_env`, it gives the flattened (or flat) dict whenever its keys match the key pattern and its values are one-line and safe as below |
| EnvFile.EnvLine | scripts/convert.py:162-166 | the line is the key unchanged, `=`, and the value, wrapped in `"` exactly when it holds a space, `=` or `"`; it has no line break when neither key nor value has one; under a key matching the pattern, the line parses to the key and the stripped, unquoted written value, which is `v` exactly when the writer quotes `v`, or `v` has no white space at either end and is not wrapped in matching quotes; and for a one-line `v`, `parse_env` of the line with its newline gives back `{k: v}` exactly then |
| EnvFile.EnvText | scripts/convert.py:161-167 | the text ends with a newline and is just `\n` for no entries; for entries without line breaks, `splitlines` cuts it into exactly the entries' lines, in order, for any keys; a flat dict of pattern keys and safe one-line values is read back by `parse_env` as the same dict |
| EnvFile.EnvRoundTripFlat | scripts/convert.py:157-167 | flat string data is written without a warning and reads back unchanged |
| EnvFile.EnvRoundTripNested | scripts/convert.py:157-167 | nested string data is written with a warning, and reading it back and unflattening gives the data |
| TomlString.TomlQuoteRoundTrip | scripts/convert.py:178 | the corrected quoting of any string reads back, as a TOML basic string, as that string |
| TomlString.JsonQuoteAsToml | scripts/convert.py:178 | `json.dumps` of a string reads back as that string exactly when no character lies above U+FFFF; otherwise a TOML reader rejects it |
| TomlString.GrinningFace | scripts/convert.py:178 | `json.dumps("😀")` is rejected as TOML, and `\U0001f600` reads back as U+1F600 |
| TomlString.JsonQuotePrintable | scripts/convert.py:178 | `json.dumps` of a string is printable ASCII, so a written value never breaks a line |
| TomlString.TomlQuotePrintable | scripts/convert.py:178 | the corrected quoting is printable ASCII too |
| TomlWriter.TomlValue | scripts/convert.py:172-183 | a string, and `str` of `None` or a dict, is written so that a TOML basic-string reader gets it back exactly when it has no character above U+FFFF; a list is written as its items' texts joined with `, ` in brackets |
| TomlWriter.TomlValueOneLine | scripts/convert.py:172-183 | `_toml_value` writes every value, lists included, on one line |
| TomlWriter.WriteToml | scripts/convert.py:127-142 | with bare keys, reading the written TOML text gives the top-level scalars, then every table with its entries, in order, each value as `_toml_value` wrote it |
| Ini.IniSections | scripts/convert.py:144-147 | the warning is given exactly when no top-level value is a dict; flat data becomes the single `DEFAULT` section holding `str` of every value |
| Ini.Assign | scripts/convert.py:149-153 | a scalar becomes (or replaces) a `DEFAULT` option; a `DEFAULT` table replaces all defaults; a table under the empty name adds its options to the defaults and leaves an empty section `""`; any other table becomes (or replaces) the section of its name; nothing else changes |
| Ini.IniNested | scripts/convert.py:148-153 | with no `DEFAULT` table, scalars and the options of a table under the empty name go to `DEFAULT` in order, and every table becomes a section, in order, all values through `str`; with no table under the empty name, the defaults are exactly the stringified scalars |
| Ini.IniDefaultTable | scripts/convert.py:148-153 | a `DEFAULT` table replaces the defaults assigned before it; later scalars (and tables under the empty name) are added to it; every other table becomes a section, in order |
| Ini.AssignAllNoDefault | scripts/convert.py:149-153 | without a `DEFAULT` table, the loop updates the defaults with the stringified scalars and empty-name tables, and the sections with the stringified tables |
| Ini.DefaultOptionsScalars | scripts/convert.py:149-153 | when no table has the empty name, the options sent to `DEFAULT` are exactly the stringified scalars |

## Where the code and its description differ

The model follows the code.

- A table under the empty name `""` does not become a section of its own. `cp[""] = {...}` adds the section `""` and then stores each option with `ConfigParser.set`, which sends an empty section name to `DEFAULT`. So the options land in `DEFAULT` and the section `""` stays empty.
- The TOML fallback writer quotes with `json.dumps`, which is not always valid TOML (see Findings).
- The `.env` writer writes keys as they are, without upper-casing them. It wraps a value in double quotes without escaping the quotes inside it. It flattens only when some top-level value is a dict.
- `flatten` writes a boolean as Python's `str` does: `True` or `False`.
- `unflatten` raises an error when a dotted key runs through an existing non-dict value. The model's `Unflattening.Insert` returns `None` there.

## Left out

- File and stream I/O, the command line, `main`, `check_dependencies` and `read_input` are not modelled. They only move text between the operations above and the outside world.
- Warnings printed to standard error are not modelled as text. They become a `warned` flag.
- The library parsers and writers (`json`, `yaml`, `tomllib`/`tomli`, `tomli_w`) are not modelled. They are code outside the repository.
- `configparser` is not modelled: its reading, `cp.write` serialisation, option-name lower-casing (`optionxform`), `DuplicateOptionError` and `%`-interpolation checks. These are the library's, and the model stops at the section assignment.
- Ini.IniSections: records option names as given. `configparser` would lower-case them before storing them.
- The text of `str(float)`, `json.dumps(list)` and `repr` of a list or dict is not modelled. Floats are carried as their text, and the other two are parameters.
- TomlWriter.WriteToml: the round trip is proved only for bare keys (letters, digits, `_`, `-`) and for float texts without line breaks. The fallback writer does not quote keys, so other keys are not valid TOML.
- TomlWriter.WriteToml: the round trip is stated against a line reader for the writer's own layout (`key = value` pairs and `[name]` headers), not a full TOML parser. Values are compared as the text written.
- Python strings may hold lone surrogates, but a Dafny `char` is a Unicode scalar value, so lone surrogates are not modelled.
- `os.path` is modelled with `/` as the only separator, as on POSIX.
- Letter case is folded for ASCII letters only. Every extension and prefix it is compared with is ASCII.
- `unflatten`'s sharing of the input's nested dicts is not modelled. Values are immutable here.
- The top-level value is a dict. `write_output` calls `data.items()` or `data.values()` (scripts/convert.py:131, :144, :158), so a top-level list or scalar makes Python raise; that error is not modelled.
- Date and time values from the YAML and TOML readers have no `Value` case. `_toml_value` writes them as `json.dumps(str(v))` (scripts/convert.py:183), as it does `None` and dicts.
- TomlWriter.TomlValue: states nothing about booleans and numbers beyond the body's `true`/`false` and `str(v)`; the text of `str(float)` is carried, not modelled.
- EnvFile.EnvText: the one-line-per-entry shape is stated only when no key or value holds a line break. The writer does not escape line breaks, so such an entry spreads over several lines.
- Keys are strings. The readers only produce string keys, apart from YAML's non-string keys, which are not modelled.

## Findings

| source | as written | input that shows it | evidently intended | confidence | as-written member | corrected member |
|---|---|---|---|---|---|---|
| scripts/convert.py:178 | strings are quoted with `json.dumps`, which writes a character above U+FFFF as a UTF-16 surrogate pair, `\ud83d\ude00` for U+1F600; TOML 1.0 allows only Unicode scalar values in `\u` escapes, so the output is not valid TOML | the string `"😀"` (U+1F600) as a top-level value | a TOML basic string, with `\U0001f600` for such a character | not executed | TomlString.JsonQuote (TomlString.JsonQuoteAsToml, TomlString.GrinningFace, TomlWriter.TomlValue) | TomlString.TomlQuote (TomlString.TomlQuoteRoundTrip, TomlString.TomlQuotePrintable) |

The writer, `TomlWriter.TomlValue`, quotes with `TomlString.JsonQuote` as the code does, and its contract states when a TOML reader rejects the result. `TomlString.TomlQuote` is the quoting that reads back for every string.

=== FILE: detect.dfy ===
/** Choosing the input format from a file name (`detect_format`): the
    extension, looked up case-insensitively, decides; failing that, a base
    name beginning with `.env` means the .env format. */
module Detect {
  import opened Optional
  import opened Text

  datatype Format = Json | Yaml | Toml | Ini | Env

  /** `s.rfind(c)`: the last position of `c`, or -1. */
  function RFind(s: string, c: char): (i: int)
    ensures -1 <= i < |s|
    ensures i >= 0 ==> s[i] == c
    ensures forall j :: i < j < |s| ==> s[j] != c
  {
    if s == [] then -1
    else if s[|s| - 1] == c then |s| - 1
    else RFind(s[..|s| - 1], c)
  }

  lemma {:induction false} RFindAppend(a: string, b: string, c: char)
    requires c !in b
    ensures RFind(a + b, c) == RFind(a, c)
    decreases |b|
  {
    if b != [] {
      assert (a + b)[..|a + b| - 1] == a + b[..|b| - 1];
      RFindAppend(a, b[..|b| - 1], c);
    } else {
      assert a + b == a;
    }
  }

  /** `os.path.basename` with `/` as the separator: the longest suffix of
      the path that holds no `/`. */
  function Basename(p: string): (b: string)
    ensures '/' !in b
    ensures |b| <= |p| && p[|p| - |b|..] == b
    ensures |b| < |p| ==> p[|p| - |b| - 1] == '/'
  {
    p[RFind(p, '/') + 1..]
  }

  predicate HasNonDot(s: string) {
    exists i :: 0 <= i < |s| && s[i] != '.'
  }

  /** Where `os.path.splitext` (with `/` as the separator) starts the
      extension: at the last dot of the base name, unless everything before
      that dot in the base name is a dot (so `.env` has no extension); `|p|`
      when there is no extension. */
  function ExtStart(p: string): (k: nat)
    ensures k <= |p|
    ensures k < |p| ==> p[k] == '.'
    ensures forall j :: k <= j < |p| ==> p[j] != '/' && (j > k ==> p[j] != '.')
  {
    var sep := RFind(p, '/');
    var dot := RFind(p, '.');
    if dot > sep && HasNonDot(p[sep + 1..dot]) then dot else |p|
  }

  /** `os.path.splitext`: root and extension, which together are the name.
      A non-empty extension starts at the last dot of the base name and has
      a non-dot character of the base name before it; the extension is empty
      only when no dot of the base name has one. */
  function SplitExt(p: string): (r: (string, string))
    ensures r.0 + r.1 == p
    ensures r.1 == [] || r.1[0] == '.'
    ensures forall j :: 0 <= j < |r.1| ==> r.1[j] != '/' && (j > 0 ==> r.1[j] != '.')
    ensures r.1 != [] ==> HasNonDot(Basename(r.0))
    ensures r.1 == [] ==>
      forall j :: 0 <= j < |Basename(p)| && Basename(p)[j] == '.' ==> !HasNonDot(Basename(p)[..j])
  {
    var k := ExtStart(p);
    assert p[..k] + p[k..] == p;
    if k < |p| then
      ExtensionAfterBase(p);
      (p[..k], p[k..])
    else
      NoExtension(p);
      (p[..k], p[k..])
  }

  lemma {:induction false} ExtensionAfterBase(p: string)
    requires ExtStart(p) < |p|
    ensures HasNonDot(Basename(p[..ExtStart(p)]))
  {
    var sep := RFind(p, '/');
    var dot := ExtStart(p);
    assert '/' !in p[dot..];
    assert p[..dot] + p[dot..] == p;
    RFindAppend(p[..dot], p[dot..], '/');
    assert Basename(p[..dot]) == p[sep + 1..dot];
  }

  lemma {:induction false} NoExtension(p: string)
    requires ExtStart(p) == |p|
    ensures forall j :: 0 <= j < |Basename(p)| && Basename(p)[j] == '.' ==> !HasNonDot(Basename(p)[..j])
  {
    var sep := RFind(p, '/');
    var dot := RFind(p, '.');
    var b := Basename(p);
    var d := if dot > sep then dot - sep - 1 else -1;
    assert b == p[sep + 1..];
    assert forall q :: d < q < |b| ==> b[q] != '.' by {
      forall q | d < q < |b| ensures b[q] != '.' {
        assert b[q] == p[sep + 1 + q];
      }
    }
    assert d >= 0 ==> !HasNonDot(b[..d]) by {
      if d >= 0 {
        assert b[..d] == p[sep + 1..dot];
      }
    }
    OnlyDotsBeforeDots(b, d);
  }

  /** When everything before the last dot is a dot, so is everything before
      any dot. */
  lemma {:induction false} OnlyDotsBeforeDots(b: string, d: int)
    requires -1 <= d < |b|
    requires forall q :: d < q < |b| ==> b[q] != '.'
    requires d >= 0 ==> !HasNonDot(b[..d])
    ensures forall j :: 0 <= j < |b| && b[j] == '.' ==> !HasNonDot(b[..j])
  {
    forall j | 0 <= j < |b| && b[j] == '.' ensures !HasNonDot(b[..j]) {
      assert j <= d;
      forall x | 0 <= x < j ensures b[..j][x] == '.' {
        assert b[..j][x] == b[..d][x];
      }
    }
  }

  /** Appending `.e` to a name whose base name has some non-dot character
      makes `e` (with its dot) the extension and leaves the name as the root. */
  lemma {:induction false} SplitExtOfJoin(root: string, e: string)
    requires '.' !in e && '/' !in e
    requires HasNonDot(Basename(root))
    ensures SplitExt(root + "." + e) == (root, "." + e)
  {
    var p := root + "." + e;
    assert p == root + ("." + e);
    RFindAppend(root, "." + e, '/');
    RFindAppend(root + ".", e, '.');
    var sep := RFind(p, '/');
    var dot := RFind(p, '.');
    assert dot == |root|;
    assert p[sep + 1..dot] == Basename(root);
    assert p[..dot] == root;
    assert p[dot..] == "." + e;
  }

  /** The extensions each format claims. */
  function Extensions(f: Format): seq<string> {
    match f
    case Json => [".json"]
    case Yaml => [".yaml", ".yml"]
    case Toml => [".toml"]
    case Ini => [".ini", ".cfg"]
    case Env => [".env"]
  }

  /** The extension table of `detect_format`, applied to an already
      lower-cased extension. */
  function ExtFormat(ext: string): (r: Option<Format>)
    ensures forall f: Format :: r == Some(f) <==> ext in Extensions(f)
  {
    if ext == ".json" then Some(Json)
    else if ext == ".yaml" || ext == ".yml" then Some(Yaml)
    else if ext == ".toml" then Some(Toml)
    else if ext == ".ini" || ext == ".cfg" then Some(Ini)
    else if ext == ".env" then Some(Env)
    else None
  }

  /** The lower-cased extension of a file name. */
  function LowerExt(f: string): string {
    Lower(SplitExt(f).1)
  }

  /** True for a file name Python treats as truthy. */
  predicate Named(filename: Option<string>) {
    filename.Some? && filename.value != ""
  }

  /** `detect_format(filename)`; `None` stands for both an absent file name
      and an undetectable format. */
  function DetectFormat(filename: Option<string>): (r: Option<Format>)
    ensures !Named(filename) ==> r == None
    ensures forall f: Format :: Named(filename) && LowerExt(filename.value) in Extensions(f) ==> r == Some(f)
    ensures r.Some? && r.value != Env ==> LowerExt(filename.value) in Extensions(r.value)
    ensures r == Some(Env) && LowerExt(filename.value) != ".env" ==>
      ExtFormat(LowerExt(filename.value)) == None && StartsWith(Lower(Basename(filename.value)), ".env")
    ensures r == None && Named(filename) ==>
      ExtFormat(LowerExt(filename.value)) == None && !StartsWith(Lower(Basename(filename.value)), ".env")
  {
    if !Named(filename) then None
    else
      var fmt := ExtFormat(LowerExt(filename.value));
      if fmt.Some? then fmt
      else if StartsWith(Lower(Basename(filename.value)), ".env") then Some(Env)
      else None
  }

  /** A name whose extension is one of the table's, in any letter case, is
      read in that format. */
  lemma {:induction false} DetectByExtension(root: string, e: string, fmt: Format)
    requires '.' !in e && '/' !in e
    requires HasNonDot(Basename(root))
    requires ExtFormat(Lower("." + e)) == Some(fmt)
    ensures DetectFormat(Some(root + "." + e)) == Some(fmt)
  {
    SplitExtOfJoin(root, e);
  }
}

=== FILE: dicts.dfy ===
/** Python dictionaries with string keys, modelled as association lists in
    insertion order: assigning to a present key replaces its value where it
    stands, assigning to an absent key appends it. */
module Dicts {
  import opened Optional

  type Dict<V> = seq<(string, V)>

  function Keys<V>(d: Dict<V>): (ks: seq<string>)
    ensures |ks| == |d|
    ensures forall i :: 0 <= i < |d| ==> ks[i] == d[i].0
  {
    if d == [] then [] else [d[0].0] + Keys(d[1..])
  }

  lemma {:induction false} KeysCons<V>(d: Dict<V>)
    requires d != []
    ensures Keys(d) == [d[0].0] + Keys(d[1..])
  {
  }

  lemma {:induction false} KeysAppend<V>(a: Dict<V>, b: Dict<V>)
    ensures Keys(a + b) == Keys(a) + Keys(b)
  {
    if a != [] {
      assert (a + b)[1..] == a[1..] + b;
      KeysAppend(a[1..], b);
    }
  }

  /** No key occurs twice: every Python dict has this shape. */
  predicate UniqueKeys<V>(d: Dict<V>) {
    forall i, j :: 0 <= i < j < |d| ==> d[i].0 != d[j].0
  }

  /** `d.get(k)` */
  function Get<V>(d: Dict<V>, k: string): (r: Option<V>)
    ensures r.None? <==> k !in Keys(d)
    ensures r.Some? ==> (k, r.value) in d
  {
    if d == [] then None
    else
      KeysCons(d);
      if d[0].0 == k then Some(d[0].1) else Get(d[1..], k)
  }

  /** `d[k] = v` */
  function Put<V>(d: Dict<V>, k: string, v: V): (r: Dict<V>)
    ensures k in Keys(d) ==> Keys(r) == Keys(d)
    ensures k !in Keys(d) ==> r == d + [(k, v)]
  {
    if d == [] then [(k, v)]
    else if d[0].0 == k then [(k, v)] + d[1..]
    else [d[0]] + Put(d[1..], k, v)
  }

  /** After `d[k] = v`, looking up `k` gives `v` and every other key is
      unaffected. */
  lemma {:induction false} PutGet<V>(d: Dict<V>, k: string, v: V, k': string)
    ensures Get(Put(d, k, v), k') == if k' == k then Some(v) else Get(d, k')
  {
    if d != [] && d[0].0 != k {
      PutGet(d[1..], k, v, k');
    }
  }

  lemma {:induction false} PutGetAll<V>(d: Dict<V>, k: string, v: V)
    ensures forall k' :: Get(Put(d, k, v), k') == if k' == k then Some(v) else Get(d, k')
  {
    forall k' ensures Get(Put(d, k, v), k') == if k' == k then Some(v) else Get(d, k') {
      PutGet(d, k, v, k');
    }
  }

  lemma {:induction false} PutUnique<V>(d: Dict<V>, k: string, v: V)
    ensures UniqueKeys(d) ==> UniqueKeys(Put(d, k, v))
  {
    var r := Put(d, k, v);
    if UniqueKeys(d) && k in Keys(d) {
      assert Keys(r) == Keys(d);
      assert forall i :: 0 <= i < |r| ==> r[i].0 == Keys(d)[i];
    }
  }

  /** Assigning again to the key that was appended last replaces it there. */
  lemma {:induction false} PutLast<V>(r: Dict<V>, k: string, x: V, y: V)
    requires k !in Keys(r)
    ensures Put(r + [(k, x)], k, y) == r + [(k, y)]
  {
    PutMiddle(r, k, x, [], y);
    assert [(k, x)] + [] == [(k, x)] && [(k, y)] + [] == [(k, y)];
  }

  /** `d.update(es)`: the entries of `es` assigned one after another. */
  function PutAll<V>(d: Dict<V>, es: Dict<V>): Dict<V>
    decreases es
  {
    if es == [] then d else PutAll(Put(d, es[0].0, es[0].1), es[1..])
  }

  /** When no key repeats, updating appends. */
  lemma {:induction false} PutAllFresh<V>(d: Dict<V>, es: Dict<V>)
    requires UniqueKeys(d + es)
    ensures PutAll(d, es) == d + es
    decreases |es|
  {
    if es != [] {
      var e := es[0];
      forall i | 0 <= i < |d| ensures Keys(d)[i] != e.0 {
        assert (d + es)[i] == d[i] && (d + es)[|d|] == e;
      }
      assert Put(d, e.0, e.1) == d + [e];
      assert (d + [e]) + es[1..] == d + es;
      PutAllFresh(d + [e], es[1..]);
      assert PutAll(d, es) == PutAll(d + [e], es[1..]);
    }
  }

  /** Two updates in a row are one update with both. */
  lemma {:induction false} PutAllAppend<V>(d: Dict<V>, a: Dict<V>, b: Dict<V>)
    ensures PutAll(d, a + b) == PutAll(PutAll(d, a), b)
    decreases |a|
  {
    if a == [] {
      assert a + b == b;
    } else {
      assert (a + b)[0] == a[0] && (a + b)[1..] == a[1..] + b;
      PutAllAppend(Put(d, a[0].0, a[0].1), a[1..], b);
    }
  }

  lemma {:induction false} PutAllUnique<V>(d: Dict<V>, es: Dict<V>)
    requires UniqueKeys(d)
    ensures UniqueKeys(PutAll(d, es))
    decreases |es|
  {
    if es != [] {
      PutUnique(d, es[0].0, es[0].1);
      PutAllUnique(Put(d, es[0].0, es[0].1), es[1..]);
    }
  }

  lemma {:induction false} PutAllCons<V>(d: Dict<V>, x: (string, V), es: Dict<V>)
    ensures PutAll(d, [x] + es) == PutAll(Put(d, x.0, x.1), es)
  {
    assert ([x] + es)[0] == x && ([x] + es)[1..] == es;
  }

  lemma {:induction false} PutAllSingle<V>(d: Dict<V>, k: string, v: V)
    ensures PutAll(d, [(k, v)]) == Put(d, k, v)
  {
    assert [(k, v)][1..] == [];
  }

  lemma {:induction false} PutCons<V>(e: (string, V), d: Dict<V>, k: string, v: V)
    requires e.0 != k
    ensures Put([e] + d, k, v) == [e] + Put(d, k, v)
  {
    assert ([e] + d)[0] == e && ([e] + d)[1..] == d;
  }

  /** Assigning twice to a key is assigning the second value. */
  lemma {:induction false} PutPut<V>(d: Dict<V>, k: string, w: V, v: V)
    ensures Put(Put(d, k, w), k, v) == Put(d, k, v)
    decreases |d|
  {
    if d != [] && d[0].0 != k {
      PutPut(d[1..], k, w, v);
      PutCons(d[0], Put(d[1..], k, w), k, v);
    }
  }

  /** Assignments to two different keys commute when the first key is
      already present, so neither assignment appends before the other. */
  lemma {:induction false} PutCommute<V>(d: Dict<V>, k: string, v: V, k': string, u: V)
    requires k in Keys(d) && k != k'
    ensures Put(Put(d, k', u), k, v) == Put(Put(d, k, v), k', u)
    decreases |d|
  {
    KeysCons(d);
    if d[0].0 == k {
      PutCons(d[0], d[1..], k', u);
      PutCons((k, v), d[1..], k', u);
    } else if d[0].0 == k' {
      PutCons(d[0], d[1..], k, v);
      PutCons((k', u), d[1..], k, v);
    } else {
      PutCommute(d[1..], k, v, k', u);
      PutCons(d[0], Put(d[1..], k', u), k, v);
      PutCons(d[0], Put(d[1..], k, v), k', u);
    }
  }

  lemma {:induction false} PutKeeps<V>(d: Dict<V>, k: string, k': string, u: V)
    requires k in Keys(d)
    ensures k in Keys(Put(d, k', u))
  {
    if k' !in Keys(d) {
      KeysAppend(d, [(k', u)]);
    }
  }

  /** Re-assigning a present key that a later update does not touch can be
      done before the update. */
  lemma {:induction false} PutAllPutPresent<V>(d: Dict<V>, k: string, v: V, b: Dict<V>)
    requires k in Keys(d) && k !in Keys(b)
    ensures Put(PutAll(d, b), k, v) == PutAll(Put(d, k, v), b)
    decreases |b|
  {
    if b != [] {
      KeysCons(b);
      PutKeeps(d, k, b[0].0, b[0].1);
      PutAllPutPresent(Put(d, b[0].0, b[0].1), k, v, b[1..]);
      PutCommute(d, k, v, b[0].0, b[0].1);
    }
  }

  lemma {:induction false} PutMiddle<V>(a: Dict<V>, k: string, w: V, b: Dict<V>, v: V)
    requires k !in Keys(a)
    ensures Put(a + ([(k, w)] + b), k, v) == a + ([(k, v)] + b)
    decreases |a|
  {
    if a == [] {
      assert a + ([(k, w)] + b) == [(k, w)] + b;
      assert a + ([(k, v)] + b) == [(k, v)] + b;
      PutFirst(k, w, b, v);
    } else {
      assert a[0].0 != k && k !in Keys(a[1..]) by { KeysCons(a); }
      PutMiddle(a[1..], k, w, b, v);
      SplitHead(a, [(k, w)] + b);
      SplitHead(a, [(k, v)] + b);
      PutCons(a[0], a[1..] + ([(k, w)] + b), k, v);
    }
  }

  lemma {:induction false} PutFirst<V>(k: string, w: V, b: Dict<V>, v: V)
    ensures Put([(k, w)] + b, k, v) == [(k, v)] + b
  {
    assert ([(k, w)] + b)[0].0 == k && ([(k, w)] + b)[1..] == b;
  }

  lemma {:induction false} SplitHead<V>(a: Dict<V>, c: Dict<V>)
    requires a != []
    ensures a + c == [a[0]] + (a[1..] + c)
  {
  }

  /** A dict with unique keys is the entries before `j`, entry `j`, and the
      entries after it, neither of which holds entry `j`'s key. */
  lemma {:induction false} UniqueSplitAt<V>(e: Dict<V>, j: nat) returns (a: Dict<V>, w: V, b: Dict<V>)
    requires UniqueKeys(e) && j < |e|
    ensures e == a + ([(e[j].0, w)] + b)
    ensures e[j].0 !in Keys(a) && e[j].0 !in Keys(b)
  {
    a, w, b := e[..j], e[j].1, e[j + 1..];
    assert e == a + ([(e[j].0, w)] + b);
    forall i | 0 <= i < |a| ensures Keys(a)[i] != e[j].0 {
      assert a[i] == e[i];
    }
    forall i | 0 <= i < |b| ensures Keys(b)[i] != e[j].0 {
      assert b[i] == e[j + 1 + i];
    }
  }

  lemma {:induction false} PutAllReplace<V>(d: Dict<V>, a: Dict<V>, k: string, w: V, v: V, b: Dict<V>)
    requires k !in Keys(b)
    ensures PutAll(d, a + ([(k, v)] + b)) == Put(PutAll(d, a + ([(k, w)] + b)), k, v)
  {
    var x := PutAll(d, a);
    PutAllAppend(d, a, [(k, w)] + b);
    PutAllCons(x, (k, w), b);
    PutAllAppend(d, a, [(k, v)] + b);
    PutAllCons(x, (k, v), b);
    assert k in Keys(Put(x, k, w)) by {
      if k !in Keys(x) { KeysAppend(x, [(k, w)]); }
    }
    PutAllPutPresent(Put(x, k, w), k, v, b);
    PutPut(x, k, w, v);
  }

  /** Updating with `e` after `e[k] = v` is updating with `e` and then
      assigning `v` to `k`. */
  lemma {:induction false} PutAllPut<V>(d: Dict<V>, e: Dict<V>, k: string, v: V)
    requires UniqueKeys(e)
    ensures PutAll(d, Put(e, k, v)) == Put(PutAll(d, e), k, v)
  {
    if k !in Keys(e) {
      PutAllAppend(d, e, [(k, v)]);
      PutAllSingle(PutAll(d, e), k, v);
    } else {
      var j :| 0 <= j < |e| && Keys(e)[j] == k;
      var a, w, b := UniqueSplitAt(e, j);
      PutMiddle(a, k, w, b, v);
      PutAllReplace(d, a, k, w, v, b);
    }
  }

  /** Updating with a list of entries is updating with the dict they build:
      duplicate keys collapse to their first place and last value either
      way. */
  lemma {:induction false} PutAllCollapse<V>(d: Dict<V>, es: Dict<V>)
    ensures PutAll(d, PutAll([], es)) == PutAll(d, es)
    decreases |es|
  {
    if es != [] {
      var init := es[..|es| - 1];
      var x := es[|es| - 1];
      assert es == init + [x];
      PutAllAppend([], init, [x]);
      PutAllSingle(PutAll([], init), x.0, x.1);
      PutAllUnique([], init);
      PutAllPut(d, PutAll([], init), x.0, x.1);
      PutAllCollapse(d, init);
      PutAllAppend(d, init, [x]);
      PutAllSingle(PutAll(d, init), x.0, x.1);
    }
  }

  /** Every part of a dict with unique keys has unique keys. */
  lemma {:induction false} UniqueKeysSplit<V>(a: Dict<V>, b: Dict<V>)
    requires UniqueKeys(a + b)
    ensures UniqueKeys(a) && UniqueKeys(b)
    ensures forall i, j :: 0 <= i < |a| && 0 <= j < |b| ==> a[i].0 != b[j].0
  {
    assert forall i :: 0 <= i < |a| ==> (a + b)[i] == a[i];
    assert forall j :: 0 <= j < |b| ==> (a + b)[|a| + j] == b[j];
  }
}

=== FILE: envfile.dfy ===
/** The .env format: `parse_env` reads `KEY=value` lines, and the .env
    branch of `write_output` writes them. */
module EnvFile {
  import opened Optional
  import opened Text
  import opened Dicts
  import opened Values
  import opened Flattening
  import opened Unflattening

  /** `[A-Za-z_]`, the first character of a key. */
  predicate IsKeyStart(c: char) {
    'A' <= c <= 'Z' || 'a' <= c <= 'z' || c == '_'
  }

  /** `[A-Za-z0-9_.]`, any later character of a key. */
  predicate IsKeyChar(c: char) {
    IsKeyStart(c) || IsDigit(c) || c == '.'
  }

  /** A whole string matched by `[A-Za-z_][A-Za-z0-9_.]*`. */
  predicate IsEnvKey(k: string) {
    |k| >= 1 && IsKeyStart(k[0]) && forall i :: 0 <= i < |k| ==> IsKeyChar(k[i])
  }

  /** Length of the leading run of key characters. */
  function KeyRun(s: string): (n: nat)
    ensures n <= |s|
    ensures forall i :: 0 <= i < n ==> IsKeyChar(s[i])
    ensures n < |s| ==> !IsKeyChar(s[n])
  {
    if s != [] && IsKeyChar(s[0]) then
      var n := 1 + KeyRun(s[1..]);
      assert forall i :: 1 <= i < n ==> s[i] == s[1..][i - 1];
      n
    else 0
  }

  lemma {:induction false} KeyRunUnique(s: string, k: nat)
    requires k <= |s|
    requires forall i :: 0 <= i < k ==> IsKeyChar(s[i])
    requires k < |s| ==> !IsKeyChar(s[k])
    ensures KeyRun(s) == k
  {
  }

  /** How much of `s` the key group matches: the greedy run of key
      characters when `s` starts with a key start, else 0 (no match). The
      regular expression cannot match a shorter key, because the character
      after a shorter run would be a key character, which is neither
      whitespace nor `=`. */
  function KeyLen(s: string): (n: nat)
    ensures n <= |s|
    ensures n > 0 ==> IsEnvKey(s[..n]) && (n < |s| ==> !IsKeyChar(s[n]))
    ensures n == 0 <==> s == [] || !IsKeyStart(s[0])
  {
    if s != [] && IsKeyStart(s[0]) then KeyRun(s) else 0
  }

  /** A value between matching quotes, which the reader removes: `"…"` or
      `'…'`, a lone quote character included. */
  predicate Quoted(v: string) {
    |v| >= 1 && ((v[0] == '"' && v[|v| - 1] == '"') || (v[0] == '\'' && v[|v| - 1] == '\''))
  }

  /** `val[1:-1]` when the value is quoted. */
  function Unquote(v: string): (r: string)
    ensures !Quoted(v) ==> r == v
    ensures Quoted(v) ==> |r| < |v| && (|v| >= 2 ==> v == [v[0]] + r + [v[0]])
  {
    if Quoted(v) then (if |v| >= 2 then v[1..|v| - 1] else []) else v
  }

  /** One line of `parse_env`: the key and value of a `KEY = value` line,
      `None` for a blank line, a comment or a line the pattern rejects. */
  function ParseLine(raw: string): (r: Option<(string, string)>)
    ensures r.Some? ==> IsEnvKey(r.value.0)
    ensures Strip(raw) == [] || Strip(raw)[0] == '#' ==> r == None
  {
    MatchLine(Strip(raw))
  }

  /** The same for a line already stripped: the pattern
      `^([A-Za-z_][A-Za-z0-9_.]*)\s*=\s*(.*)` and the unquoting of group 2. */
  function MatchLine(line: string): (r: Option<(string, string)>)
    ensures r.Some? ==> IsEnvKey(r.value.0)
  {
    if line == [] || line[0] == '#' then None
    else
      var n := KeyLen(line);
      if n == 0 then None
      else
        var after := TrimLeft(line[n..]);
        if after == [] || after[0] != '=' then None
        else Some((line[..n], Unquote(Strip(after[1..]))))
  }

  /** The loop of `parse_env` over the first lines: each recognised line
      assigns its key. */
  function ParseLines(ls: seq<string>): (r: Dict<string>)
    ensures UniqueKeys(r)
    ensures forall k :: k in Keys(r) ==> IsEnvKey(k)
  {
    if ls == [] then []
    else
      var d := ParseLines(ls[..|ls| - 1]);
      match ParseLine(ls[|ls| - 1])
      case None => d
      case Some(kv) =>
        PutUnique(d, kv.0, kv.1);
        KeysAppend(d, [kv]);
        Put(d, kv.0, kv.1)
  }

  /** Reference definition: the value of the last line that assigns `k`. */
  function LastBinding(ls: seq<string>, k: string): Option<string> {
    if ls == [] then None
    else
      var p := ParseLine(ls[|ls| - 1]);
      if p.Some? && p.value.0 == k then Some(p.value.1) else LastBinding(ls[..|ls| - 1], k)
  }

  /** Reference definition: the keys the lines assign, each once, in the
      order of their first assignment. */
  function FirstKeys(ls: seq<string>): seq<string> {
    if ls == [] then []
    else
      var ks := FirstKeys(ls[..|ls| - 1]);
      var p := ParseLine(ls[|ls| - 1]);
      if p.Some? && p.value.0 !in ks then ks + [p.value.0] else ks
  }

  /** `parse_env(text)`: every key is read once, in the order of its first
      assignment, and holds the value of the last line of the text that
      assigns it. */
  function ParseEnv(text: string): (r: Dict<string>)
    ensures UniqueKeys(r)
    ensures Keys(r) == FirstKeys(SplitLines(text))
    ensures forall k :: Get(r, k) == LastBinding(SplitLines(text), k)
  {
    var ls := SplitLines(text);
    ParseLinesKeys(ls);
    assert forall k :: Get(ParseLines(ls), k) == LastBinding(ls, k) by {
      forall k ensures Get(ParseLines(ls), k) == LastBinding(ls, k) {
        ParseLinesGet(ls, k);
      }
    }
    ParseLines(ls)
  }

  /** A key keeps the place of its first assignment: a later line assigning
      it again changes its value, not its position. */
  lemma {:induction false} ParseLinesKeys(ls: seq<string>)
    ensures Keys(ParseLines(ls)) == FirstKeys(ls)
  {
    if ls != [] {
      var init := ls[..|ls| - 1];
      ParseLinesKeys(init);
      var p := ParseLine(ls[|ls| - 1]);
      if p.Some? {
        var d := ParseLines(init);
        if p.value.0 !in Keys(d) {
          KeysAppend(d, [p.value]);
        }
      }
    }
  }

  /** A key read by `parse_env` holds the value of its last assignment. */
  lemma {:induction false} ParseLinesGet(ls: seq<string>, k: string)
    ensures Get(ParseLines(ls), k) == LastBinding(ls, k)
  {
    if ls != [] {
      ParseLinesGet(ls[..|ls| - 1], k);
      var p := ParseLine(ls[|ls| - 1]);
      if p.Some? {
        PutGet(ParseLines(ls[..|ls| - 1]), p.value.0, p.value.1, k);
      }
    }
  }

  /** How `parse_env` reads a line `KEY = value`: surrounding whitespace is
      dropped and the value is stripped and unquoted. */
  lemma {:induction false} ParseLineOf(lead: string, k: string, ws: string, rest: string)
    requires AllSpace(lead) && AllSpace(ws) && IsEnvKey(k)
    ensures ParseLine(lead + k + ws + "=" + rest) == Some((k, Unquote(Strip(rest))))
  {
    var head := k + ws + "=";
    assert lead + k + ws + "=" + rest == lead + (head + rest);
    StripAround(lead, head, rest);
    MatchLineOf(k, ws, TrimRight(rest));
    StripTrimRight(rest);
  }

  /** The converse: a line yields a binding only when it is whitespace, the
      key, whitespace, `=` and a rest, and the value is the rest stripped and
      unquoted. */
  lemma {:induction false} ParseLineShape(raw: string)
    ensures ParseLine(raw).Some? ==>
      exists lead, ws, rest :: AllSpace(lead) && AllSpace(ws) &&
        raw == lead + ParseLine(raw).value.0 + ws + "=" + rest &&
        ParseLine(raw).value.1 == Unquote(Strip(rest))
  {
    var line := Strip(raw);
    if MatchLine(line).Some? {
      var k := MatchLine(line).value.0;
      var lead, tail := StripParts(raw);
      var ws, rest := MatchLineParts(line);
      Regroup(lead, k, ws, rest, tail);
      StripSpaceSuffix(rest, tail);
      assert raw == lead + k + ws + "=" + (rest + tail);
    }
  }

  /** `raw` is its stripped text between leading and trailing whitespace. */
  lemma {:induction false} StripParts(raw: string) returns (lead: string, tail: string)
    ensures AllSpace(lead) && AllSpace(tail) && raw == lead + Strip(raw) + tail
  {
    var i, j :| 0 <= i <= j <= |raw| && Strip(raw) == raw[i..j] && AllSpace(raw[..i]) && AllSpace(raw[j..]);
    lead, tail := raw[..i], raw[j..];
    assert raw == raw[..i] + raw[i..j] + raw[j..];
  }

  /** A stripped line that matches is the key, whitespace, `=` and a rest
      whose stripped, unquoted text is the value. */
  lemma {:induction false} MatchLineParts(line: string) returns (ws: string, rest: string)
    requires MatchLine(line).Some?
    ensures AllSpace(ws)
    ensures line == MatchLine(line).value.0 + ws + "=" + rest
    ensures MatchLine(line).value.1 == Unquote(Strip(rest))
  {
    var n := KeyLen(line);
    var mid := line[n..];
    var m := LeadingSpaces(mid);
    assert MatchLine(line) == Some((line[..n], Unquote(Strip(line[n + m + 1..])))) by {
      assert mid[m..][1..] == line[n + m + 1..];
    }
    assert line[n + m] == '=' by {
      assert mid[m..][0] == line[n + m];
    }
    ws, rest := line[n..n + m], line[n + m + 1..];
    assert AllSpace(ws) by {
      forall x | 0 <= x < m ensures IsSpace(ws[x]) {
        assert ws[x] == mid[x];
      }
    }
    Pieces(line, n, m);
  }

  lemma {:induction false} Pieces(line: string, n: nat, m: nat)
    requires n + m < |line| && line[n + m] == '='
    ensures line == line[..n] + line[n..n + m] + "=" + line[n + m + 1..]
  {
    assert line == line[..n] + line[n..n + m] + line[n + m..n + m + 1] + line[n + m + 1..];
  }

  lemma {:induction false} Regroup(lead: string, k: string, ws: string, rest: string, tail: string)
    ensures lead + (k + ws + "=" + rest) + tail == lead + k + ws + "=" + (rest + tail)
  {
  }

  lemma {:induction false} StripAround(lead: string, head: string, rest: string)
    requires AllSpace(lead) && head != [] && !IsSpace(head[0]) && !IsSpace(head[|head| - 1])
    ensures Strip(lead + (head + rest)) == head + TrimRight(rest)
  {
    TrimLeftSkip(lead, head + rest);
    TrimRightKeep(head, rest);
  }

  lemma {:induction false} MatchLineOf(k: string, ws: string, t: string)
    requires AllSpace(ws) && IsEnvKey(k)
    ensures MatchLine(k + ws + "=" + t) == Some((k, Unquote(Strip(t))))
  {
    var line := k + ws + "=" + t;
    var tail := ws + ("=" + t);
    assert line == k + tail;
    assert line[..|k|] == k && line[|k|..] == tail;
    assert |k| < |line| && !IsKeyChar(line[|k|]);
    KeyRunUnique(line, |k|);
    TrimLeftSkip(ws, "=" + t);
    assert ("=" + t)[1..] == t;
  }

  /** The writer quotes a value holding a space, `=` or `"`. */
  predicate NeedsQuotes(v: string) {
    ' ' in v || '=' in v || '"' in v
  }

  /** The value as the writer puts it after `=`. */
  function EnvValue(v: string): string {
    if NeedsQuotes(v) then "\"" + v + "\"" else v
  }

  /** The line the writer emits for one entry: the key as it is, `=`, and
      the value, in double quotes when it holds a space, `=` or `"`. Under a
      valid key, the line parses to the key and the written value stripped
      and unquoted, which is the entry itself exactly when the value is safe;
      for a one-line value, `parse_env` of the line gives back the entry
      exactly when the value is safe. */
  function EnvLine(k: string, v: string): (r: string)
    ensures |r| > |k| && r[..|k| + 1] == k + "="
    ensures NeedsQuotes(v) ==> r[|k| + 1..] == "\"" + v + "\""
    ensures !NeedsQuotes(v) ==> r[|k| + 1..] == v
    ensures NoLineBreak(k) && NoLineBreak(v) ==> NoLineBreak(r)
    ensures IsEnvKey(k) ==> ParseLine(r) == Some((k, Unquote(Strip(EnvValue(v)))))
    ensures IsEnvKey(k) ==> (ParseLine(r) == Some((k, v)) <==> EnvSafe(v))
    ensures IsEnvKey(k) && NoLineBreak(v) ==> (ParseEnv(r + "\n") == [(k, v)] <==> EnvSafe(v))
  {
    var r := k + "=" + EnvValue(v);
    EnvLineReads(k, EnvValue(v));
    EnvValueRead(v);
    EnvLineAlone(k, v, r);
    r
  }

  /** The written line holds no line break when neither the key nor the
      value does, and a text of that line alone is read as its binding. */
  lemma {:induction false} EnvLineAlone(k: string, v: string, r: string)
    requires r == k + "=" + EnvValue(v)
    ensures NoLineBreak(k) && NoLineBreak(v) ==> NoLineBreak(r)
    ensures IsEnvKey(k) && NoLineBreak(v) ==> ParseEnv(r + "\n") == [(k, Unquote(Strip(EnvValue(v))))]
  {
    if NoLineBreak(k) && NoLineBreak(v) {
      EnvLineNoBreak(k, v);
    }
    if IsEnvKey(k) && NoLineBreak(v) {
      KeyNoLineBreak(k);
      EnvLineNoBreak(k, v);
      EnvLineReads(k, EnvValue(v));
      OneLineText(r);
      ParseLinesSingle(r, (k, Unquote(Strip(EnvValue(v)))));
    }
  }

  /** A line without a line break, ended by a newline, is split into just
      that line. */
  lemma {:induction false} OneLineText(l: string)
    requires NoLineBreak(l)
    ensures SplitLines(l + "\n") == [l]
  {
    SplitLinesOfJoined([l]);
    assert Join("\n", [l]) == l;
  }

  lemma {:induction false} ParseLinesSingle(l: string, kv: (string, string))
    requires ParseLine(l) == Some(kv)
    ensures ParseLines([l]) == [kv]
  {
    ParseLinesSnoc([], l, kv);
    assert [] + [l] == [l];
  }

  /** A valid key holds no line break. */
  lemma {:induction false} KeyNoLineBreak(k: string)
    requires IsEnvKey(k)
    ensures NoLineBreak(k)
  {
    forall i | 0 <= i < |k| ensures !IsLineBreak(k[i]) {
      assert IsKeyChar(k[i]);
    }
  }

  lemma {:induction false} EnvLineReads(k: string, w: string)
    ensures IsEnvKey(k) ==> ParseLine(k + "=" + w) == Some((k, Unquote(Strip(w))))
  {
    if IsEnvKey(k) {
      assert "" + k + "" + "=" + w == k + "=" + w;
      ParseLineOf("", k, "", w);
    }
  }

  function EnvLines(flat: Dict<string>): (ls: seq<string>)
    ensures |ls| == |flat|
  {
    seq(|flat|, i requires 0 <= i < |flat| => EnvLine(flat[i].0, flat[i].1))
  }

  /** `"\n".join(lines) + "\n"`: one line per entry, in order, each ended
      by a newline, whatever the keys. Reading the text gives back the flat
      dict, in order, when its keys are distinct valid .env keys and every
      value is safe and on one line. */
  function EnvText(flat: Dict<string>): (r: string)
    ensures |r| >= 1 && r[|r| - 1] == '\n'
    ensures flat == [] ==> r == "\n"
    ensures flat != [] && OneLineEntries(flat) ==> SplitLines(r) == EnvLines(flat)
    ensures UniqueKeys(flat) && EnvWritable(flat) ==> ParseEnv(r) == flat
  {
    EnvTextReads(flat);
    Join("\n", EnvLines(flat)) + "\n"
  }

  lemma {:induction false} EnvTextReads(flat: Dict<string>)
    ensures flat != [] && OneLineEntries(flat) ==> SplitLines(Join("\n", EnvLines(flat)) + "\n") == EnvLines(flat)
    ensures UniqueKeys(flat) && EnvWritable(flat) ==> ParseLines(SplitLines(Join("\n", EnvLines(flat)) + "\n")) == flat
  {
    if UniqueKeys(flat) && EnvWritable(flat) {
      ReadJoinedLines(flat);
    }
    if flat != [] && OneLineEntries(flat) {
      EnvLinesOneLine(flat);
    }
  }

  /** No key and no value holds a line break. */
  predicate OneLineEntries(flat: Dict<string>) {
    forall i :: 0 <= i < |flat| ==> NoLineBreak(flat[i].0) && NoLineBreak(flat[i].1)
  }

  /** Entries without line breaks are written one line each. */
  lemma {:induction false} EnvLinesOneLine(flat: Dict<string>)
    requires flat != [] && OneLineEntries(flat)
    ensures SplitLines(Join("\n", EnvLines(flat)) + "\n") == EnvLines(flat)
  {
    var ls := EnvLines(flat);
    forall i | 0 <= i < |ls| ensures NoLineBreak(ls[i]) {
      EnvLineNoBreak(flat[i].0, flat[i].1);
    }
    SplitLinesOfJoined(ls);
  }

  /** The flat dict the writer prints: `flatten(data)` when some top-level
      value is a dict, else `data` itself, each value through `str`. */
  function EnvFlat(data: Dict<Value>, dumps: seq<Value> -> string, repr: Value -> string): Dict<string> {
    if HasTable(data) then Flatten(Map(data), "", dumps) else StrValues(data, repr)
  }

  /** What the writer returns, and whether it warns that it flattened. */
  datatype Output = Output(text: string, warned: bool)

  /** The .env branch of `write_output`. */
  function WriteEnv(data: Dict<Value>, dumps: seq<Value> -> string, repr: Value -> string): (r: Output)
    ensures r.warned <==> exists i :: 0 <= i < |data| && data[i].1.Map?
    ensures var flat := EnvFlat(data, dumps, repr);
      flat != [] && OneLineEntries(flat) ==> SplitLines(r.text) == EnvLines(flat)
    ensures var flat := EnvFlat(data, dumps, repr);
      UniqueKeys(flat) && EnvWritable(flat) ==> ParseEnv(r.text) == flat
  {
    Output(EnvText(EnvFlat(data, dumps, repr)), HasTable(data))
  }

  /** A value the reader gets back from the line the writer emits for it:
      one the writer quotes, or one with no whitespace at its ends that is
      not itself quoted. */
  predicate EnvSafe(v: string) {
    NeedsQuotes(v) || (Strip(v) == v && !Quoted(v))
  }

  lemma {:induction false} EnvValueRead(v: string)
    ensures Unquote(Strip(EnvValue(v))) == v <==> EnvSafe(v)
  {
    var w := EnvValue(v);
    if NeedsQuotes(v) {
      assert w[0] == '"' && w[|w| - 1] == '"';
      StripIdentityMeans(w);
      assert w[1..|w| - 1] == v;
    } else if Strip(v) != v {
      assert |Strip(v)| < |v|;
    } else if Quoted(v) {
      assert |Unquote(v)| < |v|;
    }
  }

  /** Keys and values whose lines read back as they were written. */
  predicate EnvWritable(flat: Dict<string>) {
    forall i :: 0 <= i < |flat| ==> IsEnvKey(flat[i].0) && NoLineBreak(flat[i].1) && EnvSafe(flat[i].1)
  }

  lemma {:induction false} EnvLineNoBreak(k: string, v: string)
    requires NoLineBreak(k) && NoLineBreak(v)
    ensures NoLineBreak(k + "=" + EnvValue(v))
  {
    var l := k + "=" + EnvValue(v);
    forall i | 0 <= i < |l| ensures !IsLineBreak(l[i]) {
      if i < |k| {
        assert l[i] == k[i];
      } else if i > |k| + 1 && NeedsQuotes(v) && i < |l| - 1 {
        assert l[i] == v[i - |k| - 2];
      } else if i > |k| && !NeedsQuotes(v) {
        assert l[i] == v[i - |k| - 1];
      }
    }
  }

  lemma {:induction false} ParseLinesSnoc(ls: seq<string>, l: string, kv: (string, string))
    requires ParseLine(l) == Some(kv)
    ensures ParseLines(ls + [l]) == Put(ParseLines(ls), kv.0, kv.1)
  {
    assert (ls + [l])[..|ls|] == ls && (ls + [l])[|ls|] == l;
  }

  /** The step of `ParseEnvLines`: a fresh, writable last entry is read back
      as appended. */
  lemma {:induction false} ParseEnvStep(init: Dict<string>, e: (string, string))
    requires ParseLines(EnvLines(init)) == init
    requires e.0 !in Keys(init) && IsEnvKey(e.0) && EnvSafe(e.1)
    ensures ParseLines(EnvLines(init + [e])) == init + [e]
  {
    EnvLinesSnoc(init, e);
    ParseLinesSnoc(EnvLines(init), EnvLine(e.0, e.1), e);
  }

  lemma {:induction false} EnvLinesSnoc(init: Dict<string>, e: (string, string))
    ensures EnvLines(init + [e]) == EnvLines(init) + [EnvLine(e.0, e.1)]
  {
    assert forall i :: 0 <= i < |init| ==> (init + [e])[i] == init[i];
  }

  lemma {:induction false} ParseEnvLines(flat: Dict<string>)
    requires UniqueKeys(flat) && EnvWritable(flat)
    ensures ParseLines(EnvLines(flat)) == flat
    decreases |flat|
  {
    if flat != [] {
      var n := |flat|;
      var init := flat[..n - 1];
      var e := flat[n - 1];
      assert flat == init + [e];
      UniqueKeysSplit(init, [e]);
      assert EnvWritable(init) by {
        forall i | 0 <= i < n - 1 ensures init[i] == flat[i] { }
      }
      ParseEnvLines(init);
      assert IsEnvKey(e.0) && EnvSafe(e.1);
      assert e.0 !in Keys(init) by {
        forall i | 0 <= i < n - 1 ensures Keys(init)[i] != e.0 {
          assert init[i] == flat[i];
        }
      }
      ParseEnvStep(init, e);
    }
  }

  lemma {:induction false} ReadJoinedLines(flat: Dict<string>)
    requires UniqueKeys(flat) && EnvWritable(flat)
    ensures ParseLines(SplitLines(Join("\n", EnvLines(flat)) + "\n")) == flat
  {
    var ls := EnvLines(flat);
    if flat == [] {
      SplitLinesOfJoined([""]);
      assert Join("\n", ls) == Join("\n", [""]);
      assert ParseLines([""]) == [];
    } else {
      forall i | 0 <= i < |ls| ensures NoLineBreak(ls[i]) {
        KeyNoLineBreak(flat[i].0);
        EnvLineNoBreak(flat[i].0, flat[i].1);
      }
      SplitLinesOfJoined(ls);
      ParseEnvLines(flat);
    }
  }

  /** Flat data of safe strings survives writing .env and reading it back. */
  lemma {:induction false} EnvRoundTripFlat(data: Dict<Value>, dumps: seq<Value> -> string, repr: Value -> string)
    requires UniqueKeys(data)
    requires forall i :: 0 <= i < |data| ==> data[i].1.Str?
    requires EnvWritable(StrValues(data, repr))
    ensures !WriteEnv(data, dumps, repr).warned
    ensures Lift(ParseEnv(WriteEnv(data, dumps, repr).text)) == data
  {
    var flat := StrValues(data, repr);
    assert !HasTable(data);
    assert EnvFlat(data, dumps, repr) == flat;
    assert UniqueKeys(flat) by {
      forall i, j | 0 <= i < j < |flat| ensures flat[i].0 != flat[j].0 {
        assert flat[i].0 == data[i].0 && flat[j].0 == data[j].0;
      }
    }
    LiftStrValues(data, repr);
  }

  lemma {:induction false} LiftStrValues(data: Dict<Value>, repr: Value -> string)
    requires forall i :: 0 <= i < |data| ==> data[i].1.Str?
    ensures Lift(StrValues(data, repr)) == data
  {
    var flat := StrValues(data, repr);
    forall i | 0 <= i < |data| ensures Lift(flat)[i] == data[i] {
      var x := data[i].1;
      assert PyStr(x, repr) == ScalarStr(x) == x.s;
    }
  }

  /** Nested data of safe strings survives writing .env, reading it back
      and `unflatten`, when its keys hold no dots and no nested dict is
      empty. */
  lemma {:induction false} EnvRoundTripNested(data: Dict<Value>, dumps: seq<Value> -> string, repr: Value -> string)
    requires HasTable(data)
    requires WellKeyed(Map(data)) && NoEmptyTables(Map(data)) && AllStrings(Map(data))
    requires EnvWritable(Flatten(Map(data), "", dumps))
    ensures WriteEnv(data, dumps, repr).warned
    ensures Unflatten(Lift(ParseEnv(WriteEnv(data, dumps, repr).text))) == Some(data)
  {
    UnflattenFlattenStrings(Map(data), dumps);
  }
}

=== FILE: flatten.dfy ===
/** `flatten`: a nested dict becomes a flat one whose keys are the
    dot-joined paths to the leaves. */
module Flattening {
  import opened Text
  import opened Dicts
  import opened Values

  /** The key an entry `k` gets under `prefix`: `k` alone at the top, where
      the prefix is empty, and `prefix.k` below. */
  function ChildKey(prefix: string, k: string): string {
    if prefix == "" then k else prefix + "." + k
  }

  /** What `flatten` stores for a value it does not descend into: `""` for
      `None`, `json.dumps` of a list (opaque here, the parameter `dumps`),
      `str(v)` otherwise. */
  function LeafText(v: Value, dumps: seq<Value> -> string): string
    requires !v.Map?
  {
    if v.Null? then "" else if v.List? then dumps(v.items) else ScalarStr(v)
  }

  /** `flatten(data, prefix)`, with `m` the dict `data`. */
  function Flatten(m: Value, prefix: string, dumps: seq<Value> -> string): (r: Dict<string>)
    requires m.Map?
    ensures UniqueKeys(r)
    ensures r == PutAll([], Render(prefix, LeafPaths(m), dumps))
    decreases m, 1
  {
    FlattenUpTo(m, |m.entries|, prefix, dumps)
  }

  /** The flat dict after the loop of `flatten` has seen the first `n`
      entries of `m`. */
  function FlattenUpTo(m: Value, n: nat, prefix: string, dumps: seq<Value> -> string): (r: Dict<string>)
    requires m.Map? && n <= |m.entries|
    ensures UniqueKeys(r)
    ensures r == PutAll([], Render(prefix, LeafPathsUpTo(m, n), dumps))
    decreases m, 0, n
  {
    if n == 0 then
      assert |Render(prefix, LeafPathsUpTo(m, 0), dumps)| == 0;
      []
    else
      var acc := FlattenUpTo(m, n - 1, prefix, dumps);
      var k := m.entries[n - 1].0;
      var v := m.entries[n - 1].1;
      var key := ChildKey(prefix, k);
      RenderSplit(m, n, prefix, dumps);
      if v.Map? then
        var sub := Flatten(v, key, dumps);
        PutAllUnique(acc, sub);
        RenderUnder(prefix, k, LeafPaths(v), dumps);
        PutAllCollapse(acc, Render(key, LeafPaths(v), dumps));
        PutAll(acc, sub)
      else
        PutUnique(acc, key, LeafText(v, dumps));
        LeafRender(prefix, k, v, dumps);
        PutAllSingle(acc, key, LeafText(v, dumps));
        Put(acc, key, LeafText(v, dumps))
  }

  /** The path from the top of a nested dict to a value in it. */
  type Path = seq<string>

  predicate Leaves(ps: seq<(Path, Value)>) {
    forall i :: 0 <= i < |ps| ==> |ps[i].0| >= 1 && !ps[i].1.Map?
  }

  /** Reference definition: every non-dict value of a nested dict with its
      path, depth first, in insertion order. An empty nested dict holds no
      leaf. */
  function LeafPaths(m: Value): (ps: seq<(Path, Value)>)
    requires m.Map?
    ensures Leaves(ps)
    decreases m, 1
  {
    LeafPathsUpTo(m, |m.entries|)
  }

  function LeafPathsUpTo(m: Value, n: nat): (ps: seq<(Path, Value)>)
    requires m.Map? && n <= |m.entries|
    ensures Leaves(ps)
    decreases m, 0, n
  {
    if n == 0 then []
    else
      var k := m.entries[n - 1].0;
      var v := m.entries[n - 1].1;
      LeafPathsUpTo(m, n - 1) + EntryPaths(k, v, if v.Map? then LeafPaths(v) else [])
  }

  /** Every leaf among the first `n` entries lies under one of their keys. */
  lemma {:induction false} LeafPathsHeads(m: Value, n: nat)
    requires m.Map? && n <= |m.entries|
    ensures forall i :: 0 <= i < |LeafPathsUpTo(m, n)| ==>
      LeafPathsUpTo(m, n)[i].0[0] in Keys(m.entries)[..n]
  {
    if n > 0 {
      LeafPathsHeads(m, n - 1);
      var k := m.entries[n - 1].0;
      var v := m.entries[n - 1].1;
      var a := LeafPathsUpTo(m, n - 1);
      var b := EntryPaths(k, v, if v.Map? then LeafPaths(v) else []);
      var ks := Keys(m.entries);
      var ab: seq<(Path, Value)> := a + b;
      assert LeafPathsUpTo(m, n) == ab;
      forall i | 0 <= i < |ab| ensures ab[i].0[0] in ks[..n] {
        if i < |a| {
          assert ab[i] == a[i];
          assert a[i].0[0] in ks[..n - 1];
          assert ks[..n - 1] == ks[..n][..n - 1];
        } else {
          assert ab[i] == b[i - |a|];
          assert ks[..n][n - 1] == k;
        }
      }
    }
  }

  /** The leaves an entry `k: v` contributes, given the leaves `inner` of `v`
      when `v` is a dict. */
  function EntryPaths(k: string, v: Value, inner: seq<(Path, Value)>): (ps: seq<(Path, Value)>)
    requires Leaves(inner)
    ensures Leaves(ps)
    ensures forall i :: 0 <= i < |ps| ==> ps[i].0[0] == k
  {
    if v.Map? then Under(k, inner) else [([k], v)]
  }

  /** The same leaves one level further down, under the key `k`. */
  function Under(k: string, ps: seq<(Path, Value)>): (r: seq<(Path, Value)>)
    requires Leaves(ps)
    ensures Leaves(r)
  {
    seq(|ps|, i requires 0 <= i < |ps| => ([k] + ps[i].0, ps[i].1))
  }

  /** The flat key of a path below `prefix`. */
  function PathKey(prefix: string, path: Path): string
    decreases |path|
  {
    if path == [] then prefix else PathKey(ChildKey(prefix, path[0]), path[1..])
  }

  /** The flat dict a list of leaves describes. */
  function Render(prefix: string, ps: seq<(Path, Value)>, dumps: seq<Value> -> string): (r: Dict<string>)
    requires Leaves(ps)
    ensures |r| == |ps|
  {
    seq(|ps|, i requires 0 <= i < |ps| => (PathKey(prefix, ps[i].0), LeafText(ps[i].1, dumps)))
  }

  lemma {:induction false} RenderAppend(prefix: string, a: seq<(Path, Value)>, b: seq<(Path, Value)>, dumps: seq<Value> -> string)
    requires Leaves(a) && Leaves(b)
    ensures Leaves(a + b)
    ensures Render(prefix, a + b, dumps) == Render(prefix, a, dumps) + Render(prefix, b, dumps)
  {
    assert forall i :: 0 <= i < |a| ==> (a + b)[i] == a[i];
    assert forall i :: 0 <= i < |b| ==> (a + b)[|a| + i] == b[i];
  }

  lemma {:induction false} RenderUnder(prefix: string, k: string, ps: seq<(Path, Value)>, dumps: seq<Value> -> string)
    requires Leaves(ps)
    ensures Render(prefix, Under(k, ps), dumps) == Render(ChildKey(prefix, k), ps, dumps)
  {
    forall i | 0 <= i < |ps|
      ensures PathKey(prefix, Under(k, ps)[i].0) == PathKey(ChildKey(prefix, k), ps[i].0)
    {
      assert ([k] + ps[i].0)[1..] == ps[i].0;
    }
  }

  /** The leaves of the first `n` entries are assigned as those of the first
      `n - 1`, then those of entry `n - 1`. */
  lemma {:induction false} RenderSplit(m: Value, n: nat, prefix: string, dumps: seq<Value> -> string)
    requires m.Map? && 0 < n <= |m.entries|
    ensures var k := m.entries[n - 1].0; var v := m.entries[n - 1].1;
      PutAll([], Render(prefix, LeafPathsUpTo(m, n), dumps)) ==
      PutAll(PutAll([], Render(prefix, LeafPathsUpTo(m, n - 1), dumps)),
             Render(prefix, EntryPaths(k, v, if v.Map? then LeafPaths(v) else []), dumps))
  {
    var k := m.entries[n - 1].0;
    var v := m.entries[n - 1].1;
    var a := LeafPathsUpTo(m, n - 1);
    var b := EntryPaths(k, v, if v.Map? then LeafPaths(v) else []);
    assert LeafPathsUpTo(m, n) == a + b;
    RenderAppend(prefix, a, b, dumps);
    PutAllAppend([], Render(prefix, a, dumps), Render(prefix, b, dumps));
  }

  /** A leaf directly under `prefix` is rendered under its child key. */
  lemma {:induction false} LeafRender(prefix: string, k: string, v: Value, dumps: seq<Value> -> string)
    requires !v.Map?
    ensures Render(prefix, [([k], v)], dumps) == [(ChildKey(prefix, k), LeafText(v, dumps))]
  {
    assert PathKey(prefix, [k]) == PathKey(ChildKey(prefix, k), []);
  }

  /** Whenever no two leaves share a flat key, `flatten` lists exactly the
      leaves, in depth-first order, under their flat keys. */
  lemma {:induction false} FlattenIsRender(m: Value, prefix: string, dumps: seq<Value> -> string)
    requires m.Map?
    requires UniqueKeys(Render(prefix, LeafPaths(m), dumps))
    ensures Flatten(m, prefix, dumps) == Render(prefix, LeafPaths(m), dumps)
  {
    var r := Render(prefix, LeafPaths(m), dumps);
    assert [] + r == r;
    PutAllFresh([], r);
  }

  /** A key `unflatten` can split back: non-empty and without a dot. */
  predicate Segment(k: string) {
    k != "" && '.' !in k
  }

  /** A nested dict all of whose keys, at every depth, are segments. */
  predicate WellKeyed(m: Value)
    decreases m
  {
    m.Map? ==>
      UniqueKeys(m.entries) &&
      forall i :: 0 <= i < |m.entries| ==> Segment(m.entries[i].0) && WellKeyed(m.entries[i].1)
  }

  predicate Segmented(ps: seq<(Path, Value)>) {
    forall i, j :: 0 <= i < |ps| && 0 <= j < |ps[i].0| ==> Segment(ps[i].0[j])
  }

  predicate DistinctPaths(ps: seq<(Path, Value)>) {
    forall i, j :: 0 <= i < j < |ps| ==> ps[i].0 != ps[j].0
  }

  lemma {:induction false} UnderPaths(k: string, ps: seq<(Path, Value)>)
    requires Leaves(ps) && Segment(k) && Segmented(ps) && DistinctPaths(ps)
    ensures Segmented(Under(k, ps)) && DistinctPaths(Under(k, ps))
  {
    var r := Under(k, ps);
    forall i, j | 0 <= i < j < |r| ensures r[i].0 != r[j].0 {
      assert r[i].0[1..] == ps[i].0 && r[j].0[1..] == ps[j].0;
    }
    forall i, j | 0 <= i < |r| && 0 <= j < |r[i].0| ensures Segment(r[i].0[j]) {
      if j > 0 {
        assert r[i].0[j] == ps[i].0[j - 1];
      }
    }
  }

  /** No path of `a` starts with the same key as a path of `b`. */
  predicate HeadsApart(a: seq<(Path, Value)>, b: seq<(Path, Value)>)
    requires Leaves(a) && Leaves(b)
  {
    forall i, j :: 0 <= i < |a| && 0 <= j < |b| ==> a[i].0[0] != b[j].0[0]
  }

  lemma {:induction false} AppendPaths(a: seq<(Path, Value)>, b: seq<(Path, Value)>)
    requires Leaves(a) && Leaves(b)
    requires Segmented(a) && Segmented(b) && DistinctPaths(a) && DistinctPaths(b)
    requires HeadsApart(a, b)
    ensures Segmented(a + b) && DistinctPaths(a + b)
  {
    assert forall i :: 0 <= i < |a| ==> (a + b)[i] == a[i];
    assert forall i :: 0 <= i < |b| ==> (a + b)[|a| + i] == b[i];
  }

  /** In a well-keyed dict, every leaf path is made of segments and no two
      leaves share a path. */
  lemma {:induction false} WellKeyedPaths(m: Value)
    requires m.Map? && WellKeyed(m)
    ensures Segmented(LeafPaths(m)) && DistinctPaths(LeafPaths(m))
    decreases m, 1
  {
    WellKeyedPathsUpTo(m, |m.entries|);
  }

  lemma {:induction false} WellKeyedPathsUpTo(m: Value, n: nat)
    requires m.Map? && WellKeyed(m) && n <= |m.entries|
    ensures Segmented(LeafPathsUpTo(m, n)) && DistinctPaths(LeafPathsUpTo(m, n))
    decreases m, 0, n, 2
  {
    if n > 0 {
      WellKeyedPathsUpTo(m, n - 1);
      WellKeyedStep(m, n);
    }
  }

  /** In a dict with distinct keys, entry `n - 1`'s key is none of the keys
      before it. */
  lemma {:induction false} KeyFresh(m: Value, n: nat)
    requires m.Map? && UniqueKeys(m.entries) && 0 < n <= |m.entries|
    ensures m.entries[n - 1].0 !in Keys(m.entries)[..n - 1]
  {
    var ks := Keys(m.entries);
    forall j | 0 <= j < n - 1 ensures ks[j] != m.entries[n - 1].0 {
      assert ks[j] == m.entries[j].0;
    }
  }

  lemma {:induction false} WellKeyedStep(m: Value, n: nat)
    requires m.Map? && WellKeyed(m) && 0 < n <= |m.entries|
    requires Segmented(LeafPathsUpTo(m, n - 1)) && DistinctPaths(LeafPathsUpTo(m, n - 1))
    ensures Segmented(LeafPathsUpTo(m, n)) && DistinctPaths(LeafPathsUpTo(m, n))
    decreases m, 0, n, 1
  {
    var k := m.entries[n - 1].0;
    var v := m.entries[n - 1].1;
    var a := LeafPathsUpTo(m, n - 1);
    var b := EntryPaths(k, v, if v.Map? then LeafPaths(v) else []);
    EntryPathsWellKeyed(m, n);
    HeadsDiffer(m, n);
    AppendPaths(a, b);
  }

  /** The leaves of one entry of a well-keyed dict are segmented and distinct. */
  lemma {:induction false} EntryPathsWellKeyed(m: Value, n: nat)
    requires m.Map? && WellKeyed(m) && 0 < n <= |m.entries|
    ensures var k := m.entries[n - 1].0; var v := m.entries[n - 1].1;
      var b := EntryPaths(k, v, if v.Map? then LeafPaths(v) else []);
      Segmented(b) && DistinctPaths(b)
    decreases m, 0, n, 0
  {
    var k := m.entries[n - 1].0;
    var v := m.entries[n - 1].1;
    if v.Map? {
      WellKeyedPaths(v);
      UnderPaths(k, LeafPaths(v));
    }
  }

  /** No leaf of entry `n - 1` starts like a leaf of the entries before it. */
  lemma {:induction false} HeadsDiffer(m: Value, n: nat)
    requires m.Map? && UniqueKeys(m.entries) && 0 < n <= |m.entries|
    ensures var k := m.entries[n - 1].0; var v := m.entries[n - 1].1;
      var a := LeafPathsUpTo(m, n - 1);
      var b := EntryPaths(k, v, if v.Map? then LeafPaths(v) else []);
      HeadsApart(a, b)
  {
    var k := m.entries[n - 1].0;
    var v := m.entries[n - 1].1;
    var a := LeafPathsUpTo(m, n - 1);
    var b := EntryPaths(k, v, if v.Map? then LeafPaths(v) else []);
    var before := Keys(m.entries)[..n - 1];
    KeyFresh(m, n);
    LeafPathsHeads(m, n - 1);
    forall i, j | 0 <= i < |a| && 0 <= j < |b| ensures a[i].0[0] != b[j].0[0] {
      assert a[i].0[0] in before && b[j].0[0] == k;
    }
  }

  lemma {:induction false} PathKeyBelow(prefix: string, path: Path)
    requires prefix != "" && |path| >= 1
    ensures PathKey(prefix, path) == prefix + "." + Join(".", path)
    decreases |path|
  {
    if |path| > 1 {
      PathKeyBelow(prefix + "." + path[0], path[1..]);
      JoinCons(".", path[0], path[1..]);
      assert [path[0]] + path[1..] == path;
    }
  }

  /** The flat key of a path whose first segment is non-empty is the path
      joined with dots. */
  lemma {:induction false} PathKeyIsJoin(path: Path)
    requires |path| >= 1 && path[0] != ""
    ensures PathKey("", path) == Join(".", path)
  {
    if |path| > 1 {
      PathKeyBelow(path[0], path[1..]);
      JoinCons(".", path[0], path[1..]);
      assert [path[0]] + path[1..] == path;
    }
  }

  /** `flatten` of a well-keyed dict: one entry per leaf, in depth-first
      order, keyed by the leaf's path joined with dots. */
  lemma {:induction false} FlattenWellKeyed(m: Value, dumps: seq<Value> -> string)
    requires m.Map? && WellKeyed(m)
    ensures var ps := LeafPaths(m); var r := Flatten(m, "", dumps);
      |r| == |ps| &&
      forall i :: 0 <= i < |ps| ==> r[i] == (Join(".", ps[i].0), LeafText(ps[i].1, dumps))
  {
    var ps := LeafPaths(m);
    WellKeyedPaths(m);
    var r := Render("", ps, dumps);
    forall i | 0 <= i < |ps| ensures r[i].0 == Join(".", ps[i].0) {
      PathKeyIsJoin(ps[i].0);
    }
    forall i, j | 0 <= i < j < |r| ensures r[i].0 != r[j].0 {
      if r[i].0 == r[j].0 {
        SplitJoin(ps[i].0, '.');
        SplitJoin(ps[j].0, '.');
      }
    }
    FlattenIsRender(m, "", dumps);
  }
}

=== FILE: ini.dfy ===
/** The section-assignment step of the INI writer: which options end up in
    the `DEFAULT` section and which named sections the `ConfigParser` holds,
    before `cp.write` renders them. */
module Ini {
  import opened Optional
  import opened Dicts
  import opened Values

  /** The name `ConfigParser` reserves for the defaults section. */
  const DefaultSection: string := "DEFAULT"

  /** What the parser holds: the options of `DEFAULT` and the named sections
      in creation order, every option value a string. */
  datatype IniDoc = IniDoc(defaults: Dict<string>, sections: Dict<Dict<string>>)

  /** The writer's result: the parser's contents and whether the flat-data
      warning was printed. */
  datatype IniOutput = IniOutput(doc: IniDoc, warned: bool)

  /** The section a table becomes: its values passed through `str`, except
      that the table named `""` becomes an empty section, because
      `ConfigParser.set` files the options of an empty section name under
      `DEFAULT`. */
  function SectionOf(t: (string, Dict<Value>), repr: Value -> string): (string, Dict<string>) {
    if t.0 == "" then ("", []) else (t.0, StrValues(t.1, repr))
  }

  function SectionOptions(tables: seq<(string, Dict<Value>)>, repr: Value -> string): (r: Dict<Dict<string>>)
    ensures |r| == |tables|
    ensures forall i :: 0 <= i < |r| ==> r[i] == SectionOf(tables[i], repr)
  {
    seq(|tables|, i requires 0 <= i < |tables| => SectionOf(tables[i], repr))
  }

  /** The sections keep the tables' names. */
  lemma {:induction false} SectionOptionsUnique(ts: seq<(string, Dict<Value>)>, repr: Value -> string)
    requires UniqueKeys(ts)
    ensures UniqueKeys(SectionOptions(ts, repr))
  {
    var r := SectionOptions(ts, repr);
    assert forall i :: 0 <= i < |r| ==> r[i].0 == ts[i].0;
  }

  /** Reference definition: the options a run of entries sets in `DEFAULT`,
      in order: each scalar as `str(value)`, and each option of a table
      named `""`. */
  function DefaultOptions(es: Dict<Value>, repr: Value -> string): Dict<string> {
    if es == [] then []
    else
      var e := es[0];
      var own := if !e.1.Map? then [(e.0, PyStr(e.1, repr))]
        else if e.0 == "" then StrValues(e.1.entries, repr)
        else [];
      own + DefaultOptions(es[1..], repr)
  }

  /** One step of the loop over the top-level entries, `cp[section] =
      {k: str(v) ...}` or `cp["DEFAULT"][section] = str(values)`. A scalar
      value sets a `DEFAULT` option to `str(value)` and leaves the sections
      alone. A dict value under `DEFAULT` replaces the defaults and leaves
      the sections alone. A dict value under any other non-empty name
      becomes that section, cleared and refilled where it stands or added
      at the end, and leaves the defaults alone. A dict value under `""`
      leaves an empty section `""` and sets its options in `DEFAULT`. */
  function Assign(doc: IniDoc, e: (string, Value), repr: Value -> string): (r: IniDoc)
    ensures !e.1.Map? ==> (r.sections == doc.sections &&
      forall k :: Get(r.defaults, k) == if k == e.0 then Some(PyStr(e.1, repr)) else Get(doc.defaults, k))
    ensures e.1.Map? && e.0 == DefaultSection ==>
      r.sections == doc.sections && r.defaults == StrValues(e.1.entries, repr)
    ensures e.1.Map? && e.0 != DefaultSection && e.0 != "" ==> (r.defaults == doc.defaults &&
      forall k :: Get(r.sections, k) == if k == e.0 then Some(StrValues(e.1.entries, repr)) else Get(doc.sections, k))
    ensures e.1.Map? && e.0 == "" ==> (r.defaults == PutAll(doc.defaults, StrValues(e.1.entries, repr)) &&
      forall k :: Get(r.sections, k) == if k == "" then Some([]) else Get(doc.sections, k))
  {
    if e.1.Map? then
      var options := StrValues(e.1.entries, repr);
      if e.0 == DefaultSection then doc.(defaults := options)
      else if e.0 == "" then
        PutGetAll(doc.sections, "", []);
        IniDoc(PutAll(doc.defaults, options), Put(doc.sections, "", []))
      else
        PutGetAll(doc.sections, e.0, options);
        doc.(sections := Put(doc.sections, e.0, options))
    else
      PutGetAll(doc.defaults, e.0, PyStr(e.1, repr));
      doc.(defaults := Put(doc.defaults, e.0, PyStr(e.1, repr)))
  }

  /** The loop over the top-level entries, in order. */
  function AssignAll(doc: IniDoc, es: Dict<Value>, repr: Value -> string): IniDoc
    decreases |es|
  {
    if es == [] then doc else AssignAll(Assign(doc, es[0], repr), es[1..], repr)
  }

  /** No dict value sits under the key `DEFAULT`. */
  predicate NoDefaultTable(es: Dict<Value>) {
    forall i :: 0 <= i < |es| && es[i].1.Map? ==> es[i].0 != DefaultSection
  }

  /** No dict value sits under the empty key. */
  predicate NoEmptyNameTable(es: Dict<Value>) {
    forall i :: 0 <= i < |es| && es[i].1.Map? ==> es[i].0 != ""
  }

  /** The section-assignment part of `write_output(data, "ini")`. Flat data
      is wrapped as the single `DEFAULT` section, with a warning. */
  function IniSections(data: Dict<Value>, repr: Value -> string): (r: IniOutput)
    ensures r.warned <==> !HasTable(data)
    ensures !HasTable(data) ==> r.doc == IniDoc(StrValues(data, repr), [])
  {
    if HasTable(data) then IniOutput(AssignAll(IniDoc([], []), data, repr), false)
    else
      var top := [(DefaultSection, Map(data))];
      var doc := Assign(IniDoc([], []), top[0], repr);
      assert doc == IniDoc(StrValues(data, repr), []);
      assert top[1..] == [];
      assert AssignAll(IniDoc([], []), top, repr) == AssignAll(doc, [], repr);
      IniOutput(AssignAll(IniDoc([], []), top, repr), true)
  }

  /** A key that no earlier entry has keeps a dict's keys distinct. */
  lemma {:induction false} UniqueSnoc<V>(r: Dict<V>, x: (string, V))
    requires UniqueKeys(r)
    requires forall i :: 0 <= i < |r| ==> r[i].0 != x.0
    ensures UniqueKeys(r + [x])
  {
    var r' := r + [x];
    forall i, j | 0 <= i < j < |r'| ensures r'[i].0 != r'[j].0 {
      assert r'[i] == r[i];
    }
  }

  /** The scalar entries of a dict have distinct keys. */
  lemma {:induction false} ScalarsUnique(data: Dict<Value>)
    requires UniqueKeys(data)
    ensures UniqueKeys(Scalars(data))
    decreases |data|
  {
    if data != [] {
      var init := data[..|data| - 1];
      var last := data[|data| - 1];
      assert data == init + [last];
      UniqueKeysSplit(init, [last]);
      ScalarsUnique(init);
      var s := Scalars(init);
      ScalarsMembers(init);
      if !last.1.Map? {
        forall i | 0 <= i < |s| ensures s[i].0 != last.0 {
          assert s[i] in init;
          var j :| 0 <= j < |init| && init[j] == s[i];
        }
        UniqueSnoc(s, last);
        assert Scalars(data) == s + [last];
      } else {
        assert Scalars(data) == s;
      }
    }
  }

  /** The tables of a dict have distinct names. */
  lemma {:induction false} TablesUnique(data: Dict<Value>)
    requires UniqueKeys(data)
    ensures UniqueKeys(Tables(data))
    decreases |data|
  {
    if data != [] {
      var init := data[..|data| - 1];
      var last := data[|data| - 1];
      assert data == init + [last];
      UniqueKeysSplit(init, [last]);
      TablesUnique(init);
      var t := Tables(init);
      TablesMembers(init);
      if last.1.Map? {
        forall i | 0 <= i < |t| ensures t[i].0 != last.0 {
          assert (t[i].0, Map(t[i].1)) in init;
          var j :| 0 <= j < |init| && init[j] == (t[i].0, Map(t[i].1));
        }
        UniqueSnoc(t, (last.0, last.1.entries));
        assert Tables(data) == t + [(last.0, last.1.entries)];
      } else {
        assert Tables(data) == t;
      }
    }
  }

  lemma {:induction false} AssignAllAppend(doc: IniDoc, a: Dict<Value>, b: Dict<Value>, repr: Value -> string)
    ensures AssignAll(doc, a + b, repr) == AssignAll(AssignAll(doc, a, repr), b, repr)
    decreases |a|
  {
    if a == [] {
      assert a + b == b;
    } else {
      assert (a + b)[0] == a[0] && (a + b)[1..] == a[1..] + b;
      AssignAllAppend(Assign(doc, a[0], repr), a[1..], b, repr);
    }
  }

  lemma {:induction false} ScalarsCons(e: (string, Value), rest: Dict<Value>)
    ensures Scalars([e] + rest) == (if e.1.Map? then [] else [e]) + Scalars(rest)
  {
    ScalarsAppend([e], rest);
    assert [e][..0] == [];
  }

  lemma {:induction false} TablesCons(e: (string, Value), rest: Dict<Value>)
    ensures Tables([e] + rest) == (if e.1.Map? then [(e.0, e.1.entries)] else []) + Tables(rest)
  {
    TablesAppend([e], rest);
    assert [e][..0] == [];
    if e.1.Map? {
      assert Tables([e]) == [(e.0, e.1.entries)];
    } else {
      assert Tables([e]) == [];
    }
  }

  lemma {:induction false} SectionOptionsAppend(a: seq<(string, Dict<Value>)>, b: seq<(string, Dict<Value>)>, repr: Value -> string)
    ensures SectionOptions(a + b, repr) == SectionOptions(a, repr) + SectionOptions(b, repr)
  {
    var l := SectionOptions(a + b, repr);
    var r := SectionOptions(a, repr) + SectionOptions(b, repr);
    assert |l| == |r|;
    forall i | 0 <= i < |l| ensures l[i] == r[i] {
      if i < |a| {
        assert (a + b)[i] == a[i];
      } else {
        assert (a + b)[i] == b[i - |a|];
      }
    }
  }

  /** One table step of the loop, as an update of the sections. */
  lemma {:induction false} TableStep(e: (string, Value), rest: Dict<Value>, repr: Value -> string)
    requires e.1.Map?
    ensures SectionOptions(Tables([e] + rest), repr) ==
      [SectionOf((e.0, e.1.entries), repr)] + SectionOptions(Tables(rest), repr)
  {
    TablesCons(e, rest);
    var t := (e.0, e.1.entries);
    SectionOptionsAppend([t], Tables(rest), repr);
    assert SectionOptions([t], repr) == [SectionOf(t, repr)];
  }

  /** One scalar step of the loop leaves the sections alone. */
  lemma {:induction false} ScalarStep(e: (string, Value), rest: Dict<Value>, repr: Value -> string)
    requires !e.1.Map?
    ensures SectionOptions(Tables([e] + rest), repr) == SectionOptions(Tables(rest), repr)
  {
    TablesCons(e, rest);
    assert [] + Tables(rest) == Tables(rest);
  }

  /** Without a table named `""`, the defaults a run of entries sets are its
      scalars. */
  lemma {:induction false} DefaultOptionsScalars(es: Dict<Value>, repr: Value -> string)
    requires NoEmptyNameTable(es)
    ensures DefaultOptions(es, repr) == StrValues(Scalars(es), repr)
    decreases |es|
  {
    if es != [] {
      var e := es[0];
      var rest := es[1..];
      assert es == [e] + rest;
      assert NoEmptyNameTable(rest) by {
        forall i | 0 <= i < |rest| ensures rest[i] == es[i + 1] { }
      }
      DefaultOptionsScalars(rest, repr);
      ScalarsCons(e, rest);
      if e.1.Map? {
        assert [] + Scalars(rest) == Scalars(rest);
      }
    }
  }

  /** Without a `DEFAULT` table, the loop adds its default options to the
      defaults and every table as a section, each as `dict.update` would. */
  lemma {:induction false} AssignAllNoDefault(doc: IniDoc, es: Dict<Value>, repr: Value -> string)
    requires NoDefaultTable(es)
    ensures AssignAll(doc, es, repr) ==
      IniDoc(PutAll(doc.defaults, DefaultOptions(es, repr)),
             PutAll(doc.sections, SectionOptions(Tables(es), repr)))
    decreases |es|
  {
    if es != [] {
      var e := es[0];
      var rest := es[1..];
      assert es == [e] + rest;
      var doc' := Assign(doc, e, repr);
      assert AssignAll(doc, es, repr) == AssignAll(doc', rest, repr);
      assert NoDefaultTable(rest) by {
        forall i | 0 <= i < |rest| ensures rest[i] == es[i + 1] { }
      }
      AssignAllNoDefault(doc', rest, repr);
      var own := if !e.1.Map? then [(e.0, PyStr(e.1, repr))]
        else if e.0 == "" then StrValues(e.1.entries, repr)
        else [];
      assert DefaultOptions(es, repr) == own + DefaultOptions(rest, repr);
      PutAllAppend(doc.defaults, own, DefaultOptions(rest, repr));
      if e.1.Map? {
        TableStep(e, rest, repr);
        PutAllCons(doc.sections, SectionOf((e.0, e.1.entries), repr), SectionOptions(Tables(rest), repr));
      } else {
        ScalarStep(e, rest, repr);
      }
    }
  }

  /** The same loop from an empty parser, over a dict. */
  lemma {:induction false} NoDefaultFromEmpty(es: Dict<Value>, repr: Value -> string)
    requires UniqueKeys(es) && NoDefaultTable(es)
    ensures AssignAll(IniDoc([], []), es, repr) ==
      IniDoc(PutAll([], DefaultOptions(es, repr)), SectionOptions(Tables(es), repr))
  {
    AssignAllNoDefault(IniDoc([], []), es, repr);
    TablesUnique(es);
    SectionOptionsUnique(Tables(es), repr);
    var s := SectionOptions(Tables(es), repr);
    assert [] + s == s;
    PutAllFresh([], s);
  }

  /** Nested data without a `DEFAULT` table: every scalar top-level entry
      becomes a `DEFAULT` option and every table a section, in order, all
      values passed through `str`; a table named `""` sets its options in
      `DEFAULT` after the scalars before it and stays an empty section;
      nothing is printed. Without such a table the defaults are exactly the
      scalars. */
  lemma {:induction false} IniNested(data: Dict<Value>, repr: Value -> string)
    requires UniqueKeys(data) && HasTable(data) && NoDefaultTable(data)
    ensures IniSections(data, repr) ==
      IniOutput(IniDoc(PutAll([], DefaultOptions(data, repr)), SectionOptions(Tables(data), repr)), false)
    ensures NoEmptyNameTable(data) ==>
      IniSections(data, repr).doc.defaults == StrValues(Scalars(data), repr)
  {
    assert IniSections(data, repr) == IniOutput(AssignAll(IniDoc([], []), data, repr), false);
    NoDefaultFromEmpty(data, repr);
    if NoEmptyNameTable(data) {
      DefaultOptionsScalars(data, repr);
      ScalarsUnique(data);
      var d := StrValues(Scalars(data), repr);
      assert [] + d == d;
      PutAllFresh([], d);
    }
  }

  lemma {:induction false} UniqueKeysDrop<V>(a: Dict<V>, x: (string, V), b: Dict<V>)
    requires UniqueKeys(a + [x] + b)
    ensures UniqueKeys(a + b) && x.0 !in Keys(a) && x.0 !in Keys(b)
  {
    var d := a + [x] + b;
    forall i, j | 0 <= i < j < |a + b| ensures (a + b)[i].0 != (a + b)[j].0 {
      var i' := if i < |a| then i else i + 1;
      var j' := if j < |a| then j else j + 1;
      assert (a + b)[i] == d[i'] && (a + b)[j] == d[j'];
    }
    forall i | 0 <= i < |a| ensures Keys(a)[i] != x.0 {
      assert d[i] == a[i] && d[|a|] == x;
    }
    forall j | 0 <= j < |b| ensures Keys(b)[j] != x.0 {
      assert d[|a| + 1 + j] == b[j] && d[|a|] == x;
    }
  }

  /** Up to and including a `DEFAULT` table, the defaults are that table's
      options and the sections are the tables before it. */
  lemma {:induction false} UpToDefaultTable(pre: Dict<Value>, d: Dict<Value>, repr: Value -> string)
    requires UniqueKeys(pre) && NoDefaultTable(pre)
    ensures AssignAll(IniDoc([], []), pre + [(DefaultSection, Map(d))], repr) ==
      IniDoc(StrValues(d, repr), SectionOptions(Tables(pre), repr))
  {
    var x := (DefaultSection, Map(d));
    var empty := IniDoc([], []);
    AssignAllAppend(empty, pre, [x], repr);
    NoDefaultFromEmpty(pre, repr);
    var sp := SectionOptions(Tables(pre), repr);
    var doc1 := AssignAll(empty, pre, repr);
    assert doc1.sections == sp;
    assert [x][1..] == [];
    assert AssignAll(doc1, [x], repr) == AssignAll(Assign(doc1, x, repr), [], repr);
  }

  /** Nested data with a `DEFAULT` table: that table replaces whatever
      defaults came before it, the default options after it (the scalars,
      and the options of a table named `""`) are set in it, and every other
      table becomes a section in order. */
  lemma {:induction false} IniDefaultTable(pre: Dict<Value>, d: Dict<Value>, post: Dict<Value>, repr: Value -> string)
    requires UniqueKeys(pre + [(DefaultSection, Map(d))] + post)
    ensures IniSections(pre + [(DefaultSection, Map(d))] + post, repr) ==
      IniOutput(IniDoc(PutAll(StrValues(d, repr), DefaultOptions(post, repr)),
                       SectionOptions(Tables(pre), repr) + SectionOptions(Tables(post), repr)),
                false)
    ensures NoEmptyNameTable(post) ==>
      IniSections(pre + [(DefaultSection, Map(d))] + post, repr).doc.defaults ==
        PutAll(StrValues(d, repr), StrValues(Scalars(post), repr))
  {
    var x := (DefaultSection, Map(d));
    var data := pre + [x] + post;
    assert data[|pre|] == x;
    assert HasTable(data);
    UniqueKeysDrop(pre, x, post);
    UniqueKeysSplit(pre, post);
    assert NoDefaultTable(pre) by {
      forall i | 0 <= i < |pre| ensures pre[i].0 != DefaultSection {
        assert Keys(pre)[i] == pre[i].0;
      }
    }
    assert NoDefaultTable(post) by {
      forall i | 0 <= i < |post| ensures post[i].0 != DefaultSection {
        assert Keys(post)[i] == post[i].0;
      }
    }
    var empty := IniDoc([], []);
    AssignAllAppend(empty, pre + [x], post, repr);
    UpToDefaultTable(pre, d, repr);
    var sp := SectionOptions(Tables(pre), repr);
    var sq := SectionOptions(Tables(post), repr);
    AssignAllNoDefault(IniDoc(StrValues(d, repr), sp), post, repr);
    TablesUnique(pre + post);
    TablesAppend(pre, post);
    SectionOptionsUnique(Tables(pre + post), repr);
    SectionOptionsAppend(Tables(pre), Tables(post), repr);
    PutAllFresh(sp, sq);
    if NoEmptyNameTable(post) {
      DefaultOptionsScalars(post, repr);
    }
  }
}

=== FILE: option.dfy ===
/** The optional result of a partial operation: `None` where the source
    would return `None` or raise. */
module Optional {

  datatype Option<+T> = None | Some(value: T)
}

=== FILE: text.dfy ===
/** Python string primitives the converter relies on: whitespace and line
    boundaries as `str.isspace`/`str.splitlines` see them, `strip`,
    `startswith`, `split`/`join` on a separator, ASCII lower-casing and the
    decimal rendering of integers that `str(int)` produces. */
module Text {

  /** Characters for which Python's `str.isspace()` holds; `str.strip()` and
      the regular-expression class `\s` use the same set. */
  predicate IsSpace(c: char) {
    var n := c as int;
    (9 <= n <= 13) || (28 <= n <= 32) || n == 0x85 || n == 0xA0 || n == 0x1680
    || (0x2000 <= n <= 0x200A) || n == 0x2028 || n == 0x2029 || n == 0x202F
    || n == 0x205F || n == 0x3000
  }

  /** Characters at which Python's `str.splitlines()` ends a line. */
  predicate IsLineBreak(c: char) {
    var n := c as int;
    (10 <= n <= 13) || (28 <= n <= 30) || n == 0x85 || n == 0x2028 || n == 0x2029
  }

  predicate NoLineBreak(s: string) {
    forall i :: 0 <= i < |s| ==> !IsLineBreak(s[i])
  }

  predicate AllSpace(s: string) {
    forall i :: 0 <= i < |s| ==> IsSpace(s[i])
  }

  lemma {:induction false} NoLineBreakAppend(a: string, b: string)
    ensures NoLineBreak(a + b) <==> NoLineBreak(a) && NoLineBreak(b)
  {
    assert forall i :: 0 <= i < |a| ==> (a + b)[i] == a[i];
    assert forall i :: 0 <= i < |b| ==> (a + b)[|a| + i] == b[i];
  }

  /** Length of the leading run of whitespace. */
  function LeadingSpaces(s: string): (n: nat)
    ensures n <= |s|
    ensures forall i :: 0 <= i < n ==> IsSpace(s[i])
    ensures n < |s| ==> !IsSpace(s[n])
  {
    if s != [] && IsSpace(s[0]) then
      var n := 1 + LeadingSpaces(s[1..]);
      assert forall i :: 1 <= i < n ==> s[i] == s[1..][i - 1];
      n
    else 0
  }

  /** Where the trailing run of whitespace starts. */
  function TrailingStart(s: string): (n: nat)
    ensures n <= |s|
    ensures forall i :: n <= i < |s| ==> IsSpace(s[i])
    ensures n > 0 ==> !IsSpace(s[n - 1])
  {
    if s != [] && IsSpace(s[|s| - 1]) then TrailingStart(s[..|s| - 1]) else |s|
  }

  /** The run lengths are determined by the characterization above. */
  lemma {:induction false} LeadingSpacesUnique(s: string, k: nat)
    requires k <= |s|
    requires forall i :: 0 <= i < k ==> IsSpace(s[i])
    requires k < |s| ==> !IsSpace(s[k])
    ensures LeadingSpaces(s) == k
  {
  }

  lemma {:induction false} TrailingStartUnique(s: string, k: nat)
    requires k <= |s|
    requires forall i :: k <= i < |s| ==> IsSpace(s[i])
    requires k > 0 ==> !IsSpace(s[k - 1])
    ensures TrailingStart(s) == k
  {
  }

  /** `str.lstrip()` */
  function TrimLeft(s: string): (r: string)
    ensures r == [] || !IsSpace(r[0])
  {
    s[LeadingSpaces(s)..]
  }

  /** `str.rstrip()` */
  function TrimRight(s: string): (r: string)
    ensures r == [] || !IsSpace(r[|r| - 1])
  {
    s[..TrailingStart(s)]
  }

  /** `str.strip()`: both ends, leading first. The result is the part of
      `s` between a whitespace prefix and a whitespace suffix, and it neither
      starts nor ends with whitespace. */
  function Strip(s: string): (r: string)
    ensures r == [] || (!IsSpace(r[0]) && !IsSpace(r[|r| - 1]))
    ensures |r| <= |s| && (|r| == |s| ==> r == s)
    ensures exists i, j :: 0 <= i <= j <= |s| && r == s[i..j] && AllSpace(s[..i]) && AllSpace(s[j..])
  {
    var i := LeadingSpaces(s);
    var u := s[i..];
    var j := i + TrailingStart(u);
    assert TrimRight(TrimLeft(s)) == s[i..j] by {
      assert u[..j - i] == s[i..j];
    }
    assert AllSpace(s[..i]);
    assert AllSpace(s[j..]) by {
      forall k | 0 <= k < |s| - j ensures IsSpace(s[j..][k]) {
        assert s[j..][k] == u[j - i + k];
      }
    }
    TrimRight(TrimLeft(s))
  }

  /** `strip()` leaves a string alone exactly when neither end is
      whitespace. */
  lemma {:induction false} StripIdentityMeans(s: string)
    ensures Strip(s) == s <==> (s == [] || (!IsSpace(s[0]) && !IsSpace(s[|s| - 1])))
  {
    if s != [] && !IsSpace(s[0]) && !IsSpace(s[|s| - 1]) {
      LeadingSpacesUnique(s, 0);
      TrailingStartUnique(s, |s|);
    }
  }

  /** Leading whitespace before a non-space character is dropped. */
  lemma {:induction false} TrimLeftSkip(lead: string, s: string)
    requires AllSpace(lead)
    requires s != [] && !IsSpace(s[0])
    ensures TrimLeft(lead + s) == s
  {
    LeadingSpacesUnique(lead + s, |lead|);
    assert (lead + s)[|lead|..] == s;
  }

  /** Trailing whitespace is only looked for after the last non-space
      character. */
  lemma {:induction false} TrimRightKeep(a: string, b: string)
    requires a != [] && !IsSpace(a[|a| - 1])
    ensures TrimRight(a + b) == a + TrimRight(b)
  {
    var t := TrailingStart(b);
    var s := a + b;
    var k := |a| + t;
    assert forall i :: k <= i < |s| ==> s[i] == b[i - |a|];
    assert s[k - 1] == if t == 0 then a[|a| - 1] else b[t - 1];
    TrailingStartUnique(s, k);
    assert s[..k] == a + b[..t];
  }

  /** Stripping the right end first changes nothing about `strip()`. */
  lemma {:induction false} StripTrimRight(s: string)
    ensures Strip(TrimRight(s)) == Strip(s)
  {
    var i := LeadingSpaces(s);
    var j := TrailingStart(s);
    var r := s[..j];
    if i == |s| {
      LeadingSpacesUnique(r, |r|);
    } else {
      assert i < j;
      LeadingSpacesUnique(r, i);
      assert r[i..] == s[i..j];
      TrailingStartUnique(s[i..], j - i);
      TrailingStartUnique(s[i..j], j - i);
      assert s[i..][..j - i] == s[i..j];
    }
  }

  /** Whitespace after the text does not change what `strip()` gives. */
  lemma {:induction false} StripSpaceSuffix(a: string, w: string)
    requires AllSpace(w)
    ensures Strip(a + w) == Strip(a)
  {
    var s := a + w;
    var k := TrailingStart(a);
    assert forall i :: k <= i < |s| ==> s[i] == if i < |a| then a[i] else w[i - |a|];
    assert k > 0 ==> s[k - 1] == a[k - 1];
    TrailingStartUnique(s, k);
    assert s[..k] == a[..k];
    StripTrimRight(s);
    StripTrimRight(a);
  }

  /** Index of the first line boundary in `s`, or `|s|` when there is none. */
  function LineEnd(s: string): (n: nat)
    ensures n <= |s|
    ensures NoLineBreak(s[..n])
    ensures n < |s| ==> IsLineBreak(s[n])
  {
    if s == [] || IsLineBreak(s[0]) then 0
    else
      var n := 1 + LineEnd(s[1..]);
      assert forall i :: 1 <= i < n ==> s[..n][i] == s[1..][..n - 1][i - 1];
      n
  }

  /** `str.splitlines()`: `\r\n` is one boundary, and a trailing boundary does
      not open an empty last line. */
  function SplitLines(s: string): (lines: seq<string>)
    ensures forall i :: 0 <= i < |lines| ==> NoLineBreak(lines[i])
    decreases |s|
  {
    if s == [] then []
    else
      var n := LineEnd(s);
      if n == |s| then [s]
      else
        var skip := if s[n] == '\r' && n + 1 < |s| && s[n + 1] == '\n' then 2 else 1;
        [s[..n]] + SplitLines(s[n + skip..])
  }

  /** A line boundary as `splitlines` consumes it: one boundary character,
      or `\r\n` together. */
  predicate IsBoundary(b: string) {
    (|b| == 1 && IsLineBreak(b[0])) || b == "\r\n"
  }

  /** The lines, each followed by the boundary that ended it. */
  function Weave(lines: seq<string>, seps: seq<string>): string
    requires |lines| == |seps|
  {
    if lines == [] then [] else lines[0] + seps[0] + Weave(lines[1..], seps[1..])
  }

  /** The boundaries after the lines are where `splitlines` cuts: each
      is a boundary, except that the last line may run to the end of the
      text, and then it is not empty; and a `\r` is a boundary on its own
      only when no `\n` follows it. */
  predicate CutAt(lines: seq<string>, seps: seq<string>)
    requires |lines| == |seps|
  {
    InnerCuts(seps) && LastCut(lines, seps) && CrCuts(lines, seps)
  }

  predicate InnerCuts(seps: seq<string>) {
    forall i :: 0 <= i < |seps| - 1 ==> IsBoundary(seps[i])
  }

  predicate LastCut(lines: seq<string>, seps: seq<string>)
    requires |lines| == |seps|
  {
    seps != [] ==> IsBoundary(seps[|seps| - 1]) || (seps[|seps| - 1] == [] && lines[|seps| - 1] != [])
  }

  predicate CrCuts(lines: seq<string>, seps: seq<string>)
    requires |lines| == |seps|
  {
    forall i :: 0 <= i < |seps| && seps[i] == "\r" ==>
      var after := Weave(lines[i + 1..], seps[i + 1..]);
      after == [] || after[0] != '\n'
  }

  /** `splitlines` cuts the text at its boundaries and nowhere else: the
      text is the lines, each followed by the boundary that ended it. */
  lemma {:induction false} SplitLinesWeave(s: string) returns (seps: seq<string>)
    ensures |seps| == |SplitLines(s)| && Weave(SplitLines(s), seps) == s
    ensures CutAt(SplitLines(s), seps)
    decreases |s|
  {
    if s == [] {
      seps := [];
    } else if LineEnd(s) == |s| {
      seps := [[]];
      assert SplitLines(s) == [s];
      assert Weave([s], seps) == s + [] + Weave([], []);
    } else {
      var line, sep, rest := SplitLinesStep(s);
      var tail := SplitLinesWeave(rest);
      var lines := SplitLines(rest);
      seps := [sep] + tail;
      WeaveCons(line, sep, lines, tail);
      CutAtCons(line, sep, lines, tail);
    }
  }

  /** One cut of `splitlines`: the first line, the boundary after it, and
      the rest of the text, which is split in turn. */
  lemma {:induction false} SplitLinesStep(s: string) returns (line: string, sep: string, rest: string)
    requires LineEnd(s) < |s|
    ensures s == line + sep + rest && |rest| < |s|
    ensures SplitLines(s) == [line] + SplitLines(rest)
    ensures IsBoundary(sep) && (sep == "\r" ==> rest == [] || rest[0] != '\n')
  {
    var n := LineEnd(s);
    var skip := if s[n] == '\r' && n + 1 < |s| && s[n + 1] == '\n' then 2 else 1;
    line, sep, rest := s[..n], s[n..n + skip], s[n + skip..];
    if skip == 2 {
      assert sep == "\r\n";
    } else {
      assert sep == [s[n]];
    }
    assert s == line + sep + rest;
  }

  lemma {:induction false} WeaveCons(l: string, sep: string, lines: seq<string>, seps: seq<string>)
    requires |lines| == |seps|
    ensures Weave([l] + lines, [sep] + seps) == l + sep + Weave(lines, seps)
  {
    assert ([l] + lines)[1..] == lines && ([sep] + seps)[1..] == seps;
  }

  lemma {:induction false} CutAtCons(l: string, sep: string, lines: seq<string>, seps: seq<string>)
    requires |lines| == |seps| && CutAt(lines, seps) && IsBoundary(sep)
    requires sep == "\r" ==> Weave(lines, seps) == [] || Weave(lines, seps)[0] != '\n'
    ensures CutAt([l] + lines, [sep] + seps)
  {
    InnerCutsCons(sep, seps);
    LastCutCons(l, sep, lines, seps);
    CrCutsCons(l, sep, lines, seps);
  }

  lemma {:induction false} InnerCutsCons(sep: string, seps: seq<string>)
    requires InnerCuts(seps) && IsBoundary(sep)
    ensures InnerCuts([sep] + seps)
  {
    var ss := [sep] + seps;
    forall i | 1 <= i < |ss| - 1 ensures IsBoundary(ss[i]) {
      assert ss[i] == seps[i - 1];
    }
  }

  lemma {:induction false} LastCutCons(l: string, sep: string, lines: seq<string>, seps: seq<string>)
    requires |lines| == |seps| && LastCut(lines, seps) && IsBoundary(sep)
    ensures LastCut([l] + lines, [sep] + seps)
  {
    var ls := [l] + lines;
    var ss := [sep] + seps;
    if seps != [] {
      assert ss[|ss| - 1] == seps[|seps| - 1] && ls[|ss| - 1] == lines[|seps| - 1];
    }
  }

  lemma {:induction false} CrCutsCons(l: string, sep: string, lines: seq<string>, seps: seq<string>)
    requires |lines| == |seps| && CrCuts(lines, seps)
    requires sep == "\r" ==> Weave(lines, seps) == [] || Weave(lines, seps)[0] != '\n'
    ensures CrCuts([l] + lines, [sep] + seps)
  {
    var ls := [l] + lines;
    var ss := [sep] + seps;
    forall i | 0 <= i < |ss| && ss[i] == "\r"
      ensures var after := Weave(ls[i + 1..], ss[i + 1..]); after == [] || after[0] != '\n'
    {
      if i == 0 {
        assert ls[1..] == lines && ss[1..] == seps;
      } else {
        assert ss[i] == seps[i - 1];
        assert ls[i + 1..] == lines[i..] && ss[i + 1..] == seps[i..];
      }
    }
  }

  /** `sep.join(parts)` */
  function Join(sep: string, parts: seq<string>): string {
    if |parts| == 0 then ""
    else if |parts| == 1 then parts[0]
    else parts[0] + sep + Join(sep, parts[1..])
  }

  lemma {:induction false} JoinCons(sep: string, p: string, rest: seq<string>)
    requires |rest| >= 1
    ensures Join(sep, [p] + rest) == p + sep + Join(sep, rest)
  {
    assert ([p] + rest)[1..] == rest;
  }

  lemma {:induction false} JoinAppend(sep: string, a: seq<string>, b: seq<string>)
    requires |a| >= 1 && |b| >= 1
    ensures Join(sep, a + b) == Join(sep, a) + sep + Join(sep, b)
  {
    if |a| == 1 {
      JoinCons(sep, a[0], b);
    } else {
      assert (a + b)[1..] == a[1..] + b;
      JoinAppend(sep, a[1..], b);
      JoinCons(sep, a[0], a[1..] + b);
    }
  }

  /** A line that holds no boundary is returned whole, and reading resumes
      after its `\n`. */
  lemma {:induction false} SplitLinesCons(line: string, rest: string)
    requires NoLineBreak(line)
    ensures SplitLines(line + "\n" + rest) == [line] + SplitLines(rest)
  {
    var s := line + "\n" + rest;
    assert s == line + ("\n" + rest);
    LineEndOf(line, "\n" + rest);
    var n := LineEnd(s);
    assert n == |line| && n < |s|;
    assert s[n] == '\n';
    assert s[..n] == line;
    assert s[n + 1..] == rest;
    assert SplitLines(s) == [s[..n]] + SplitLines(s[n + 1..]);
  }

  lemma {:induction false} LineEndOf(line: string, rest: string)
    requires NoLineBreak(line)
    requires rest == [] || IsLineBreak(rest[0])
    ensures LineEnd(line + rest) == |line|
    decreases |line|
  {
    if line != [] {
      assert (line + rest)[1..] == line[1..] + rest;
      LineEndOf(line[1..], rest);
    }
  }

  /** Reading back text written as `"\n".join(lines) + "\n"` gives the lines
      again, as long as none of them holds a boundary of its own. */
  lemma {:induction false} SplitLinesOfJoined(lines: seq<string>)
    requires |lines| >= 1
    requires forall i :: 0 <= i < |lines| ==> NoLineBreak(lines[i])
    ensures SplitLines(Join("\n", lines) + "\n") == lines
  {
    if |lines| == 1 {
      SplitLinesCons(lines[0], "");
      assert lines[0] + "\n" == lines[0] + "\n" + "";
    } else {
      JoinCons("\n", lines[0], lines[1..]);
      SplitLinesOfJoined(lines[1..]);
      assert Join("\n", lines) + "\n" == lines[0] + "\n" + (Join("\n", lines[1..]) + "\n");
      SplitLinesCons(lines[0], Join("\n", lines[1..]) + "\n");
      assert [lines[0]] + lines[1..] == lines;
    }
  }

  /** `s.startswith(p)` */
  predicate StartsWith(s: string, p: string) {
    |p| <= |s| && s[..|p|] == p
  }

  /** ASCII lower-casing. Python's `str.lower()` also lower-cases non-ASCII
      letters, but no non-ASCII character lower-cases to one of the ASCII
      letters the converter compares against, so matching is unaffected. */
  function LowerChar(c: char): char {
    if 'A' <= c <= 'Z' then (c as int + 32) as char else c
  }

  function Lower(s: string): (r: string)
    ensures |r| == |s|
    ensures forall i :: 0 <= i < |s| ==> r[i] == LowerChar(s[i])
  {
    seq(|s|, i requires 0 <= i < |s| => LowerChar(s[i]))
  }

  function IndexOf(s: string, c: char): (i: nat)
    requires c in s
    ensures i < |s| && s[i] == c && c !in s[..i]
  {
    if s[0] == c then 0
    else
      var i := 1 + IndexOf(s[1..], c);
      assert s[..i] == [s[0]] + s[1..][..i - 1];
      i
  }

  /** `s.split(sep)` for a one-character separator: always one more part than
      there are separators, and joining the parts gives `s` back. */
  function Split(s: string, sep: char): (parts: seq<string>)
    ensures |parts| >= 1
    ensures forall i :: 0 <= i < |parts| ==> sep !in parts[i]
    ensures Join([sep], parts) == s
    decreases |s|
  {
    if sep !in s then [s]
    else
      var i := IndexOf(s, sep);
      var rest := Split(s[i + 1..], sep);
      JoinCons([sep], s[..i], rest);
      assert s == s[..i] + [sep] + s[i + 1..];
      [s[..i]] + rest
  }

  /** The other direction: splitting a join of separator-free parts gives the
      parts back. */
  lemma {:induction false} SplitJoin(parts: seq<string>, sep: char)
    requires |parts| >= 1
    requires forall i :: 0 <= i < |parts| ==> sep !in parts[i]
    ensures Split(Join([sep], parts), sep) == parts
  {
    if |parts| == 1 {
    } else {
      var s := Join([sep], parts);
      JoinCons([sep], parts[0], parts[1..]);
      assert s == parts[0] + [sep] + Join([sep], parts[1..]);
      assert s[|parts[0]|] == sep;
      assert s[..|parts[0]|] == parts[0];
      assert sep in s;
      var i := IndexOf(s, sep);
      assert i == |parts[0]|;
      assert s[i + 1..] == Join([sep], parts[1..]);
      SplitJoin(parts[1..], sep);
      assert [parts[0]] + parts[1..] == parts;
    }
  }

  predicate IsDigit(c: char) {
    '0' <= c <= '9'
  }

  function Digit(d: nat): (c: char)
    requires d < 10
    ensures IsDigit(c)
  {
    ('0' as int + d) as char
  }

  /** The decimal digits of `n`, most significant first, no leading zero. */
  function NatToDecimal(n: nat): (r: string)
    ensures |r| >= 1 && forall i :: 0 <= i < |r| ==> IsDigit(r[i])
    ensures |r| > 1 ==> r[0] != '0'
  {
    if n < 10 then [Digit(n)]
    else NatToDecimal(n / 10) + [Digit(n % 10)]
  }

  function DecimalValue(s: string): nat
    requires forall i :: 0 <= i < |s| ==> IsDigit(s[i])
  {
    if s == [] then 0
    else
      assert IsDigit(s[|s| - 1]);
      10 * DecimalValue(s[..|s| - 1]) + (s[|s| - 1] as int - '0' as int)
  }

  /** Reading the digits back gives the number. */
  lemma {:induction false} DecimalRoundTrip(n: nat)
    ensures DecimalValue(NatToDecimal(n)) == n
  {
    if n >= 10 {
      var r := NatToDecimal(n);
      assert r[..|r| - 1] == NatToDecimal(n / 10);
      DecimalRoundTrip(n / 10);
    }
  }

  /** `str(i)` for a Python `int`. */
  function IntToDecimal(i: int): (r: string)
    ensures |r| >= 1 && NoLineBreak(r)
    ensures i < 0 <==> r[0] == '-'
    ensures forall k :: (if i < 0 then 1 else 0) <= k < |r| ==> IsDigit(r[k])
    ensures i < 0 ==> DecimalValue(r[1..]) == -i
    ensures i >= 0 ==> DecimalValue(r) == i
    ensures var s := if i < 0 then 1 else 0; |r| > s + 1 ==> r[s] != '0'
  {
    if i < 0 then
      DecimalRoundTrip(-i);
      assert ("-" + NatToDecimal(-i))[1..] == NatToDecimal(-i);
      "-" + NatToDecimal(-i)
    else
      DecimalRoundTrip(i);
      NatToDecimal(i)
  }
}

=== FILE: tomlstr.dfy ===
/** Quoting a string for TOML. `_toml_value` writes a string as `json.dumps`
    writes it; that is a valid TOML basic string only while every character
    is in the Basic Multilingual Plane, because above it `json.dumps` writes a
    surrogate pair of `\uXXXX` escapes and TOML (section "String" of TOML
    1.0.0) accepts only escapes of Unicode scalar values. `TomlQuote` is the
    corrected quoting, which writes such a character as `\UXXXXXXXX`. */
module TomlString {
  import opened Optional

  function Pow16(w: nat): nat {
    if w == 0 then 1 else 16 * Pow16(w - 1)
  }

  predicate IsHexDigit(c: char) {
    '0' <= c <= '9' || 'a' <= c <= 'f' || 'A' <= c <= 'F'
  }

  predicate AllHex(s: string) {
    forall i :: 0 <= i < |s| ==> IsHexDigit(s[i])
  }

  /** The lower-case hex digit for `d`, as `format(d, "x")` writes it. */
  function HexDigit(d: nat): (c: char)
    requires d < 16
    ensures IsHexDigit(c)
  {
    if d < 10 then ('0' as int + d) as char else ('a' as int + d - 10) as char
  }

  function HexDigitValue(c: char): (d: nat)
    requires IsHexDigit(c)
    ensures d < 16
  {
    if '0' <= c <= '9' then c as int - '0' as int
    else if 'a' <= c <= 'f' then c as int - 'a' as int + 10
    else c as int - 'A' as int + 10
  }

  /** `n` as `w` lower-case hex digits (`format(n, "0{w}x")` for `n` below
      `16^w`). */
  function Hex(n: nat, w: nat): (r: string)
    ensures |r| == w && AllHex(r)
  {
    if w == 0 then [] else Hex(n / 16, w - 1) + [HexDigit(n % 16)]
  }

  /** The number a run of hex digits denotes. */
  function HexValue(s: string): (n: nat)
    requires AllHex(s)
    ensures n < Pow16(|s|)
  {
    if s == [] then 0 else 16 * HexValue(s[..|s| - 1]) + HexDigitValue(s[|s| - 1])
  }

  lemma {:induction false} HexRoundTrip(n: nat, w: nat)
    requires n < Pow16(w)
    ensures HexValue(Hex(n, w)) == n
  {
    if w > 0 {
      var h := Hex(n, w);
      assert h[..w - 1] == Hex(n / 16, w - 1);
      HexRoundTrip(n / 16, w - 1);
      assert HexDigitValue(HexDigit(n % 16)) == n % 16;
    }
  }

  /** `\b` and `\f`, which have no Dafny character literal. */
  const Backspace: char := 8 as char
  const FormFeed: char := 12 as char

  /** How `json.dumps` (with its default `ensure_ascii`) writes one
      character: the short escapes, the printable ASCII characters as
      themselves, everything else as `\uXXXX` with lower-case digits, and a
      character above U+FFFF as the surrogate pair of its UTF-16 form. */
  function JsonEscapeChar(c: char): string {
    var n := c as int;
    if c == '"' then "\\\""
    else if c == '\\' then "\\\\"
    else if c == '\n' then "\\n"
    else if c == '\r' then "\\r"
    else if c == '\t' then "\\t"
    else if c == Backspace then "\\b"
    else if c == FormFeed then "\\f"
    else if 0x20 <= n <= 0x7E then [c]
    else if n < 0x10000 then "\\u" + Hex(n, 4)
    else
      var m := n - 0x10000;
      "\\u" + Hex(0xD800 + m / 0x400, 4) + "\\u" + Hex(0xDC00 + m % 0x400, 4)
  }

  /** The same, except that a character above U+FFFF is written as one
      `\UXXXXXXXX` escape of its code point. */
  function TomlEscapeChar(c: char): string {
    if c as int < 0x10000 then JsonEscapeChar(c) else "\\U" + Hex(c as int, 8)
  }

  function JsonBody(s: string): string {
    if s == [] then [] else JsonEscapeChar(s[0]) + JsonBody(s[1..])
  }

  function TomlBody(s: string): string {
    if s == [] then [] else TomlEscapeChar(s[0]) + TomlBody(s[1..])
  }

  /** `json.dumps(s)` for a string: what `_toml_value` writes. */
  function JsonQuote(s: string): string {
    "\"" + JsonBody(s) + "\""
  }

  /** The corrected quoting. */
  function TomlQuote(s: string): string {
    "\"" + TomlBody(s) + "\""
  }

  /** Code points that are Unicode scalar values: what a TOML `\u` or `\U`
      escape may denote. */
  predicate IsScalarValue(n: int) {
    0 <= n < 0xD800 || 0xE000 <= n < 0x110000
  }

  /** Characters TOML does not allow unescaped in a basic string: the
      control characters other than tab. */
  predicate IsTomlControl(c: char) {
    var n := c as int;
    0 <= n <= 8 || 10 <= n <= 0x1F || n == 0x7F
  }

  /** The character a one-letter escape stands for. */
  function ShortEscape(e: char): Option<char> {
    if e == 'b' then Some(Backspace)
    else if e == 't' then Some('\t')
    else if e == 'n' then Some('\n')
    else if e == 'f' then Some(FormFeed)
    else if e == 'r' then Some('\r')
    else if e == '"' then Some('"')
    else if e == '\\' then Some('\\')
    else None
  }

  function Prepend(c: char, o: Option<string>): (r: Option<string>)
    ensures r.Some? <==> o.Some?
  {
    if o.None? then None else Some([c] + o.value)
  }

  /** Reference reader: the characters between the quotes of a TOML basic
      string, or `None` when TOML rejects them. */
  function TomlUnescape(body: string): Option<string>
    decreases |body|
  {
    if body == [] then Some([])
    else if body[0] == '\\' then
      if |body| < 2 then None
      else
        var e := body[1];
        if ShortEscape(e).Some? then Prepend(ShortEscape(e).value, TomlUnescape(body[2..]))
        else if e == 'u' || e == 'U' then
          var w := if e == 'u' then 4 else 8;
          if |body| < 2 + w || !AllHex(body[2..2 + w]) then None
          else
            var n := HexValue(body[2..2 + w]);
            if !IsScalarValue(n) then None
            else Prepend(n as char, TomlUnescape(body[2 + w..]))
        else None
    else if body[0] == '"' || IsTomlControl(body[0]) then None
    else Prepend(body[0], TomlUnescape(body[1..]))
  }

  /** A TOML basic string: its text between the quotes, or `None`. */
  function TomlUnquote(t: string): Option<string> {
    if |t| >= 2 && t[0] == '"' && t[|t| - 1] == '"' then TomlUnescape(t[1..|t| - 1]) else None
  }

  lemma {:induction false} UnescapeShort(e: char, c: char, rest: string)
    requires ShortEscape(e) == Some(c)
    ensures TomlUnescape(['\\', e] + rest) == Prepend(c, TomlUnescape(rest))
  {
    assert (['\\', e] + rest)[2..] == rest;
  }

  lemma {:induction false} UnescapeHex(e: char, w: nat, c: char, rest: string)
    requires (e == 'u' && w == 4) || (e == 'U' && w == 8)
    requires c as int < Pow16(w)
    ensures TomlUnescape(['\\', e] + Hex(c as int, w) + rest) == Prepend(c, TomlUnescape(rest))
  {
    var body := ['\\', e] + Hex(c as int, w) + rest;
    assert body[0] == '\\' && body[1] == e && |body| >= 2 + w;
    assert ShortEscape(e).None?;
    assert body[2..2 + w] == Hex(c as int, w);
    assert body[2 + w..] == rest;
    HexRoundTrip(c as int, w);
    assert IsScalarValue(c as int);
  }

  lemma {:induction false} Pow16Values()
    ensures Pow16(4) == 0x10000 && Pow16(8) == 0x1_0000_0000
  {
  }

  /** A TOML reader turns every escaped character back into itself. */
  lemma {:induction false} UnescapeTomlChar(c: char, rest: string)
    ensures TomlUnescape(TomlEscapeChar(c) + rest) == Prepend(c, TomlUnescape(rest))
  {
    var n := c as int;
    Pow16Values();
    if n >= 0x10000 {
      UnescapeHex('U', 8, c, rest);
    } else if c == '"' {
      UnescapeShort('"', c, rest);
    } else if c == '\\' {
      UnescapeShort('\\', c, rest);
    } else if c == '\n' {
      UnescapeShort('n', c, rest);
    } else if c == '\r' {
      UnescapeShort('r', c, rest);
    } else if c == '\t' {
      UnescapeShort('t', c, rest);
    } else if c == Backspace {
      UnescapeShort('b', c, rest);
    } else if c == FormFeed {
      UnescapeShort('f', c, rest);
    } else if 0x20 <= n <= 0x7E {
      assert ([c] + rest)[1..] == rest;
    } else {
      UnescapeHex('u', 4, c, rest);
    }
  }

  lemma {:induction false} TomlBodyRoundTrip(s: string)
    ensures TomlUnescape(TomlBody(s)) == Some(s)
  {
    if s != [] {
      TomlBodyRoundTrip(s[1..]);
      UnescapeTomlChar(s[0], TomlBody(s[1..]));
      assert [s[0]] + s[1..] == s;
    }
  }

  /** The corrected quoting reads back, through TOML's rules, as the string
      it quoted. */
  lemma {:induction false} TomlQuoteRoundTrip(s: string)
    ensures TomlUnquote(TomlQuote(s)) == Some(s)
  {
    var t := TomlQuote(s);
    assert t[1..|t| - 1] == TomlBody(s);
    TomlBodyRoundTrip(s);
  }

  predicate InBmp(s: string) {
    forall i :: 0 <= i < |s| ==> s[i] as int < 0x10000
  }

  /** Where every character is in the Basic Multilingual Plane, the two
      quotings agree. */
  lemma {:induction false} JsonBodyBmp(s: string)
    requires InBmp(s)
    ensures JsonBody(s) == TomlBody(s)
  {
    if s != [] {
      JsonBodyBmp(s[1..]);
    }
  }

  /** `json.dumps` writes a character above U+FFFF as a surrogate pair, and
      TOML rejects the first escape of the pair. */
  lemma {:induction false} JsonSurrogateRejected(c: char, rest: string)
    requires c as int >= 0x10000
    ensures TomlUnescape(JsonEscapeChar(c) + rest) == None
  {
    var m := c as int - 0x10000;
    var hi := 0xD800 + m / 0x400;
    var body := JsonEscapeChar(c) + rest;
    Pow16Values();
    assert body[..6] == "\\u" + Hex(hi, 4);
    assert body[2..6] == Hex(hi, 4);
    HexRoundTrip(hi, 4);
    assert !IsScalarValue(hi);
  }

  lemma {:induction false} JsonBodyRejected(s: string)
    requires !InBmp(s)
    ensures TomlUnescape(JsonBody(s)) == None
  {
    if s[0] as int >= 0x10000 {
      JsonSurrogateRejected(s[0], JsonBody(s[1..]));
    } else {
      assert !InBmp(s[1..]) by {
        var i :| 0 <= i < |s| && s[i] as int >= 0x10000;
        assert s[1..][i - 1] == s[i];
      }
      JsonBodyRejected(s[1..]);
      UnescapeTomlChar(s[0], JsonBody(s[1..]));
    }
  }

  /** What `_toml_value` writes for a string reads back, as TOML, as that
      string exactly when no character of it lies above U+FFFF; otherwise the
      TOML reader rejects it. */
  lemma {:induction false} JsonQuoteAsToml(s: string)
    ensures TomlUnquote(JsonQuote(s)) == Some(s) <==> InBmp(s)
    ensures !InBmp(s) ==> TomlUnquote(JsonQuote(s)) == None
  {
    var t := JsonQuote(s);
    assert t[1..|t| - 1] == JsonBody(s);
    if InBmp(s) {
      JsonBodyBmp(s);
      TomlQuoteRoundTrip(s);
    } else {
      JsonBodyRejected(s);
    }
  }

  lemma {:induction false} HexHigh()
    ensures Hex(0xD83D, 4) == "d83d"
  {
    assert Hex(0xD, 1) == "d" && Hex(0xD8, 2) == "d8" && Hex(0xD83, 3) == "d83";
  }

  lemma {:induction false} HexLow()
    ensures Hex(0xDE00, 4) == "de00"
  {
    assert Hex(0xD, 1) == "d" && Hex(0xDE, 2) == "de" && Hex(0xDE0, 3) == "de0";
  }

  lemma {:induction false} HexGrinning()
    ensures Hex(0x1F600, 8) == "0001f600"
  {
    assert Hex(0, 3) == "000" && Hex(1, 4) == "0001" && Hex(0x1F, 5) == "0001f";
    assert Hex(0x1F6, 6) == "0001f6" && Hex(0x1F60, 7) == "0001f60";
  }

  /** A character above U+FFFF is written as the escapes of its high and
      low surrogates. */
  lemma {:induction false} JsonPairEscape(c: char, high: int, low: int)
    requires c as int >= 0x10000
    requires high == 0xD800 + (c as int - 0x10000) / 0x400 && low == 0xDC00 + (c as int - 0x10000) % 0x400
    ensures JsonEscapeChar(c) == "\\u" + Hex(high, 4) + "\\u" + Hex(low, 4)
  {
  }

  lemma {:induction false} JsonGrinningEscape()
    ensures JsonEscapeChar('\U{1F600}') == "\\ud83d\\ude00"
  {
    var c := '\U{1F600}';
    assert c as int == 0x1F600;
    JsonPairEscape(c, 0xD83D, 0xDE00);
    HexHigh();
    HexLow();
  }

  lemma {:induction false} TomlGrinningEscape()
    ensures TomlEscapeChar('\U{1F600}') == "\\U0001f600"
  {
    var c := '\U{1F600}';
    assert c as int == 0x1F600;
    HexGrinning();
    assert TomlEscapeChar(c) == "\\U" + Hex(0x1F600, 8);
  }

  /** U+1F600 as `_toml_value` writes it: the surrogate-pair escapes
      `\ud83d\ude00`. */
  lemma {:induction false} GrinningJson()
    ensures JsonQuote("\U{1F600}") == "\"\\ud83d\\ude00\""
  {
    var s := "\U{1F600}";
    JsonGrinningEscape();
    var e := JsonEscapeChar(s[0]);
    assert s[1..] == [];
    assert JsonBody(s) == e + JsonBody([]) == e;
  }

  /** U+1F600 as the corrected quoting writes it: `\U0001f600`. */
  lemma {:induction false} GrinningToml()
    ensures TomlQuote("\U{1F600}") == "\"\\U0001f600\""
  {
    var s := "\U{1F600}";
    TomlGrinningEscape();
    var e := TomlEscapeChar(s[0]);
    assert s[1..] == [];
    assert TomlBody(s) == e + TomlBody([]) == e;
  }

  /** A TOML reader rejects what `_toml_value` writes for U+1F600 and reads
      back what the corrected quoting writes. */
  lemma {:induction false} GrinningFace()
    ensures TomlUnquote("\"\\ud83d\\ude00\"") == None
    ensures TomlUnquote("\"\\U0001f600\"") == Some("\U{1F600}")
  {
    var s := "\U{1F600}";
    assert !InBmp(s) by {
      assert s[0] as int == 0x1F600;
    }
    GrinningJson();
    GrinningToml();
    JsonQuoteAsToml(s);
    TomlQuoteRoundTrip(s);
  }

  /** Printable ASCII, `' '` to `'~'`. */
  predicate Printable(s: string) {
    forall i :: 0 <= i < |s| ==> 0x20 <= s[i] as int <= 0x7E
  }

  lemma {:induction false} PrintableAppend(a: string, b: string)
    requires Printable(a) && Printable(b)
    ensures Printable(a + b)
  {
    assert forall i :: 0 <= i < |a| ==> (a + b)[i] == a[i];
    assert forall i :: 0 <= i < |b| ==> (a + b)[|a| + i] == b[i];
  }

  lemma {:induction false} EscapePrintable(c: char)
    ensures Printable(JsonEscapeChar(c)) && Printable(TomlEscapeChar(c))
  {
    var n := c as int;
    if n >= 0x10000 {
      var m := n - 0x10000;
      PrintableAppend("\\u" + Hex(0xD800 + m / 0x400, 4), "\\u" + Hex(0xDC00 + m % 0x400, 4));
    }
  }

  /** The corrected quoting writes printable ASCII only, so never a line
      break. */
  lemma {:induction false} TomlQuotePrintable(s: string)
    ensures Printable(TomlBody(s)) && Printable(TomlQuote(s))
  {
    if s != [] {
      TomlQuotePrintable(s[1..]);
      EscapePrintable(s[0]);
      PrintableAppend(TomlEscapeChar(s[0]), TomlBody(s[1..]));
    }
    PrintableAppend("\"" + TomlBody(s), "\"");
  }

  /** `json.dumps` with `ensure_ascii` writes printable ASCII only, so never
      a line break. */
  lemma {:induction false} JsonQuotePrintable(s: string)
    ensures Printable(JsonBody(s)) && Printable(JsonQuote(s))
  {
    if s != [] {
      JsonQuotePrintable(s[1..]);
      EscapePrintable(s[0]);
      PrintableAppend(JsonEscapeChar(s[0]), JsonBody(s[1..]));
    }
    PrintableAppend("\"" + JsonBody(s), "\"");
  }
}

=== FILE: tomlwriter.dfy ===
/** The TOML writer `write_output` falls back on when `tomli_w` is missing:
    top-level scalars first as `key = value` lines, then every top-level dict
    under its own `[name]` header, each header preceded by an empty line. */
module TomlWriter {
  import opened Optional
  import opened Text
  import opened Dicts
  import opened Values
  import opened TomlString

  /** `_toml_value(v)`: strings through `json.dumps`, and a dict or `None`
      as the `json.dumps` of its `str`. A TOML reader gets such a string back
      exactly when it has no character above U+FFFF, whose surrogate-pair
      escape TOML rejects. A list is written between brackets. */
  function TomlValue(v: Value, repr: Value -> string): (r: string)
    ensures v.Str? ==> (TomlUnquote(r) == Some(v.s) <==> InBmp(v.s))
    ensures v.Null? || v.Map? ==> (TomlUnquote(r) == Some(PyStr(v, repr)) <==> InBmp(PyStr(v, repr)))
    ensures v.List? ==> |r| >= 2 && r[0] == '[' && r[|r| - 1] == ']'
    ensures v.List? ==>
      r == "[" + Join(", ", seq(|v.items|, i requires 0 <= i < |v.items| => TomlValue(v.items[i], repr))) + "]"
    decreases v, 1
  {
    match v
    case Bool(b) => if b then "true" else "false"
    case Int(i) => IntToDecimal(i)
    case Float(t) => t
    case Str(s) =>
      JsonQuoteAsToml(s);
      JsonQuote(s)
    case List(items) => "[" + TomlItems(v, |items|, repr) + "]"
    case _ =>
      JsonQuoteAsToml(PyStr(v, repr));
      JsonQuote(PyStr(v, repr))
  }

  /** `", ".join(_toml_value(i) for i in v)` over the first `n` items. */
  function TomlItems(v: Value, n: nat, repr: Value -> string): (r: string)
    requires v.List? && n <= |v.items|
    ensures r == Join(", ", seq(n, i requires 0 <= i < n => TomlValue(v.items[i], repr)))
    decreases v, 0, n
  {
    if n == 0 then ""
    else if n == 1 then TomlValue(v.items[0], repr)
    else
      var a := seq(n - 1, i requires 0 <= i < n - 1 => TomlValue(v.items[i], repr));
      var b := [TomlValue(v.items[n - 1], repr)];
      assert seq(n, i requires 0 <= i < n => TomlValue(v.items[i], repr)) == a + b;
      JoinAppend(", ", a, b);
      TomlItems(v, n - 1, repr) + ", " + TomlValue(v.items[n - 1], repr)
  }

  /** No float text of the value holds a line break (Python's `str` of a
      float never does). */
  predicate FloatsOneLine(v: Value)
    decreases v
  {
    if v.Float? then NoLineBreak(v.text)
    else if v.List? then forall i :: 0 <= i < |v.items| ==> FloatsOneLine(v.items[i])
    else true
  }

  lemma {:induction false} PrintableOneLine(s: string)
    requires Printable(s)
    ensures NoLineBreak(s)
  {
  }

  /** A written value stays on its line. */
  lemma {:induction false} TomlValueOneLine(v: Value, repr: Value -> string)
    requires FloatsOneLine(v)
    ensures NoLineBreak(TomlValue(v, repr))
    decreases v, 1
  {
    match v
    case Bool(b) =>
    case Int(i) =>
    case Float(t) =>
    case Str(s) =>
      JsonQuotePrintable(s);
      PrintableOneLine(JsonQuote(s));
    case List(items) =>
      TomlItemsOneLine(v, |items|, repr);
      NoLineBreakAppend("[", TomlItems(v, |items|, repr));
      NoLineBreakAppend("[" + TomlItems(v, |items|, repr), "]");
    case _ =>
      JsonQuotePrintable(PyStr(v, repr));
      PrintableOneLine(JsonQuote(PyStr(v, repr)));
  }

  lemma {:induction false} TomlItemsOneLine(v: Value, n: nat, repr: Value -> string)
    requires v.List? && n <= |v.items| && FloatsOneLine(v)
    ensures NoLineBreak(TomlItems(v, n, repr))
    decreases v, 0, n
  {
    if n == 1 {
      TomlValueOneLine(v.items[0], repr);
    } else if n > 1 {
      TomlItemsOneLine(v, n - 1, repr);
      TomlValueOneLine(v.items[n - 1], repr);
      NoLineBreakAppend(TomlItems(v, n - 1, repr), ", ");
      NoLineBreakAppend(TomlItems(v, n - 1, repr) + ", ", TomlValue(v.items[n - 1], repr));
    }
  }

  /** `f"{k} = {_toml_value(v)}"` for each entry. */
  function EntryLines(es: Dict<Value>, repr: Value -> string): (ls: seq<string>)
    ensures |ls| == |es|
  {
    seq(|es|, i requires 0 <= i < |es| => es[i].0 + " = " + TomlValue(es[i].1, repr))
  }

  /** For each table, `f"\n[{table}]"` followed by its entry lines. */
  function TableLines(ts: seq<(string, Dict<Value>)>, repr: Value -> string): seq<string> {
    if ts == [] then []
    else ["\n[" + ts[0].0 + "]"] + EntryLines(ts[0].1, repr) + TableLines(ts[1..], repr)
  }

  /** The list `lines` the fallback builds. */
  function TomlLines(data: Dict<Value>, repr: Value -> string): seq<string> {
    EntryLines(Scalars(data), repr) + TableLines(Tables(data), repr)
  }

  /** The fallback branch of `write_output(data, "toml")`. Its output, read
      line by line, puts every top-level scalar before the first header and
      every top-level dict's entries under its own header, in order and with
      the values `_toml_value` wrote, as long as every key is bare and no
      float text breaks its line. */
  function WriteToml(data: Dict<Value>, repr: Value -> string): (r: string)
    ensures TomlWritable(data) ==> ReadToml(r) == Some(Layout(data, repr))
  {
    if TomlWritable(data) then
      ReadTomlLines(data, repr);
      Join("\n", TomlLines(data, repr)) + "\n"
    else Join("\n", TomlLines(data, repr)) + "\n"
  }

  // A reader for the documents the writer produces.

  /** A document as a TOML reader sees its lines: the top-level `key = value`
      pairs, then each `[table]` with its pairs, values kept as text. */
  datatype TomlDoc = TomlDoc(top: seq<(string, string)>, tables: seq<(string, seq<(string, string)>)>)

  /** A key TOML accepts unquoted: letters, digits, `_` and `-`. */
  predicate BareKey(k: string) {
    |k| >= 1 &&
    forall i :: 0 <= i < |k| ==>
      'A' <= k[i] <= 'Z' || 'a' <= k[i] <= 'z' || '0' <= k[i] <= '9' || k[i] == '_' || k[i] == '-'
  }

  predicate IsHeader(line: string) {
    |line| >= 2 && line[0] == '[' && line[|line| - 1] == ']'
  }

  /** A `key = value` line, split at its first `=`. */
  function SplitEntry(line: string): Option<(string, string)> {
    if '=' !in line then None
    else
      var i := IndexOf(line, '=');
      if i >= 2 && line[i - 1] == ' ' && i + 1 < |line| && line[i + 1] == ' '
      then Some((line[..i - 1], line[i + 2..]))
      else None
  }

  /** Adds a pair to the table read last, or to the top level before any
      header. */
  function AddPair(doc: TomlDoc, kv: (string, string)): TomlDoc {
    if doc.tables == [] then doc.(top := doc.top + [kv])
    else
      var n := |doc.tables|;
      doc.(tables := doc.tables[..n - 1] + [(doc.tables[n - 1].0, doc.tables[n - 1].1 + [kv])])
  }

  /** One line: empty lines are skipped, a header opens a table, anything
      else must be a pair. */
  function ReadLine(doc: TomlDoc, line: string): Option<TomlDoc> {
    if line == [] then Some(doc)
    else if IsHeader(line) then Some(doc.(tables := doc.tables + [(line[1..|line| - 1], [])]))
    else
      var kv := SplitEntry(line);
      if kv.None? then None else Some(AddPair(doc, kv.value))
  }

  function ReadFrom(doc: Option<TomlDoc>, ls: seq<string>): Option<TomlDoc>
    decreases |ls|
  {
    if ls == [] || doc.None? then doc else ReadFrom(ReadLine(doc.value, ls[0]), ls[1..])
  }

  function ReadToml(text: string): Option<TomlDoc> {
    ReadFrom(Some(TomlDoc([], [])), SplitLines(text))
  }

  function Texts(es: Dict<Value>, repr: Value -> string): (r: seq<(string, string)>)
    ensures |r| == |es|
  {
    seq(|es|, i requires 0 <= i < |es| => (es[i].0, TomlValue(es[i].1, repr)))
  }

  function TableTexts(ts: seq<(string, Dict<Value>)>, repr: Value -> string): (r: seq<(string, seq<(string, string)>)>)
    ensures |r| == |ts|
  {
    seq(|ts|, i requires 0 <= i < |ts| => (ts[i].0, Texts(ts[i].1, repr)))
  }

  /** What a reader should find in the written document: the scalars at the
      top, then every table with its entries, each value as `_toml_value`
      wrote it. */
  function Layout(data: Dict<Value>, repr: Value -> string): TomlDoc {
    TomlDoc(Texts(Scalars(data), repr), TableTexts(Tables(data), repr))
  }

  /** Keys and values the reader gets back: bare keys, one-line values. */
  predicate EntriesWritable(es: Dict<Value>) {
    forall i :: 0 <= i < |es| ==> BareKey(es[i].0) && FloatsOneLine(es[i].1)
  }

  predicate TablesWritable(ts: seq<(string, Dict<Value>)>) {
    forall i :: 0 <= i < |ts| ==> BareKey(ts[i].0) && EntriesWritable(ts[i].1)
  }

  predicate TomlWritable(data: Dict<Value>) {
    forall kv :: kv in data ==>
      BareKey(kv.0) &&
      (kv.1.Map? ==> EntriesWritable(kv.1.entries)) &&
      (!kv.1.Map? ==> FloatsOneLine(kv.1))
  }

  lemma {:induction false} SplitEntryOf(k: string, v: string)
    requires BareKey(k)
    ensures SplitEntry(k + " = " + v) == Some((k, v))
  {
    var line := k + " = " + v;
    var j := |k| + 1;
    assert line[j] == '=' && line[..j] == k + " ";
    assert '=' !in line[..j];
    assert IndexOf(line, '=') == j;
    assert line[..j - 1] == k && line[j + 2..] == v;
  }

  /** The reader reads an entry line as its pair. */
  lemma {:induction false} ReadEntryLine(doc: TomlDoc, k: string, v: Value, repr: Value -> string)
    requires BareKey(k)
    ensures ReadLine(doc, k + " = " + TomlValue(v, repr)) == Some(AddPair(doc, (k, TomlValue(v, repr))))
  {
    SplitEntryOf(k, TomlValue(v, repr));
    assert (k + " = " + TomlValue(v, repr))[0] == k[0];
  }

  lemma {:induction false} ReadFromAppend(doc: Option<TomlDoc>, a: seq<string>, b: seq<string>)
    ensures ReadFrom(doc, a + b) == ReadFrom(ReadFrom(doc, a), b)
    decreases |a|
  {
    if a == [] {
      assert a + b == b;
    } else if doc.Some? {
      assert (a + b)[0] == a[0] && (a + b)[1..] == a[1..] + b;
      ReadFromAppend(ReadLine(doc.value, a[0]), a[1..], b);
    } else {
      assert ReadFrom(doc, a + b) == None;
      assert ReadFrom(None, b) == None;
    }
  }

  lemma {:induction false} ReadTop(top: seq<(string, string)>, es: Dict<Value>, repr: Value -> string)
    requires EntriesWritable(es)
    ensures ReadFrom(Some(TomlDoc(top, [])), EntryLines(es, repr)) == Some(TomlDoc(top + Texts(es, repr), []))
    decreases |es|
  {
    if es == [] {
      assert top + Texts(es, repr) == top;
    } else {
      var kv := (es[0].0, TomlValue(es[0].1, repr));
      ReadTopStep(top, es, repr);
      ReadTop(top + [kv], es[1..], repr);
      TextsCons(top, es, repr);
    }
  }

  lemma {:induction false} ReadTopStep(top: seq<(string, string)>, es: Dict<Value>, repr: Value -> string)
    requires es != [] && BareKey(es[0].0)
    ensures ReadFrom(Some(TomlDoc(top, [])), EntryLines(es, repr)) ==
      ReadFrom(Some(TomlDoc(top + [(es[0].0, TomlValue(es[0].1, repr))], [])), EntryLines(es[1..], repr))
  {
    ReadEntryLine(TomlDoc(top, []), es[0].0, es[0].1, repr);
    assert EntryLines(es, repr)[1..] == EntryLines(es[1..], repr);
  }

  lemma {:induction false} TextsCons(pre: seq<(string, string)>, es: Dict<Value>, repr: Value -> string)
    requires es != []
    ensures pre + [(es[0].0, TomlValue(es[0].1, repr))] + Texts(es[1..], repr) == pre + Texts(es, repr)
  {
    assert Texts(es, repr) == [(es[0].0, TomlValue(es[0].1, repr))] + Texts(es[1..], repr);
  }

  lemma {:induction false} ReadTable(top: seq<(string, string)>, done: seq<(string, seq<(string, string)>)>,
                                     name: string, kvs: seq<(string, string)>, es: Dict<Value>, repr: Value -> string)
    requires EntriesWritable(es)
    ensures ReadFrom(Some(TomlDoc(top, done + [(name, kvs)])), EntryLines(es, repr)) ==
      Some(TomlDoc(top, done + [(name, kvs + Texts(es, repr))]))
    decreases |es|
  {
    if es == [] {
      assert kvs + Texts(es, repr) == kvs;
    } else {
      var kv := (es[0].0, TomlValue(es[0].1, repr));
      ReadTableStep(top, done, name, kvs, es, repr);
      ReadTable(top, done, name, kvs + [kv], es[1..], repr);
      TextsCons(kvs, es, repr);
    }
  }

  lemma {:induction false} ReadTableStep(top: seq<(string, string)>, done: seq<(string, seq<(string, string)>)>,
                                         name: string, kvs: seq<(string, string)>, es: Dict<Value>, repr: Value -> string)
    requires es != [] && BareKey(es[0].0)
    ensures ReadFrom(Some(TomlDoc(top, done + [(name, kvs)])), EntryLines(es, repr)) ==
      ReadFrom(Some(TomlDoc(top, done + [(name, kvs + [(es[0].0, TomlValue(es[0].1, repr))])])), EntryLines(es[1..], repr))
  {
    var kv := (es[0].0, TomlValue(es[0].1, repr));
    var doc := TomlDoc(top, done + [(name, kvs)]);
    ReadEntryLine(doc, es[0].0, es[0].1, repr);
    assert (done + [(name, kvs)])[..|done|] == done;
    assert AddPair(doc, kv) == TomlDoc(top, done + [(name, kvs + [kv])]);
    assert EntryLines(es, repr)[1..] == EntryLines(es[1..], repr);
  }

  /** The lines of the tables as they come out of the text: the leading
      `\n` of each header line becomes an empty line of its own. */
  function Blocks(ts: seq<(string, Dict<Value>)>, repr: Value -> string): seq<string> {
    if ts == [] then []
    else ["", "[" + ts[0].0 + "]"] + EntryLines(ts[0].1, repr) + Blocks(ts[1..], repr)
  }

  lemma {:induction false} ReadBlocks(top: seq<(string, string)>, done: seq<(string, seq<(string, string)>)>,
                                      ts: seq<(string, Dict<Value>)>, repr: Value -> string)
    requires TablesWritable(ts)
    ensures ReadFrom(Some(TomlDoc(top, done)), Blocks(ts, repr)) == Some(TomlDoc(top, done + TableTexts(ts, repr)))
    decreases |ts|
  {
    if ts == [] {
      assert done + TableTexts(ts, repr) == done;
    } else {
      var t := (ts[0].0, Texts(ts[0].1, repr));
      ReadBlocksStep(top, done, ts, repr);
      assert TablesWritable(ts[1..]) by {
        forall i | 0 <= i < |ts| - 1 ensures ts[1..][i] == ts[i + 1] { }
      }
      ReadBlocks(top, done + [t], ts[1..], repr);
      assert TableTexts(ts, repr) == [t] + TableTexts(ts[1..], repr);
      assert done + [t] + TableTexts(ts[1..], repr) == done + TableTexts(ts, repr);
    }
  }

  /** The first table's block is read as that table with its entries. */
  lemma {:induction false} ReadBlocksStep(top: seq<(string, string)>, done: seq<(string, seq<(string, string)>)>,
                                          ts: seq<(string, Dict<Value>)>, repr: Value -> string)
    requires ts != [] && EntriesWritable(ts[0].1)
    ensures ReadFrom(Some(TomlDoc(top, done)), Blocks(ts, repr)) ==
      ReadFrom(Some(TomlDoc(top, done + [(ts[0].0, Texts(ts[0].1, repr))])), Blocks(ts[1..], repr))
  {
    var name := ts[0].0;
    var es := ts[0].1;
    var rest := Blocks(ts[1..], repr);
    assert Blocks(ts, repr) == ["", "[" + name + "]"] + (EntryLines(es, repr) + rest);
    ReadHeader(top, done, name, EntryLines(es, repr) + rest);
    ReadFromAppend(Some(TomlDoc(top, done + [(name, [])])), EntryLines(es, repr), rest);
    ReadTable(top, done, name, [], es, repr);
    assert [] + Texts(es, repr) == Texts(es, repr);
  }

  /** The empty line and the header line open a new, empty table. */
  lemma {:induction false} ReadHeader(top: seq<(string, string)>, done: seq<(string, seq<(string, string)>)>,
                                      name: string, rest: seq<string>)
    ensures ReadFrom(Some(TomlDoc(top, done)), ["", "[" + name + "]"] + rest) ==
      ReadFrom(Some(TomlDoc(top, done + [(name, [])])), rest)
  {
    var header := "[" + name + "]";
    assert header[1..|header| - 1] == name;
    var start := Some(TomlDoc(top, done));
    var withHeader := TomlDoc(top, done + [(name, [])]);
    assert IsHeader(header);
    assert ReadLine(TomlDoc(top, done), header) == Some(withHeader);
    assert ["", header][1..] == [header];
    assert ReadFrom(start, ["", header]) == ReadFrom(start, [header]);
    var none: seq<string> := [];
    assert [header][1..] == none;
    assert ReadFrom(start, [header]) == ReadFrom(Some(withHeader), none);
    ReadFromAppend(start, ["", header], rest);
  }

  lemma {:induction false} HeaderJoin(h: string, ys: seq<string>)
    ensures Join("\n", ["\n" + h] + ys) == Join("\n", ["", h] + ys)
  {
    if ys == [] {
      JoinCons("\n", "", [h]);
    } else {
      JoinCons("\n", "\n" + h, ys);
      JoinCons("\n", "", [h] + ys);
      JoinCons("\n", h, ys);
    }
  }

  lemma {:induction false} HeaderJoinAfter(pre: seq<string>, h: string, z: seq<string>)
    ensures Join("\n", pre + (["\n" + h] + z)) == Join("\n", pre + (["", h] + z))
  {
    HeaderJoin(h, z);
    if pre == [] {
      assert pre + (["\n" + h] + z) == ["\n" + h] + z;
      assert pre + (["", h] + z) == ["", h] + z;
    } else {
      JoinAppend("\n", pre, ["\n" + h] + z);
      JoinAppend("\n", pre, ["", h] + z);
    }
  }

  /** Joining the writer's lines gives the same text as joining the lines
      it is read back as. */
  lemma {:induction false} JoinTables(pre: seq<string>, ts: seq<(string, Dict<Value>)>, repr: Value -> string)
    ensures Join("\n", pre + TableLines(ts, repr)) == Join("\n", pre + Blocks(ts, repr))
    decreases |ts|
  {
    if ts != [] {
      var pre' := pre + ["", "[" + ts[0].0 + "]"] + EntryLines(ts[0].1, repr);
      JoinTablesStep(pre, ts, repr);
      JoinTables(pre', ts[1..], repr);
      BlocksStep(pre, ts, repr);
    }
  }

  /** The first header of the tables, with its leading line break, joins
      like an empty line followed by the bare header. */
  lemma {:induction false} JoinTablesStep(pre: seq<string>, ts: seq<(string, Dict<Value>)>, repr: Value -> string)
    requires ts != []
    ensures Join("\n", pre + TableLines(ts, repr)) ==
      Join("\n", pre + ["", "[" + ts[0].0 + "]"] + EntryLines(ts[0].1, repr) + TableLines(ts[1..], repr))
  {
    var h := "[" + ts[0].0 + "]";
    var el := EntryLines(ts[0].1, repr);
    var t := TableLines(ts[1..], repr);
    var z := el + t;
    assert TableLines(ts, repr) == ["\n" + h] + z by {
      assert "\n[" + ts[0].0 + "]" == "\n" + h;
    }
    assert pre + (["", h] + z) == pre + ["", h] + el + t;
    HeaderJoinAfter(pre, h, z);
  }

  lemma {:induction false} BlocksStep(pre: seq<string>, ts: seq<(string, Dict<Value>)>, repr: Value -> string)
    requires ts != []
    ensures pre + ["", "[" + ts[0].0 + "]"] + EntryLines(ts[0].1, repr) + Blocks(ts[1..], repr) == pre + Blocks(ts, repr)
  {
    var h := "[" + ts[0].0 + "]";
    var el := EntryLines(ts[0].1, repr);
    var b := Blocks(ts[1..], repr);
    assert Blocks(ts, repr) == ["", h] + el + b;
    assert pre + ["", h] + el + b == pre + (["", h] + el + b);
  }

  lemma {:induction false} BareKeyOneLine(k: string)
    requires BareKey(k)
    ensures NoLineBreak(k)
  {
  }

  lemma {:induction false} EntryLinesOneLine(es: Dict<Value>, repr: Value -> string)
    requires EntriesWritable(es)
    ensures forall i :: 0 <= i < |es| ==> NoLineBreak(EntryLines(es, repr)[i])
  {
    forall i | 0 <= i < |es| ensures NoLineBreak(EntryLines(es, repr)[i]) {
      BareKeyOneLine(es[i].0);
      TomlValueOneLine(es[i].1, repr);
      NoLineBreakAppend(es[i].0, " = ");
      NoLineBreakAppend(es[i].0 + " = ", TomlValue(es[i].1, repr));
    }
  }

  lemma {:induction false} BlocksOneLine(ts: seq<(string, Dict<Value>)>, repr: Value -> string)
    requires TablesWritable(ts)
    ensures forall i :: 0 <= i < |Blocks(ts, repr)| ==> NoLineBreak(Blocks(ts, repr)[i])
    decreases |ts|
  {
    if ts != [] {
      var h := "[" + ts[0].0 + "]";
      BareKeyOneLine(ts[0].0);
      NoLineBreakAppend("[", ts[0].0);
      NoLineBreakAppend("[" + ts[0].0, "]");
      EntryLinesOneLine(ts[0].1, repr);
      assert TablesWritable(ts[1..]) by {
        forall i | 0 <= i < |ts| - 1 ensures ts[1..][i] == ts[i + 1] { }
      }
      BlocksOneLine(ts[1..], repr);
      var a := ["", h] + EntryLines(ts[0].1, repr);
      assert Blocks(ts, repr) == a + Blocks(ts[1..], repr);
      LinesOneLineAppend(["", h], EntryLines(ts[0].1, repr));
      LinesOneLineAppend(a, Blocks(ts[1..], repr));
    }
  }

  lemma {:induction false} LinesOneLineAppend(a: seq<string>, b: seq<string>)
    requires forall i :: 0 <= i < |a| ==> NoLineBreak(a[i])
    requires forall i :: 0 <= i < |b| ==> NoLineBreak(b[i])
    ensures forall i :: 0 <= i < |a + b| ==> NoLineBreak((a + b)[i])
  {
    forall i | 0 <= i < |a + b| ensures NoLineBreak((a + b)[i]) {
      if i >= |a| {
        assert (a + b)[i] == b[i - |a|];
      } else {
        assert (a + b)[i] == a[i];
      }
    }
  }

  /** The lines of the written text, as a reader splits them. */
  function Physical(data: Dict<Value>, repr: Value -> string): seq<string> {
    EntryLines(Scalars(data), repr) + Blocks(Tables(data), repr)
  }

  lemma {:induction false} ReadPhysical(data: Dict<Value>, repr: Value -> string)
    requires EntriesWritable(Scalars(data)) && TablesWritable(Tables(data))
    ensures ReadFrom(Some(TomlDoc([], [])), Physical(data, repr)) == Some(Layout(data, repr))
  {
    var sc := Scalars(data);
    var ts := Tables(data);
    var el := EntryLines(sc, repr);
    ReadTop([], sc, repr);
    assert [] + Texts(sc, repr) == Texts(sc, repr);
    ReadBlocks(Texts(sc, repr), [], ts, repr);
    assert [] + TableTexts(ts, repr) == TableTexts(ts, repr);
    ReadFromAppend(Some(TomlDoc([], [])), el, Blocks(ts, repr));
  }

  lemma SplitPhysical(data: Dict<Value>, repr: Value -> string)
    requires EntriesWritable(Scalars(data)) && TablesWritable(Tables(data))
    ensures var phys := Physical(data, repr);
      SplitLines(Join("\n", phys) + "\n") == if phys == [] then [""] else phys
  {
    var sc := Scalars(data);
    var ts := Tables(data);
    var el := EntryLines(sc, repr);
    var phys := Physical(data, repr);
    if phys == [] {
      SplitLinesOfJoined([""]);
      assert Join("\n", phys) == Join("\n", [""]);
    } else {
      EntryLinesOneLine(sc, repr);
      BlocksOneLine(ts, repr);
      forall i | 0 <= i < |phys| ensures NoLineBreak(phys[i]) {
        if i >= |el| {
          assert phys[i] == Blocks(ts, repr)[i - |el|];
        }
      }
      SplitLinesOfJoined(phys);
    }
  }

  lemma {:induction false} ReadTomlLines(data: Dict<Value>, repr: Value -> string)
    requires TomlWritable(data)
    ensures ReadToml(Join("\n", TomlLines(data, repr)) + "\n") == Some(Layout(data, repr))
  {
    var sc := Scalars(data);
    var ts := Tables(data);
    ScalarsMembers(data);
    TablesMembers(data);
    assert EntriesWritable(sc);
    assert TablesWritable(ts);
    var phys := Physical(data, repr);
    JoinTables(EntryLines(sc, repr), ts, repr);
    assert Join("\n", TomlLines(data, repr)) + "\n" == Join("\n", phys) + "\n";
    SplitPhysical(data, repr);
    ReadPhysical(data, repr);
    if phys == [] {
      assert ReadFrom(Some(TomlDoc([], [])), [""]) == Some(TomlDoc([], []));
    }
  }
}

=== FILE: unflatten.dfy ===
/** `unflatten`: a flat dict with dotted keys becomes a nested one. Each key
    is split at its dots and its value is stored at that path, creating the
    dicts along the way (`setdefault`); a path that runs into a value that is
    not a dict makes Python raise, which the model reports as `None`. */
module Unflattening {
  import opened Optional
  import opened Text
  import opened Dicts
  import opened Values
  import opened Flattening

  /** `result[a][b]...`: the value at a path, if every step finds a dict. */
  function Lookup(d: Dict<Value>, path: Path): Option<Value>
    requires |path| >= 1
    decreases |path|
  {
    var x := Get(d, path[0]);
    if |path| == 1 || x.None? then x
    else if x.value.Map? then Lookup(x.value.entries, path[1..])
    else None
  }

  /** A path ends at a value that is not a dict. */
  predicate ScalarAt(d: Dict<Value>, path: Path) {
    |path| >= 1 && Lookup(d, path).Some? && !Lookup(d, path).value.Map?
  }

  /** Some proper prefix of `path` leads to a value that is not a dict, so
      walking down `path` has to index into it. */
  predicate Blocked(d: Dict<Value>, path: Path) {
    exists j :: 1 <= j < |path| && ScalarAt(d, path[..j])
  }

  /** One iteration of the outer loop of `unflatten`: descend with
      `setdefault(part, {})` for every part but the last, then assign the
      last. */
  function Insert(d: Dict<Value>, path: Path, v: Value): (r: Option<Dict<Value>>)
    requires |path| >= 1
    ensures |path| == 1 ==> r == Some(Put(d, path[0], v))
    ensures r.Some? && UniqueKeys(d) ==> UniqueKeys(r.value)
    decreases |path|
  {
    if |path| == 1 then
      PutUnique(d, path[0], v);
      Some(Put(d, path[0], v))
    else
      var sub := Get(d, path[0]);
      if sub.Some? && !sub.value.Map? then None
      else
        var inner := if sub.None? then [] else sub.value.entries;
        match Insert(inner, path[1..], v)
        case None => None
        case Some(e) =>
          PutUnique(d, path[0], Map(e));
          Some(Put(d, path[0], Map(e)))
  }

  /** A successful insertion binds the path's first key and leaves the other
      top-level keys as they were. */
  lemma {:induction false} InsertTop(d: Dict<Value>, path: Path, v: Value)
    requires |path| >= 1 && Insert(d, path, v).Some?
    ensures Get(Insert(d, path, v).value, path[0]).Some?
    ensures forall k :: k != path[0] ==> Get(Insert(d, path, v).value, k) == Get(d, k)
  {
    var r := Insert(d, path, v).value;
    if |path| == 1 {
      PutGetAll(d, path[0], v);
    } else {
      var sub := Get(d, path[0]);
      var inner := if sub.None? then [] else sub.value.entries;
      PutGetAll(d, path[0], Map(Insert(inner, path[1..], v).value));
    }
  }

  /** After a successful insertion the value sits at its path. */
  lemma {:induction false} InsertFound(d: Dict<Value>, path: Path, v: Value)
    requires |path| >= 1 && Insert(d, path, v).Some?
    ensures Lookup(Insert(d, path, v).value, path) == Some(v)
    decreases |path|
  {
    PutGet(d, path[0], v, path[0]);
    if |path| > 1 {
      var sub := Get(d, path[0]);
      var inner := if sub.None? then [] else sub.value.entries;
      var e := Insert(inner, path[1..], v).value;
      InsertFound(inner, path[1..], v);
      PutGet(d, path[0], Map(e), path[0]);
    }
  }

  /** Looking up a path of two or more steps is looking up its tail in the
      dict its first step finds. */
  lemma {:induction false} LookupStep(d: Dict<Value>, path: Path)
    requires |path| >= 2
    ensures Get(d, path[0]).None? ==> Lookup(d, path) == None
    ensures Get(d, path[0]).Some? && Get(d, path[0]).value.Map? ==>
      Lookup(d, path) == Lookup(Get(d, path[0]).value.entries, path[1..])
  {
  }

  /** Below a first step that finds a dict (or nothing, which `setdefault`
      replaces by an empty dict), a path is blocked exactly when its tail is
      blocked in that dict. */
  lemma {:induction false} BlockedStep(d: Dict<Value>, path: Path, inner: Dict<Value>)
    requires |path| > 1
    requires Get(d, path[0]).None? ==> inner == []
    requires Get(d, path[0]).Some? ==> Get(d, path[0]).value == Map(inner)
    ensures Blocked(d, path) <==> Blocked(inner, path[1..])
  {
    var tail := path[1..];
    assert path[..1][0] == path[0];
    assert !ScalarAt(d, path[..1]);
    forall j | 2 <= j < |path|
      ensures ScalarAt(d, path[..j]) <==> ScalarAt(inner, tail[..j - 1])
    {
      assert path[..j][0] == path[0] && path[..j][1..] == tail[..j - 1];
      LookupStep(d, path[..j]);
    }
    if Blocked(d, path) {
      var j :| 1 <= j < |path| && ScalarAt(d, path[..j]);
      assert ScalarAt(inner, tail[..j - 1]);
    }
    if Blocked(inner, tail) {
      var j :| 1 <= j < |tail| && ScalarAt(inner, tail[..j]);
      assert ScalarAt(d, path[..j + 1]);
    }
  }

  /** Insertion fails exactly when a proper prefix of the path already holds
      a value that is not a dict. */
  lemma {:induction false} InsertFails(d: Dict<Value>, path: Path, v: Value)
    requires |path| >= 1
    ensures Insert(d, path, v).None? <==> Blocked(d, path)
    decreases |path|
  {
    if |path| > 1 {
      var sub := Get(d, path[0]);
      assert path[..1][0] == path[0];
      if sub.Some? && !sub.value.Map? {
        assert ScalarAt(d, path[..1]);
      } else {
        var inner := if sub.None? then [] else sub.value.entries;
        InsertFails(inner, path[1..], v);
        BlockedStep(d, path, inner);
      }
    }
  }

  /** Neither path is a prefix of the other. */
  predicate Diverge(p: Path, q: Path) {
    exists i :: 0 <= i < |p| && i < |q| && p[i] != q[i]
  }

  /** A lookup depends only on what the first key of its path is bound to. */
  lemma {:induction false} LookupSameHead(a: Dict<Value>, b: Dict<Value>, q: Path)
    requires |q| >= 1 && Get(a, q[0]) == Get(b, q[0])
    ensures Lookup(a, q) == Lookup(b, q)
  {
  }

  /** Inserting at one path leaves every path that diverges from it as it
      was. */
  lemma {:induction false} InsertFrame(d: Dict<Value>, path: Path, v: Value, q: Path)
    requires |path| >= 1 && |q| >= 1 && Insert(d, path, v).Some?
    requires Diverge(path, q)
    ensures Lookup(Insert(d, path, v).value, q) == Lookup(d, q)
    decreases |path|
  {
    var i :| 0 <= i < |path| && i < |q| && path[i] != q[i];
    var r := Insert(d, path, v).value;
    if |path| == 1 {
      PutGet(d, path[0], v, q[0]);
      LookupSameHead(r, d, q);
    } else if path[0] != q[0] {
      var sub := Get(d, path[0]);
      var inner := if sub.None? then [] else sub.value.entries;
      var e := Insert(inner, path[1..], v).value;
      assert r == Put(d, path[0], Map(e));
      PutGet(d, path[0], Map(e), q[0]);
      LookupSameHead(r, d, q);
    } else {
      var sub := Get(d, path[0]);
      var inner := if sub.None? then [] else sub.value.entries;
      assert path[1..][i - 1] != q[1..][i - 1];
      InsertFrame(inner, path[1..], v, q[1..]);
      InsertFrameDeep(d, path, v, q, inner);
    }
  }

  /** The step of `InsertFrame` below a shared first key. */
  lemma {:induction false} InsertFrameDeep(d: Dict<Value>, path: Path, v: Value, q: Path, inner: Dict<Value>)
    requires |path| > 1 && |q| > 1 && path[0] == q[0]
    requires Get(d, path[0]).None? ==> inner == []
    requires Get(d, path[0]).Some? ==> Get(d, path[0]).value == Map(inner)
    requires Insert(inner, path[1..], v).Some?
    requires Lookup(Insert(inner, path[1..], v).value, q[1..]) == Lookup(inner, q[1..])
    ensures Insert(d, path, v).Some?
    ensures Lookup(Insert(d, path, v).value, q) == Lookup(d, q)
  {
    var e := Insert(inner, path[1..], v).value;
    var r := Put(d, path[0], Map(e));
    assert Insert(d, path, v) == Some(r);
    PutGet(d, path[0], Map(e), q[0]);
    LookupStep(r, q);
    LookupStep(d, q);
  }

  /** The paths of a flat dict's entries, each key split at its dots. */
  function SplitKeys(data: Dict<Value>): (ps: seq<(Path, Value)>)
    ensures |ps| == |data|
    ensures forall i :: 0 <= i < |ps| ==> ps[i] == (Split(data[i].0, '.'), data[i].1)
  {
    seq(|data|, i requires 0 <= i < |data| => (Split(data[i].0, '.'), data[i].1))
  }

  predicate NonEmptyPaths(ps: seq<(Path, Value)>) {
    forall i :: 0 <= i < |ps| ==> |ps[i].0| >= 1
  }

  /** The outer loop: the entries inserted one after another; the first
      failure ends it. */
  function InsertAll(d: Dict<Value>, ps: seq<(Path, Value)>): (r: Option<Dict<Value>>)
    requires NonEmptyPaths(ps)
    ensures ps == [] ==> r == Some(d)
    ensures r.Some? && UniqueKeys(d) ==> UniqueKeys(r.value)
    decreases |ps|
  {
    if ps == [] then Some(d)
    else
      match Insert(d, ps[0].0, ps[0].1)
      case None => None
      case Some(d') => InsertAll(d', ps[1..])
  }

  /** `unflatten(data)` */
  function Unflatten(data: Dict<Value>): (r: Option<Dict<Value>>)
    ensures data == [] ==> r == Some([])
    ensures r.Some? ==> UniqueKeys(r.value)
    ensures r.Some? ==> forall i :: 0 <= i < |data| ==> Get(r.value, Split(data[i].0, '.')[0]).Some?
  {
    var ps := SplitKeys(data);
    var r := InsertAll([], ps);
    if r.Some? then
      InsertAllTop([], ps);
      assert forall i :: 0 <= i < |data| ==> Split(data[i].0, '.')[0] == ps[i].0[0];
      r
    else r
  }

  /** Every key the loop starts with or inserts under ends up bound. */
  lemma {:induction false} InsertAllTop(d: Dict<Value>, ps: seq<(Path, Value)>)
    requires NonEmptyPaths(ps) && InsertAll(d, ps).Some?
    ensures forall k :: Get(d, k).Some? ==> Get(InsertAll(d, ps).value, k).Some?
    ensures forall i :: 0 <= i < |ps| ==> Get(InsertAll(d, ps).value, ps[i].0[0]).Some?
    decreases |ps|
  {
    if ps != [] {
      var d' := Insert(d, ps[0].0, ps[0].1).value;
      InsertTop(d, ps[0].0, ps[0].1);
      InsertAllTop(d', ps[1..]);
      assert forall i :: 1 <= i < |ps| ==> ps[i] == ps[1..][i - 1];
    }
  }

  /** The loop leaves every path that diverges from all the paths it
      inserts as it was. */
  lemma {:induction false} InsertAllFrame(d: Dict<Value>, ps: seq<(Path, Value)>, q: Path)
    requires NonEmptyPaths(ps) && |q| >= 1 && InsertAll(d, ps).Some?
    requires forall i :: 0 <= i < |ps| ==> Diverge(ps[i].0, q)
    ensures Lookup(InsertAll(d, ps).value, q) == Lookup(d, q)
    decreases |ps|
  {
    if ps != [] {
      var d' := Insert(d, ps[0].0, ps[0].1).value;
      InsertFrame(d, ps[0].0, ps[0].1, q);
      assert forall i :: 0 <= i < |ps| - 1 ==> ps[1..][i] == ps[i + 1];
      InsertAllFrame(d', ps[1..], q);
    }
  }

  /** A path the loop inserts keeps its value to the end unless a later path
      runs into it or below it. */
  lemma {:induction false} InsertAllFound(d: Dict<Value>, ps: seq<(Path, Value)>, i: nat)
    requires NonEmptyPaths(ps) && InsertAll(d, ps).Some? && i < |ps|
    requires forall j :: i < j < |ps| ==> Diverge(ps[j].0, ps[i].0)
    ensures Lookup(InsertAll(d, ps).value, ps[i].0) == Some(ps[i].1)
    decreases |ps|
  {
    var d' := Insert(d, ps[0].0, ps[0].1).value;
    assert forall j :: 0 <= j < |ps| - 1 ==> ps[1..][j] == ps[j + 1];
    if i == 0 {
      InsertFound(d, ps[0].0, ps[0].1);
      InsertAllFrame(d', ps[1..], ps[0].0);
    } else {
      InsertAllFound(d', ps[1..], i - 1);
    }
  }

  /** The first `i` steps of the loop, when `ps` starts with a successful
      insertion, are that insertion followed by `i - 1` steps. */
  lemma {:induction false} InsertAllPrefixStep(d: Dict<Value>, ps: seq<(Path, Value)>, i: nat)
    requires NonEmptyPaths(ps) && 0 < i <= |ps| && Insert(d, ps[0].0, ps[0].1).Some?
    ensures NonEmptyPaths(ps[..i]) && NonEmptyPaths(ps[1..][..i - 1])
    ensures InsertAll(d, ps[..i]) == InsertAll(Insert(d, ps[0].0, ps[0].1).value, ps[1..][..i - 1])
  {
    assert ps[..i][0] == ps[0];
    assert ps[..i][1..] == ps[1..][..i - 1];
  }

  /** Entry `i` is where the loop fails: the entries before it went in, and
      its path runs through a value that is not a dict. */
  predicate FailsAt(d: Dict<Value>, ps: seq<(Path, Value)>, i: nat)
    requires NonEmptyPaths(ps) && i < |ps|
  {
    InsertAll(d, ps[..i]).Some? && Blocked(InsertAll(d, ps[..i]).value, ps[i].0)
  }

  /** After a successful first insertion, failing at entry `i` is failing
      at entry `i - 1` of the rest. */
  lemma {:induction false} FailsAtStep(d: Dict<Value>, ps: seq<(Path, Value)>, i: nat)
    requires NonEmptyPaths(ps) && 0 < i < |ps| && Insert(d, ps[0].0, ps[0].1).Some?
    ensures NonEmptyPaths(ps[1..])
    ensures FailsAt(d, ps, i) <==> FailsAt(Insert(d, ps[0].0, ps[0].1).value, ps[1..], i - 1)
  {
    InsertAllPrefixStep(d, ps, i);
    assert ps[i] == ps[1..][i - 1];
  }

  /** The loop fails exactly when it fails at some entry. */
  lemma {:induction false} InsertAllFails(d: Dict<Value>, ps: seq<(Path, Value)>)
    requires NonEmptyPaths(ps)
    ensures InsertAll(d, ps).None? <==> exists i :: 0 <= i < |ps| && FailsAt(d, ps, i)
    decreases |ps|, 1
  {
    if ps != [] {
      InsertFails(d, ps[0].0, ps[0].1);
      assert ps[..0] == [];
      if Insert(d, ps[0].0, ps[0].1).Some? {
        assert !FailsAt(d, ps, 0);
        InsertAllFailsLater(d, ps);
      } else {
        assert FailsAt(d, ps, 0);
      }
    }
  }

  /** After a successful first insertion, the loop fails exactly when it
      fails at a later entry. */
  lemma {:induction false} InsertAllFailsLater(d: Dict<Value>, ps: seq<(Path, Value)>)
    requires NonEmptyPaths(ps) && ps != [] && Insert(d, ps[0].0, ps[0].1).Some?
    ensures InsertAll(d, ps).None? <==> exists i :: 0 < i < |ps| && FailsAt(d, ps, i)
    decreases |ps|, 0
  {
    var d' := Insert(d, ps[0].0, ps[0].1).value;
    var tl := ps[1..];
    assert InsertAll(d, ps) == InsertAll(d', tl);
    InsertAllFails(d', tl);
    if InsertAll(d, ps).None? {
      var i' :| 0 <= i' < |tl| && FailsAt(d', tl, i');
      FailsAtStep(d, ps, i' + 1);
    } else {
      forall i | 0 < i < |ps| ensures !FailsAt(d, ps, i) {
        FailsAtStep(d, ps, i);
      }
    }
  }

  /** After a successful `unflatten`, every key's value sits at its dotted
      path unless a later key runs into that path or below it. */
  lemma {:induction false} UnflattenFound(data: Dict<Value>, i: nat)
    requires i < |data| && Unflatten(data).Some?
    requires forall j :: i < j < |data| ==> Diverge(Split(data[j].0, '.'), Split(data[i].0, '.'))
    ensures Lookup(Unflatten(data).value, Split(data[i].0, '.')) == Some(data[i].1)
  {
    InsertAllFound([], SplitKeys(data), i);
  }

  /** `unflatten` raises exactly when some key, after the keys before it
      went in, runs through a value that is not a dict. */
  lemma {:induction false} UnflattenFails(data: Dict<Value>)
    ensures Unflatten(data).None? <==>
      exists i :: 0 <= i < |data| && Unflatten(data[..i]).Some? && Blocked(Unflatten(data[..i]).value, Split(data[i].0, '.'))
  {
    var ps := SplitKeys(data);
    InsertAllFails([], ps);
    forall i | 0 <= i < |data|
      ensures FailsAt([], ps, i) <==>
        Unflatten(data[..i]).Some? && Blocked(Unflatten(data[..i]).value, Split(data[i].0, '.'))
    {
      UnflattenPrefix(data, i);
    }
  }

  /** `unflatten` of the first `i` keys is the loop's first `i` steps. */
  lemma {:induction false} UnflattenPrefix(data: Dict<Value>, i: nat)
    requires i <= |data|
    ensures NonEmptyPaths(SplitKeys(data)[..i])
    ensures Unflatten(data[..i]) == InsertAll([], SplitKeys(data)[..i])
  {
    assert SplitKeys(data[..i]) == SplitKeys(data)[..i];
  }

  lemma {:induction false} InsertAllAppend(d: Dict<Value>, a: seq<(Path, Value)>, b: seq<(Path, Value)>)
    requires NonEmptyPaths(a) && NonEmptyPaths(b)
    ensures NonEmptyPaths(a + b)
    ensures InsertAll(d, a + b) == if InsertAll(d, a).None? then None else InsertAll(InsertAll(d, a).value, b)
    decreases |a|
  {
    if a != [] {
      assert (a + b)[0] == a[0] && (a + b)[1..] == a[1..] + b;
      match Insert(d, a[0].0, a[0].1)
      case None =>
      case Some(d') =>
        assert InsertAll(d, a + b) == InsertAll(d', a[1..] + b);
        assert InsertAll(d, a) == InsertAll(d', a[1..]);
        InsertAllAppend(d', a[1..], b);
    } else {
      assert a + b == b;
    }
  }

  lemma {:induction false} GetLast(r: Dict<Value>, k: string, x: Value)
    requires k !in Keys(r)
    ensures Get(r + [(k, x)], k) == Some(x)
  {
    PutGet(r, k, x, k);
  }

  /** A flat dict none of whose keys holds a dot comes back unchanged: every
      key is its own one-step path. */
  lemma {:induction false} InsertAllDotFree(r: Dict<Value>, es: Dict<Value>)
    requires UniqueKeys(r + es)
    requires forall i :: 0 <= i < |es| ==> '.' !in es[i].0
    ensures InsertAll(r, SplitKeys(es)) == Some(r + es)
    decreases |es|
  {
    if es != [] {
      var e := es[0];
      assert SplitKeys(es)[1..] == SplitKeys(es[1..]);
      UniqueKeysSplit(r, es);
      assert e.0 !in Keys(r) by {
        forall i | 0 <= i < |r| ensures Keys(r)[i] != e.0 {
          assert r[i].0 != es[0].0;
        }
      }
      assert SplitKeys(es)[0] == ([e.0], e.1);
      assert Insert(r, [e.0], e.1) == Some(r + [e]);
      assert InsertAll(r, SplitKeys(es)) == InsertAll(r + [e], SplitKeys(es[1..]));
      assert (r + [e]) + es[1..] == r + es;
      InsertAllDotFree(r + [e], es[1..]);
    } else {
      assert r + es == r;
    }
  }

  lemma {:induction false} UnflattenDotFree(data: Dict<Value>)
    requires UniqueKeys(data)
    requires forall i :: 0 <= i < |data| ==> '.' !in data[i].0
    ensures Unflatten(data) == Some(data)
  {
    assert [] + data == data;
    InsertAllDotFree([], data);
  }

  /** The result of inserting below a fresh key `k`, when inserting the same
      entries into an empty dict gives `o`. */
  function Wrap(r: Dict<Value>, k: string, o: Option<Dict<Value>>): Option<Dict<Value>> {
    if o.None? then None else Some(r + [(k, Map(o.value))])
  }

  /** Inserting entries whose paths all start with `k`, the last key of the
      dict, works inside the dict held at `k`. */
  lemma {:induction false} InsertAllUnderLast(r: Dict<Value>, k: string, t: Dict<Value>, q: seq<(Path, Value)>)
    requires k !in Keys(r) && Leaves(q)
    ensures NonEmptyPaths(Under(k, q))
    ensures InsertAll(r + [(k, Map(t))], Under(k, q)) == Wrap(r, k, InsertAll(t, q))
    decreases |q|
  {
    var u := Under(k, q);
    if q != [] {
      assert u[0] == ([k] + q[0].0, q[0].1) && u[1..] == Under(k, q[1..]);
      assert u[0].0[0] == k && u[0].0[1..] == q[0].0;
      GetLast(r, k, Map(t));
      match Insert(t, q[0].0, q[0].1)
      case None =>
      case Some(t') =>
        PutLast(r, k, Map(t), Map(t'));
        InsertAllUnderLast(r, k, t', q[1..]);
    }
  }

  /** Inserting entries whose paths all start with a fresh key `k` builds
      the dict at `k` from nothing. */
  lemma {:induction false} InsertAllUnder(r: Dict<Value>, k: string, q: seq<(Path, Value)>)
    requires k !in Keys(r) && Leaves(q) && |q| >= 1
    ensures NonEmptyPaths(Under(k, q))
    ensures InsertAll(r, Under(k, q)) == Wrap(r, k, InsertAll([], q))
  {
    var u := Under(k, q);
    assert u[0] == ([k] + q[0].0, q[0].1) && u[1..] == Under(k, q[1..]);
    assert u[0].0[0] == k && u[0].0[1..] == q[0].0;
    match Insert([], q[0].0, q[0].1)
    case None =>
    case Some(t') =>
      InsertAllUnderLast(r, k, t', q[1..]);
  }

  /** The leaves of a flattened dict as `parse_env` would hand them back:
      every flat value a string. */
  function Items(ps: seq<(Path, Value)>, dumps: seq<Value> -> string): (r: seq<(Path, Value)>)
    requires Leaves(ps)
    ensures Leaves(r) && |r| == |ps|
  {
    seq(|ps|, i requires 0 <= i < |ps| => (ps[i].0, Str(LeafText(ps[i].1, dumps))))
  }

  /** A nested dict with every leaf replaced by the string `flatten` writes
      for it. */
  function Stringified(m: Value, dumps: seq<Value> -> string): (r: Dict<Value>)
    requires m.Map?
    decreases m, 1
  {
    StringifiedUpTo(m, |m.entries|, dumps)
  }

  function StringifiedUpTo(m: Value, n: nat, dumps: seq<Value> -> string): (r: Dict<Value>)
    requires m.Map? && n <= |m.entries|
    ensures |r| == n
    decreases m, 0, n
  {
    if n == 0 then []
    else
      var k := m.entries[n - 1].0;
      var v := m.entries[n - 1].1;
      StringifiedUpTo(m, n - 1, dumps) + [(k, if v.Map? then Map(Stringified(v, dumps)) else Str(LeafText(v, dumps)))]
  }

  /** Stringifying keeps the keys, in order. */
  lemma {:induction false} StringifiedKeys(m: Value, n: nat, dumps: seq<Value> -> string)
    requires m.Map? && n <= |m.entries|
    ensures Keys(StringifiedUpTo(m, n, dumps)) == Keys(m.entries)[..n]
  {
    if n > 0 {
      StringifiedKeys(m, n - 1, dumps);
      var init := StringifiedUpTo(m, n - 1, dumps);
      var k := m.entries[n - 1].0;
      var v := m.entries[n - 1].1;
      var x := (k, if v.Map? then Map(Stringified(v, dumps)) else Str(LeafText(v, dumps)));
      var r := StringifiedUpTo(m, n, dumps);
      assert r == init + [x];
      var ks := Keys(m.entries);
      forall i | 0 <= i < n ensures Keys(r)[i] == ks[..n][i] {
        if i < n - 1 {
          assert r[i] == init[i] && Keys(init)[i] == ks[..n - 1][i];
        } else {
          assert r[i] == x;
        }
      }
    }
  }

  /** Every dict below the top has at least one entry. */
  predicate NoEmptyTables(m: Value)
    decreases m
  {
    m.Map? ==>
      forall i :: 0 <= i < |m.entries| ==>
        (m.entries[i].1.Map? ==> |m.entries[i].1.entries| >= 1) && NoEmptyTables(m.entries[i].1)
  }

  lemma {:induction false} SomeLeaf(m: Value)
    requires m.Map? && NoEmptyTables(m) && |m.entries| >= 1
    ensures |LeafPaths(m)| >= 1
    decreases m
  {
    var n := |m.entries|;
    var k := m.entries[n - 1].0;
    var v := m.entries[n - 1].1;
    var inner := if v.Map? then LeafPaths(v) else [];
    assert |LeafPathsUpTo(m, n)| >= |EntryPaths(k, v, inner)|;
    if v.Map? {
      assert NoEmptyTables(v) && |v.entries| >= 1;
      SomeLeaf(v);
    }
  }

  lemma {:induction false} InsertLeavesUpTo(m: Value, n: nat, dumps: seq<Value> -> string)
    requires m.Map? && WellKeyed(m) && NoEmptyTables(m) && n <= |m.entries|
    ensures InsertAll([], Items(LeafPathsUpTo(m, n), dumps)) == Some(StringifiedUpTo(m, n, dumps))
    decreases m, 0, n, 2
  {
    if n > 0 {
      InsertLeavesUpTo(m, n - 1, dumps);
      InsertLeavesStep(m, n, dumps);
    }
  }

  /** The leaves of entry `n - 1`, inserted after those of the entries
      before it, add that entry. */
  lemma {:induction false} InsertLeavesStep(m: Value, n: nat, dumps: seq<Value> -> string)
    requires m.Map? && WellKeyed(m) && NoEmptyTables(m) && 0 < n <= |m.entries|
    requires InsertAll([], Items(LeafPathsUpTo(m, n - 1), dumps)) == Some(StringifiedUpTo(m, n - 1, dumps))
    ensures InsertAll([], Items(LeafPathsUpTo(m, n), dumps)) == Some(StringifiedUpTo(m, n, dumps))
    decreases m, 0, n, 1
  {
    var k := m.entries[n - 1].0;
    var v := m.entries[n - 1].1;
    var a := LeafPathsUpTo(m, n - 1);
    var b := EntryPaths(k, v, if v.Map? then LeafPaths(v) else []);
    assert LeafPathsUpTo(m, n) == a + b;
    ItemsAppend(a, b, dumps);
    InsertAllAppend([], Items(a, dumps), Items(b, dumps));
    var s := StringifiedUpTo(m, n - 1, dumps);
    KeyFresh(m, n);
    StringifiedKeys(m, n - 1, dumps);
    if v.Map? {
      assert WellKeyed(v) && NoEmptyTables(v) && |v.entries| >= 1;
      SomeLeaf(v);
      InsertLeaves(v, dumps);
    }
    InsertEntry(s, k, v, dumps);
    assert StringifiedUpTo(m, n, dumps) ==
      s + [(k, if v.Map? then Map(Stringified(v, dumps)) else Str(LeafText(v, dumps)))];
  }

  lemma {:induction false} ItemsAppend(a: seq<(Path, Value)>, b: seq<(Path, Value)>, dumps: seq<Value> -> string)
    requires Leaves(a) && Leaves(b)
    ensures Leaves(a + b)
    ensures Items(a + b, dumps) == Items(a, dumps) + Items(b, dumps)
  {
    assert forall i :: 0 <= i < |a| ==> (a + b)[i] == a[i];
    assert forall i :: 0 <= i < |b| ==> (a + b)[|a| + i] == b[i];
  }

  /** One entry of the nested dict: its leaves, inserted after those of the
      entries before it, add it at the end. */
  lemma InsertEntry(s: Dict<Value>, k: string, v: Value, dumps: seq<Value> -> string)
    requires k !in Keys(s)
    requires v.Map? ==> |LeafPaths(v)| >= 1 && InsertAll([], Items(LeafPaths(v), dumps)) == Some(Stringified(v, dumps))
    ensures InsertAll(s, Items(EntryPaths(k, v, if v.Map? then LeafPaths(v) else []), dumps)) ==
      Some(s + [(k, if v.Map? then Map(Stringified(v, dumps)) else Str(LeafText(v, dumps)))])
  {
    if v.Map? {
      var q := Items(LeafPaths(v), dumps);
      assert Items(Under(k, LeafPaths(v)), dumps) == Under(k, q);
      InsertAllUnder(s, k, q);
    } else {
      assert Items([([k], v)], dumps) == [([k], Str(LeafText(v, dumps)))];
    }
  }

  lemma {:induction false} InsertLeaves(m: Value, dumps: seq<Value> -> string)
    requires m.Map? && WellKeyed(m) && NoEmptyTables(m)
    ensures InsertAll([], Items(LeafPaths(m), dumps)) == Some(Stringified(m, dumps))
    decreases m, 1
  {
    InsertLeavesUpTo(m, |m.entries|, dumps);
  }

  /** The flat dict with its values read back as strings. */
  function Lift(flat: Dict<string>): (r: Dict<Value>)
    ensures |r| == |flat|
    ensures forall i :: 0 <= i < |r| ==> r[i] == (flat[i].0, Str(flat[i].1))
  {
    seq(|flat|, i requires 0 <= i < |flat| => (flat[i].0, Str(flat[i].1)))
  }

  /** `unflatten` undoes `flatten` for a dict whose keys hold no dots and
      whose nested dicts are not empty, up to every leaf turning into the
      string `flatten` wrote for it. */
  lemma {:induction false} UnflattenFlatten(m: Value, dumps: seq<Value> -> string)
    requires m.Map? && WellKeyed(m) && NoEmptyTables(m)
    ensures Unflatten(Lift(Flatten(m, "", dumps))) == Some(Stringified(m, dumps))
  {
    var ps := LeafPaths(m);
    FlattenWellKeyed(m, dumps);
    WellKeyedPaths(m);
    var flat := Flatten(m, "", dumps);
    var sk := SplitKeys(Lift(flat));
    var items := Items(ps, dumps);
    forall i | 0 <= i < |ps| ensures sk[i] == items[i] {
      assert flat[i] == (Join(".", ps[i].0), LeafText(ps[i].1, dumps));
      assert forall j :: 0 <= j < |ps[i].0| ==> Segment(ps[i].0[j]);
      SplitJoin(ps[i].0, '.');
    }
    assert sk == items;
    InsertLeaves(m, dumps);
  }

  /** Every leaf is a string, at any depth. */
  predicate AllStrings(m: Value)
    decreases m
  {
    m.Map? ==>
      forall i :: 0 <= i < |m.entries| ==>
        (m.entries[i].1.Map? && AllStrings(m.entries[i].1)) || m.entries[i].1.Str?
  }

  lemma {:induction false} StringifiedStrings(m: Value, dumps: seq<Value> -> string)
    requires m.Map? && AllStrings(m)
    ensures Stringified(m, dumps) == m.entries
    decreases m, 1
  {
    StringifiedStringsUpTo(m, |m.entries|, dumps);
  }

  lemma {:induction false} StringifiedStringsUpTo(m: Value, n: nat, dumps: seq<Value> -> string)
    requires m.Map? && AllStrings(m) && n <= |m.entries|
    ensures StringifiedUpTo(m, n, dumps) == m.entries[..n]
    decreases m, 0, n
  {
    if n > 0 {
      StringifiedStringsUpTo(m, n - 1, dumps);
      var v := m.entries[n - 1].1;
      if v.Map? {
        StringifiedStrings(v, dumps);
      }
      assert m.entries[..n] == m.entries[..n - 1] + [m.entries[n - 1]];
    }
  }

  /** For a dict of strings, `unflatten(flatten(d)) == d`. */
  lemma {:induction false} UnflattenFlattenStrings(m: Value, dumps: seq<Value> -> string)
    requires m.Map? && WellKeyed(m) && NoEmptyTables(m) && AllStrings(m)
    ensures Unflatten(Lift(Flatten(m, "", dumps))) == Some(m.entries)
  {
    UnflattenFlatten(m, dumps);
    StringifiedStrings(m, dumps);
  }
}

=== FILE: values.dfy ===
/** The in-memory configuration value every reader produces and every writer
    consumes: what `json.loads`, `yaml.safe_load`, `tomllib.loads` and the
    INI and .env readers return. */
module Values {
  import opened Text
  import opened Dicts

  /** A float is carried as the text Python's `str(float)` gives for it; the
      model never computes with it. */
  datatype Value =
    | Null
    | Bool(b: bool)
    | Int(i: int)
    | Float(text: string)
    | Str(s: string)
    | List(items: seq<Value>)
    | Map(entries: Dict<Value>)

  /** A value that is neither a list nor a dict. */
  predicate IsScalar(v: Value) {
    !v.List? && !v.Map?
  }

  /** Python `str(v)` of a scalar: `None`, `True`/`False`, the decimal
      digits of an int, the float's text, the string itself. */
  function ScalarStr(v: Value): string
    requires IsScalar(v)
  {
    if v.Null? then "None"
    else if v.Bool? then (if v.b then "True" else "False")
    else if v.Int? then IntToDecimal(v.i)
    else if v.Float? then v.text
    else v.s
  }

  /** Python `str(v)`. `repr` stands for Python's `repr` of a list or a dict,
      which the model treats as opaque. */
  function PyStr(v: Value, repr: Value -> string): string {
    if IsScalar(v) then ScalarStr(v) else repr(v)
  }

  /** `any(isinstance(v, dict) for v in data.values())` */
  predicate HasTable(data: Dict<Value>) {
    exists i :: 0 <= i < |data| && data[i].1.Map?
  }

  /** The non-dict top-level entries, in order. */
  function Scalars(data: Dict<Value>): (r: Dict<Value>)
    ensures forall i :: 0 <= i < |r| ==> !r[i].1.Map?
    ensures !HasTable(data) ==> r == data
    ensures |r| <= |data|
  {
    if data == [] then []
    else
      var init := Scalars(data[..|data| - 1]);
      var last := data[|data| - 1];
      assert data == data[..|data| - 1] + [last];
      if last.1.Map? then init else init + [last]
  }

  /** The dict-valued top-level entries, in order, each with its entries. */
  function Tables(data: Dict<Value>): (r: seq<(string, Dict<Value>)>)
    ensures !HasTable(data) <==> r == []
  {
    if data == [] then []
    else
      var init := Tables(data[..|data| - 1]);
      var last := data[|data| - 1];
      assert data == data[..|data| - 1] + [last];
      if last.1.Map? then init + [(last.0, last.1.entries)] else init
  }

  /** The scalar part holds exactly the non-dict entries of the dict. */
  lemma {:induction false} ScalarsMembers(data: Dict<Value>)
    ensures forall i :: 0 <= i < |Scalars(data)| ==> Scalars(data)[i] in data
    ensures forall i :: 0 <= i < |data| && !data[i].1.Map? ==> data[i] in Scalars(data)
    decreases |data|
  {
    if data != [] {
      var init := data[..|data| - 1];
      var last := data[|data| - 1];
      assert data == init + [last];
      ScalarsMembers(init);
    }
  }

  /** The tables are exactly the dict-valued entries of the dict. */
  lemma {:induction false} TablesMembers(data: Dict<Value>)
    ensures forall i :: 0 <= i < |Tables(data)| ==> (Tables(data)[i].0, Map(Tables(data)[i].1)) in data
    ensures forall i :: 0 <= i < |data| && data[i].1.Map? ==> (data[i].0, data[i].1.entries) in Tables(data)
    decreases |data|
  {
    if data != [] {
      var init := data[..|data| - 1];
      var last := data[|data| - 1];
      assert data == init + [last];
      TablesMembers(init);
    }
  }

  /** Splitting a dict into scalars and tables respects concatenation, so
      both parts keep the order of the dict. */
  lemma {:induction false} ScalarsAppend(a: Dict<Value>, b: Dict<Value>)
    ensures Scalars(a + b) == Scalars(a) + Scalars(b)
    decreases |b|
  {
    if b == [] {
      assert a + b == a;
    } else {
      var last := b[|b| - 1];
      var b' := b[..|b| - 1];
      assert (a + b)[..|a + b| - 1] == a + b';
      ScalarsAppend(a, b');
    }
  }

  lemma {:induction false} TablesAppend(a: Dict<Value>, b: Dict<Value>)
    ensures Tables(a + b) == Tables(a) + Tables(b)
    decreases |b|
  {
    if b == [] {
      assert a + b == a;
    } else {
      var last := b[|b| - 1];
      var b' := b[..|b| - 1];
      assert (a + b)[..|a + b| - 1] == a + b';
      TablesAppend(a, b');
    }
  }

  /** `{k: str(v) for k, v in data.items()}` */
  function StrValues(data: Dict<Value>, repr: Value -> string): (r: Dict<string>)
    ensures |r| == |data| && Keys(r) == Keys(data)
    ensures forall i :: 0 <= i < |data| ==> r[i] == (data[i].0, PyStr(data[i].1, repr))
  {
    if data == [] then []
    else [(data[0].0, PyStr(data[0].1, repr))] + StrValues(data[1..], repr)
  }
}
